=== FILE: README.md ===
# tablarray shape core in Dafny

tablarray is a Python library built on numpy. A `TablArray` is a numpy base array whose
axes are split into two groups: the leading *tabular* axes (`tshape`) and the trailing
*cellular* axes (`cshape`, their number is `cdim`). Which group an index, an axis or a
new shape applies to is decided by the array's *view* tag: `table`, `bcast`, `cell` or
`array`.

This project models the shape-level logic of the library. Array contents are never
modelled, only shapes, descriptors, view tags, keys and strings. The model covers:

- the broadcast-checked containers: `TablaSet` (`tablarray/set.py`), `Assembly`
  (`tablarray/assy.py`), and the older `Assembly` (`assy.py`) and `dbTA` (`db.py`).
  A container keeps a master descriptor, merges every insert into it, refuses inserts
  that do not broadcast, and derives its view shape from the master;
- `reshape`, `ravel` and `tile` per view (`tablarray/re.py`, `re.py`);
- the result-wrapping rules (`_io.py`), the cumulative-op wrapper (`np2ta/ax2_op.py`)
  and the four view accessors (`views.py`);
- the string layouts: the `|` barriers of `tdimstr.py`, the cell and digest layout of
  `tablarray/_tabstr.py`, the table printer of `tablestr.py`, and the numpy-survey
  script `tests/class_np.py`.

Modules, one per file:

| file | module | models |
|---|---|---|
| common.dfy | Common | exception classes, `Result`, `Option`, `Step` (state after a call plus the exception it raised) |
| shapes.dfy | Shapes | descriptors, views, broadcasting and `combine`, the view dimensions |
| text.dfy | Text | Python `str.split`, `join`, slicing and counting on `seq<char>` |
| omap.dfy | OrderedMaps | insertion-ordered dicts |
| values.dfy | Values | the Python values the operations receive |
| io.dfy, axial.dfy, views.dfy | Io, Axial, Views | `_io.py`, `np2ta/ax2_op.py`, `views.py` |
| reshape.dfy | Reshaping | `tablarray/re.py` and `re.py` (identical code) |
| containers.dfy | Containers | `TablaSet` and `Assembly` of `tablarray/` (identical code) |
| tablaset.dfy | TablaSets | `meshtile` and `_survey_view` |
| legacy.dfy | Legacy | `assy.py` and `db.py` |
| tdimstr.dfy | TdimStr | `tdimstr.py` |
| tabstr.dfy, digest.dfy | TabStr, Digest | `tablarray/_tabstr.py` |
| tablestr.dfy | TableStr | `tablestr.py` |
| classnp.dfy | ClassNp | `tests/class_np.py` |

Modelling choices:

- A Python exception that leaves the object partly updated is a `Step(state, raised)`
  result, which keeps the partial update. An example is a non-string key, which raises
  only after the master has been merged.
- `combine`, the `TablArray` constructor and `_viewdims` belong to the library's shape
  engine, and that engine is not part of this model. They are supplied as model
  functions:
  - `Shapes.Combine` is numpy's right-aligned broadcasting, applied to the tabular and
    the cellular group independently;
  - the constructor is `Shapes.MakeDescriptor` (the last `cdim` axes are cellular);
  - `_viewdims` is `Axial.ViewAxis` (a cell-view axis is shifted by `tdim`, a negative
    axis counts from the end of the view's group, and an absent axis stays absent, so
    numpy flattens).
- `np.reshape` treats a negative entry of the new shape as the one unknown size
  (`Reshaping.NpReshape`); a second one is its ValueError.
- A cell's rendering (`TableCell._str_cell0`) is text, or nothing where the
  `%`-formatting raises TypeError (`'%0.4g'` of a string).
- numpy's rendering of an array is a string parameter. Numeric formatting (`%d`,
  `%0.4g`, `%1.2e`, ...) is a function or record parameter giving the candidate strings.
- The indexing of a member (`element.bcast[indices]`) is a function parameter.
- The `__view__` of foreign objects (a TablaSet, say) is a function parameter.

## Model

| member | source | states |
|---|---|---|
| Shapes.ParseView | tablarray/set.py:165-179 | a tag is one of the four views exactly when it is `table`, `bcast`, `cell` or `array`, and the parsed view prints back as the tag |
| Shapes.ParseTagRoundTrip | tablarray/set.py:165-179 | every view parses back from its own tag |
| Shapes.BroadcastCorrect | tablarray/set.py:197-198 | broadcasting succeeds exactly when every right-aligned pair of axes is equal or has a 1, and then gives the pointwise broadcast shape (missing axes count as 1) |
| Shapes.CombineCorrect | tablarray/set.py:197-198 | `combine` succeeds exactly when both axis groups are compatible; each group of the result has the larger rank |
| Shapes.CombineSymmetric | tablarray/set.py:197-198 | combining does not depend on the operands' order |
| Shapes.CombineSelf | tablarray/set.py:197-198 | a descriptor combined with itself is itself |
| Shapes.CombineFits | tablarray/set.py:197-203 | both operands of a successful combination broadcast into the result, so a merged master only grows |
| Shapes.FitsCombine | tablarray/set.py:197-203 | two descriptors that both fit a master combine, and their combination fits that master too |
| Shapes.FitsTransitive | tablarray/set.py:197-203 | fitting into a master that fits a larger master means fitting that larger master |
| Shapes.MakeDescriptor | _io.py:20 | the constructor succeeds exactly when `0 <= cdim <= ndim`; the descriptor's base shape is the input shape and its cdim is the given one |
| Shapes.MakeDescriptorRoundTrip | _io.py:20 | rebuilding a descriptor from its own base shape and cdim gives it back |
| Shapes.ViewDims | tablarray/set.py:162-179 | table and bcast expose the tshape, cell the cshape, array the whole base shape; ndim is the rank and size the product of what is exposed |
| Shapes.CombineExample | tests/test_bin_op.py:30-49 | t(4,1)\|c(2) with t(3)\|c(1,2) combines to t(4,3)\|c(1,2), a 4x3x1x2 base with cdim 2 |
| Shapes.CombineRefusedExample | tablarray/set.py:91-95 | t(3)\|c() and t(5)\|c() do not combine |
| OrderedMaps.Put | tablarray/set.py:206 | storing under an existing key keeps the key order; a new key goes last; the value map is updated at that key only |
| OrderedMaps.Get | assy.py:85-86 | lookup succeeds exactly for present keys, returning their value, and is a KeyError otherwise |
| OrderedMaps.Filter | tests/class_np.py:35-40 | keeps exactly the entries whose key passes, with their values, in their original order |
| OrderedMaps.KeepMembers | tests/class_np.py:37-39 | an element survives the filter exactly when it occurs and passes |
| OrderedMaps.KeepBoth | tests/class_np.py:37-39 | filtering twice is filtering by both conditions at once |
| Io.QuacksLikeTablArray | _io.py:12-13 | a TablArray quacks, a plain array or scalar does not, and any other object does exactly when it has both `ts` and `view`, a `ts` that is None included |
| Io.Wrap | _io.py:20 | wrapping succeeds exactly when `0 <= cdim <= ndim` and keeps the raw result as the base shape |
| Io.RvalOnceATa | _io.py:16-20 | the raw result comes back unchanged exactly when its rank equals `cdim`; otherwise it is wrapped with exactly the given cdim and view, or fails for an impossible cdim |
| Io.RvalAlwaysTa | _io.py:23-24 | the result is always wrapped, with the given cdim, whatever its rank |
| Io.OnceAndAlwaysAgreeWithTabularAxes | _io.py:16-24 | the two rules give the same result whenever the result has tabular axes |
| Axial.ViewAxis | np2ta/ax2_op.py:17-19 | an absent axis stays absent; a negative axis counts from the end of the view's group; a table/bcast axis must be tabular, a cell axis is shifted past the tabular axes, an array axis indexes the whole base; an out-of-range axis is an AxisError and an unknown view a ValueError |
| Axial.Normalise | np2ta/ax2_op.py:17 | exactly the axes from -n to n-1 of a rank-n group are accepted, a negative one counting from the end |
| Axial.Primitive | np2ta/ax2_op.py:20 | a cumulative numpy primitive keeps the shape along an axis within the rank, of either sign; without an axis it flattens to one axis of all the elements; any other axis is an AxisError |
| Axial.Cumulative | np2ta/ax2_op.py:13-31 | a plain array passes straight to numpy, flattened when no axis is given; a TablArray's axis goes through its view's axis map; along an axis the result is bare exactly when the operand has no tabular axes, and is otherwise rewrapped with the operand's cdim and view; without an axis the flattened base is bare for cdim 1, a one-axis table for cdim 0, and refused for a larger cdim |
| Axial.CumulativeUnwrapLaw | np2ta/ax2_op.py:23-26 | for any in-range axis of a recognised view, negative or not, the wrapper succeeds, and unwraps exactly when tdim is 0 |
| Axial.NegativeAxisAgrees | np2ta/ax2_op.py:17-20 | a negative axis gives the same result as its count from the front, for plain arrays and TablArrays alike |
| Views.ViewAccessor | views.py:9-35 | an object with both `ts` and `__view__` is asked for the view; a TablArray keeps its descriptor and takes the tag; anything else comes back unchanged |
| Views.BcastOf | views.py:9-14 | `bcast` retags a TablArray as `bcast` and passes other objects through |
| Views.CellOf | views.py:17-21 | `cell` retags a TablArray as `cell` and passes other objects through |
| Views.TableOf | views.py:24-28 | `table` retags a TablArray as `table` and passes other objects through |
| Views.ArrayOf | views.py:31-35 | `array` retags a TablArray as `array` and passes other objects through |
| Views.AccessorsPassPlainValues | views.py:12-14 | plain numpy arrays and scalars pass unchanged through every accessor |
| Views.EmptyTablaSetViewed | views.py:9-14 | a TablaSet whose `ts` is still None is asked for its view all the same, and it quacks like a TablArray |
| Views.ViewRoundTrip | views.py:9-35 | switching a TablArray to another view and back to its own gives back the same TablArray |
| Reshaping.NpReshape | tablarray/re.py:39 | numpy's reshape succeeds exactly when the requested shape can hold the elements: with no unknown entry the sizes multiply to the element count, with one the given sizes divide it; the result has every given size and keeps the count, and anything else is a ValueError |
| Reshaping.NpReshapeKnown | tablarray/re.py:39 | a fully given shape is reshaped to exactly when it keeps the element count |
| Reshaping.NpReshapeUnique | tablarray/re.py:39 | when the given sizes have a positive product, the resolved shape is the only one of the right element count that the request describes |
| Reshaping.ViewSplit | tablarray/re.py:36-50 | the elements a view exposes times the elements of the group it leaves alone are all the elements |
| Reshaping.Reshape | tablarray/re.py:31-52 | a plain array is reshaped by numpy, an int new shape being one axis; table/bcast replace the tshape and keep the cshape, cell replaces the cshape with cdim the new rank, array replaces the whole base with cdim `min(cdim, rank)`; the view and the element count are kept and the view's new shape has every given size; an unknown view is a ValueError; an int new shape is a TypeError, in view array only after numpy's reshape, whose ValueError comes first |
| Reshaping.ReshapeTabular | tablarray/re.py:36-40 | in view table/bcast the reshape succeeds exactly when numpy resolves the new axes followed by the cshape; it keeps the cshape and gives a tshape with every given size |
| Reshaping.ReshapeCellular | tablarray/re.py:41-45 | in view cell the reshape succeeds exactly when numpy resolves the tshape followed by the new axes; it keeps the tshape, sets cdim to the new rank, and gives a cshape with every given size |
| Reshaping.ReshapeWhole | tablarray/re.py:46-50 | in view array the reshape succeeds exactly when numpy resolves the new axes for all the elements, and lowers cdim to the new rank when that is smaller |
| Reshaping.ReshapeInto | tablarray/re.py:39-40 | the rewrap succeeds exactly when numpy resolves the requested shape for the base's elements, and has that shape's given sizes and the requested cdim |
| Reshaping.ReshapeToOwnShape | re.py:31-52 | reshaping a TablArray to the shape its view shows gives it back |
| Reshaping.ReshapeRoundTrip | re.py:31-52 | reshaping and then reshaping back to the view's old shape restores the TablArray, except that the array view may have lowered cdim for good |
| Reshaping.Ravel | tablarray/re.py:66-71 | ravel is the reshape to one axis holding every element the view shows, so only that group is flattened; a view of no axes is a TypeError, because numpy's product of no sizes is the float 1.0; an unknown view is a ValueError |
| Reshaping.RavelIdempotent | re.py:66-71 | ravelling fails only for a view of no axes, and ravelling twice is ravelling once |
| Reshaping.ReshapeExamples | tablarray/re.py:31-50 | t(2,3)\|c(2) reshaped to `(-1,)` in view table is t(6)\|c(2); an int new shape is a TypeError in view table, and in view array a TypeError or, for a wrong count, numpy's ValueError |
| Reshaping.NpTileShape | tablarray/re.py:87 | numpy's tile pads shape and repetitions with 1s on the left to a common rank and multiplies them axis by axis |
| Reshaping.TileCount | tablarray/re.py:87 | a tile multiplies the element count by the product of the repetitions |
| Reshaping.TileAsWritten | tablarray/re.py:73-89 | `tile` as written: a plain array goes to numpy; a TablArray is tiled by `reps + cshape` (table/bcast), `tshape + reps` (cell) or `reps` (array), keeping cdim and view; an unknown view is a ValueError |
| Reshaping.TileAsWrittenMultipliesOtherGroup | tablarray/re.py:78-81 | as written, table/bcast square every cellular axis, and cell (with as many reps as cellular axes) squares every tabular axis |
| Reshaping.TileAsWrittenExample | tablarray/re.py:78-79 | a table of two 2-vectors tiled 3 times in view table becomes six 4-vectors |
| Reshaping.Tile | tablarray/re.py:73-89 | the corrected `tile`, which pads the repetitions with 1s over the other axis group; it succeeds exactly for known views and keeps cdim and view |
| Reshaping.TileKeepsOtherGroup | tablarray/re.py:78-83 | the corrected tile repeats only the view's axis group and leaves the other group unchanged |
| Reshaping.TileKeepsCells | tablarray/re.py:78-79 | in view table/bcast the corrected tile gives tshape tiled by reps and the same cshape |
| Reshaping.TileKeepsTable | tablarray/re.py:80-81 | in view cell the corrected tile gives the same tshape and the cshape tiled by reps |
| Containers.New | tablarray/set.py:98-106 | a new container has the given view, no master and no members, and is valid |
| Containers.Admit | tablarray/set.py:185-191 | a TablArray is kept, an ndarray becomes a TablArray whose cdim is its rank, a scalar becomes one of rank 0, and anything else is a ValueError |
| Containers.SetTs | tablarray/set.py:162-179 | the master is replaced first; table/bcast take the tabular shape, ndim and size, cell the cellular ones, array the whole base; an unknown view raises ValueError with the master already replaced |
| Containers.MergeMaster | tablarray/set.py:193-203 | the first insert takes the new descriptor without `_set_ts`; a later one replaces the master by the combination through `_set_ts`; an incompatible one raises ValueError and changes nothing; the new master is one the old one fits into |
| Containers.SetItem | tablarray/set.py:181-206 | a value that cannot be admitted or does not combine raises ValueError with nothing changed; a non-string key raises ValueError after the master was merged; otherwise the member is stored under the key in the container's view |
| Containers.SetItemPreservesValid | tablarray/set.py:181-206 | every insert, raising or not, leaves each member in the container's view and broadcasting into the master, and the master only grows |
| Containers.Contains | tablarray/set.py:240-241 | only names of stored members are in a container |
| Containers.ContainsAfterSetItem | tablarray/assy.py:144-145 | after a successful insert the key is in the container, and the keys in it are exactly the old ones and the new one |
| Containers.SetView | tablarray/set.py:256-263 | the container's tag and every member's tag become the new view; keys, descriptors and the master are unchanged |
| Containers.PartitionArgs | tablarray/set.py:212-218 | every argument goes to exactly one of the keys and the indices, each list in argument order |
| Containers.NamesIndicesPartition | tablarray/assy.py:112-142 | the keys and the indices together are as many as the arguments |
| Containers.Fetch | tablarray/set.py:225-229 | an absent key is a KeyError; without indices the member itself comes back; with indices, whatever indexing its bcast view gives (a bare array or scalar included) |
| Containers.Gather | tablarray/set.py:223-229 | the members for the keys, in key order; without indices it succeeds exactly when every key is present, and otherwise raises KeyError |
| Containers.InsertAll | tablarray/set.py:107-108 | inserting the pairs in order, stopping at the first raise, which can only be a ValueError |
| Containers.Make | tablarray/set.py:98-108 | a container built with keyword arguments is valid and has the given view |
| Containers.InsertAllPreservesValid | tablarray/set.py:107-108 | any sequence of inserts leaves a valid container |
| Containers.GetItem | tablarray/set.py:208-238 | without string keys every key is selected in insertion order; one selected key gives that member, or with indices exactly what indexing its bcast view gives or raises; several (or none) give a new table-view container of those results in request order |
| Containers.GetItemIndexedBare | tablarray/set.py:229-232 | when indexing a member's bcast view gives a bare scalar, `container[key, i]` returns that scalar unwrapped |
| Containers.SetItemFitting | tablarray/set.py:193-206 | inserting under a new name a TablArray that fits a bound, into a container whose master fits that bound, does not raise |
| Containers.InsertFitting | tablarray/set.py:236-237 | inserting under distinct new names TablArrays that fit one bound never raises, stores them all in order, and keeps the master within the bound |
| Containers.GetItemNeverFails | tablarray/set.py:220-237 | selecting distinct present keys of a valid container never fails: members never clash with each other, and a multi-key result holds those members with a master within the original |
| Containers.GatherMembers | tablarray/set.py:223-227 | without indices, gathering present keys gives exactly their members, each fitting the master |
| Containers.GetItemMany | tablarray/set.py:233-237 | the several-keys branch returns a container holding exactly the selected members, relabelled to table, under their keys in order |
| Containers.BuiltMembers | tablarray/set.py:235-237 | inserting distinct present members into a new table-view container does not raise and keeps the master within the original |
| Containers.GetItemBuilds | tablarray/set.py:230-237 | with other than one key the result is the new container built from the gathered members, or the error that building raised |
| TablaSets.MeshReps | tablarray/set.py:289-295 | the repetitions have the master's rank and are 1 where the 1-padded member axis equals the master axis, the master axis elsewhere; a member of higher rank than the master is refused |
| TablaSets.MeshRepsFill | tablarray/set.py:289-295 | for a member that broadcasts into the master, the padded shape times the repetitions is exactly the master shape |
| TablaSets.MeshTileShape | tablarray/set.py:296 | tiling a member's table view by those repetitions gives the master tshape; `re.tile` as written squares every cellular axis, and the corrected tile keeps the member's cshape |
| TablaSets.MeshTile | tablarray/set.py:265-300 | with `re.tile` as written: no keys give an empty tuple, no master an AttributeError, an absent key an error; otherwise a tuple with one result per key, or a single one |
| TablaSets.MeshTileIntended | tablarray/set.py:265-300 | the same walk with the corrected tile: the same empty, AttributeError, absent-key and tuple-or-single outcomes |
| TablaSets.MeshTileFills | tablarray/set.py:281-300 | for present keys of a valid container `meshtile` succeeds; every TablArray it returns has the master tshape, and each tile, in a tuple or alone, has every cellular axis of its member squared; a single result is the untiled member where the walk stops, or the table-view tile of the one key asked for |
| TablaSets.MeshTileIntendedFills | tablarray/set.py:281-300 | with the corrected tile `meshtile` succeeds for present keys of a valid container; each tile, in a tuple or alone, has the master tshape over its member's own cshape; a single result is the untiled member where the walk stops, or the one key's table-view tile |
| TablaSets.MeshFromLone | tablarray/set.py:283-300 | a single TablArray from the walk is either the member of the first key, from the current one on, that already spans the master, or, when one key was asked for and its member is short, that member's meshed tile |
| TablaSets.MeshTileStopsAtFull | tablarray/set.py:286-288 | the first key whose member already has the master tshape ends `meshtile`, returning that member untiled, whatever keys remain |
| TablaSets.MeshStep | tablarray/set.py:283-296 | one key short of the master is tiled, as written or corrected, into a meshed TablArray, and the walk continues with it |
| TablaSets.MeshTileExample | tablarray/set.py:289-296 | a member t(2)\|c(2) under the master tshape (3,2) meshes to t(3,2)\|c(4) as written and to t(3,2)\|c(2) with the corrected tile |
| TablaSets.SurveyView | tablarray/set.py:352-367 | succeeds exactly when every TablArray among the arguments carries one of the four tags (else KeyError), and returns a tag whose count is maximal |
| TablaSets.IndexOfTag | tablarray/set.py:354-355 | a tag's position in the survey order, or -1 exactly when the tag is not one of the four |
| Legacy.Empty | assy.py:48-60 | a new table has no master and no keys |
| Legacy.Descr | assy.py:66-71 | an object with `ts` and `view` contributes its own `ts`, None for an empty TablaSet; an ndarray its shape as the cellular group; anything else (scalars included) is a ValueError |
| Legacy.SetItem | assy.py:62-83 | with no master the value's `ts` becomes the master, None included; later inserts combine, and an incompatible one is refused (ValueError here, AssertionError in `db.py`) with nothing changed; otherwise the original object is stored under the key |
| Legacy.SetItemPreservesValid | db.py:38-58 | every insert leaves every stored descriptor broadcasting into the master and, while there is no master, only None `ts` values stored; the master only grows |
| Legacy.EmptySetStored | db.py:42-50 | an empty TablaSet is stored while the master stays None, so a key is present before any master exists |
| Legacy.GetItem | db.py:60-61 | lookup passes straight to the ordered dict: the stored value, or KeyError |
| Legacy.Contains | db.py:63-64 | membership is key membership of the ordered dict |
| Legacy.GetAfterSetItem | assy.py:83-89 | after an insert, lookup gives back the very object inserted and every other key keeps its value; membership gains exactly the key |
| Legacy.FlavorsAgree | db.py:49-57 | the two flavours reach the same state and raise in the same cases; only the exception class differs |
| Legacy.ScalarRefused | assy.py:68-71 | a scalar is refused here, while the newer container admits it |
| TdimStr.BracketsBySplit | tdimstr.py:43-44 | counting brackets by `len(line.split(c)) - 1` is counting the character |
| TdimStr.StepAsWritten | tdimstr.py:37-65 | one pass of the loop as written: a blank line is copied and changes nothing; a line without barriers takes the last bound `dim_i2`, and raises UnboundLocalError when none is bound |
| TdimStr.RunAsWritten | tdimstr.py:36-65 | the loop as written emits one line per input line or raises UnboundLocalError |
| TdimStr.ArrayToStrPlusTdimAsWritten | tdimstr.py:12-69 | as written the output has as many lines as the input, or the call raises UnboundLocalError |
| TdimStr.Step | tdimstr.py:37-65 | the corrected pass advances the depth by the line's bracket balance |
| TdimStr.Run | tdimstr.py:36-65 | the corrected loop emits one line per input line |
| TdimStr.ArrayToStrPlusTdim | tdimstr.py:66-68 | the output has exactly as many lines as numpy's rendering |
| TdimStr.BarrierFree | tdimstr.py:47-60 | barriers add only `\|` and spaces, so no line gains a newline |
| TdimStr.LinesFree | tdimstr.py:36-65 | no output line of the corrected loop holds a newline |
| TdimStr.AsWrittenLinesFree | tdimstr.py:36-65 | no output line of the loop as written holds a newline |
| TdimStr.RunDepth | tdimstr.py:51-65 | the final depth is the start depth plus the bracket balance of all the lines |
| TdimStr.RunAt | tdimstr.py:36-65 | output line i is input line i treated at the depth given by the balance of the lines before it |
| TdimStr.ArrayToStrPlusTdimByLine | tdimstr.py:38-63 | a blank line is copied, a line whose depth plus opened brackets stays below `tdim` is copied verbatim, any other gets its barriers |
| TdimStr.FinalDepth | tdimstr.py:51-65 | after the whole text the corrected depth is the text's bracket balance |
| TdimStr.BarrierFront | tdimstr.py:46-49 | a barrier line starts with `line[:tdim]` followed by `\|` |
| TdimStr.BarrierOpen | tdimstr.py:51-56 | when `del_dim >= 0` the line ends with `del_dim` spaces and `\|`, and removing both barriers and the padding gives back the line |
| TdimStr.BarrierClosing | tdimstr.py:57-60 | when `del_dim < 0` the back `\|` sits just before the last `-del_dim` characters, which are kept, and removing both barriers gives back the line |
| TdimStr.AgreeOnBarrierLines | tdimstr.py:46-65 | where every non-blank line gets barriers, the loop as written and the corrected one produce the same lines and depth |
| TdimStr.AgreeFirst | tdimstr.py:38-65 | on a blank or barrier line both passes emit the same line and reach the same depth |
| TdimStr.AsWrittenUnboundExample | tdimstr.py:61-65 | the rendering `[1 2]` with `tdim` 2 raises UnboundLocalError as written, and the corrected parser copies it |
| Text.SplitJoin | tdimstr.py:32 | joining pieces that hold no separator and splitting again gives the pieces back |
| Text.JoinSplit | tdimstr.py:32 | splitting on a separator and joining with it gives the text back |
| TabStr.CountStr | tablarray/_tabstr.py:30-36 | the width is the longest `\n`-separated line (one reaches it) and the count is one more than the number of newlines |
| TabStr.GetItem | tablarray/_tabstr.py:68-76 | a selected line holds no newline; the only error is the IndexError of an impossible candidate or a line far before the start |
| TabStr.LineOf | tablarray/_tabstr.py:68-76 | line l of candidate p never fails, fits the candidate's width, and is empty past the last line |
| TabStr.BareIsMiddle | tablarray/_tabstr.py:69 | a bare line number reads the middle candidate |
| TabStr.LinesRebuild | tablarray/_tabstr.py:71-76 | the lines of a candidate, read one by one and joined, are the candidate |
| TabStr.Argsort3 | tablarray/_tabstr.py:91 | the argsort of three lengths is a permutation of 0, 1, 2 listing them by length, ties in original order |
| TabStr.Ordered | tablarray/_tabstr.py:91-96 | the stored candidates are in non-decreasing length |
| TabStr.OrderedPermutes | tablarray/_tabstr.py:113-118 | the stored candidates are the raw ones rearranged, shortest first |
| TabStr.OrderedKeepsSorted | tablarray/_tabstr.py:113-118 | candidates already in length order are stored unchanged |
| TabStr.FirstHandler | tablarray/_tabstr.py:179-182 | the handler chosen is the first in the list that claims the object, and none claims it when none is chosen |
| TabStr.Dispatch | tablarray/_tabstr.py:178-183 | the first of None, str, int, float/scalar, ndarray, TablArray handlers claiming the object, TypeError exactly when none does |
| TabStr.DispatchIntended | tablarray/_tabstr.py:178-183 | only an object of no known kind finds no handler; every other one gets the handler meant for it, numpy scalars the float handler |
| TabStr.Cell2Str | tablarray/_tabstr.py:178-183 | `cell2str` fails, with TypeError, exactly for an object of no known kind |
| TabStr.Cell2StrKinds | tablarray/_tabstr.py:148-175 | None shows nothing, a string and a TablArray their text three times, numbers their candidates shortest first, an ndarray its three renderings |
| TabStr.CellValue | tablarray/_tabstr.py:223-248 | a missing key is a KeyError only for a tuple index on a table or cell view, and shows nothing otherwise |
| TabStr.TrimSplitsIndex | tablarray/_tabstr.py:231-234 | the dropped and kept parts of a long index are the whole index; an ndim of 0 keeps and drops all of it |
| TabStr.LongIndexRule | tablarray/_tabstr.py:227-243 | a tuple index longer than the member looks up its last ndim entries when the dropped leading ones are all 0, and shows nothing otherwise |
| TabStr.HeaderCells | tablarray/_tabstr.py:210-212 | the header row's cells are the keys through the string handler |
| TabStr.BodyCells | tablarray/_tabstr.py:223-255 | a body row has one cell per header key, showing that key's value at the row's index |
| TabStr.Grid | tablarray/_tabstr.py:203-257 | the layout has one row more than the indices and one column more than the keys |
| TabStr.GridErrors | tablarray/_tabstr.py:209-255 | a failing cell fails with TypeError or KeyError |
| TabStr.TabularFlat | tablarray/_tabstr.py:186-257 | a layout has `nidx + 1` rows of `nhead + 1` cells |
| TabStr.TabularFlatCells | tablarray/_tabstr.py:203-257 | cell (0,0) is empty, row 0 holds the keys, each row starts with its index label, and every other cell shows the value for its key and index; the only failures are a KeyError or a TypeError |
| TabStr.TabularFlatSucceeds | tablarray/_tabstr.py:203-257 | a table whose keys are all present and whose values all have a handler lays out without error |
| TabStr.CellValueKnown | tablarray/_tabstr.py:238-248 | a present key of a table whose values all have a handler shows a value that has one |
| Digest.ColWidth | tablarray/_tabstr.py:275 | a column's width is the widest line of that candidate level in the column, reached by some row |
| Digest.Widths | tablarray/_tabstr.py:275 | one width per column, each the column's maximum |
| Digest.Precision | tablarray/_tabstr.py:273-281 | a chosen level is below 3 and fits: the widths plus 3 per column stay under the line width |
| Digest.PrecisionIsLargest | tablarray/_tabstr.py:273-282 | the chosen level is the largest that fits, and none is chosen exactly when no level fits |
| Digest.PadRight | tablarray/_tabstr.py:288 | the text left-aligned and padded with spaces to the width |
| Digest.RowHeight | tablarray/_tabstr.py:291 | a row is as tall as its tallest cell at the chosen level |
| Digest.RowBlock | tablarray/_tabstr.py:290-302 | a row prints as many lines as its tallest cell, then one underline |
| Digest.AllLines | tablarray/_tabstr.py:290-302 | the digest prints the total of those lines |
| Digest.Digest | tablarray/_tabstr.py:260-303 | an empty grid, or a row shorter than the first, is an IndexError; no level fitting is exactly the AssertionError; a row of no cells is numpy's ValueError for the maximum of an empty row; a successful digest has a level chosen |
| Digest.DigestText | tablarray/_tabstr.py:284-303 | a successful digest is the rows printed at the chosen level, each line ended by a newline |
| Digest.DigestShape | tablarray/_tabstr.py:273-303 | a successful digest prints each row's lines plus its underline, and every printed line is exactly the widths plus 3 per column wide, which is less than the line width |
| Digest.AllLinesShape | tablarray/_tabstr.py:287-302 | every printed line, content or underline, is as wide as the columns plus three characters of border each |
| Digest.ChosenWidthsFit | tablarray/_tabstr.py:275-297 | every cell line of the trimmed grid fits its column's width |
| TableStr.NLines | tablestr.py:27-28 | a cell's line count is one more than its newlines |
| TableStr.CellWidth | tablestr.py:36-42 | a cell's width is its longest line, but never less than 6 |
| TableStr.StrCell | tablestr.py:31-34 | line `line` of the cell, or '' past the end; no newline, and never wider than the cell |
| TableStr.StrCellRebuild | tablestr.py:31-34 | the cell's lines, joined back with newlines, are the cell's text |
| TableStr.Detect | tablestr.py:56-62 | an empty table is an IndexError; otherwise the first value decides: scalar with length 1 when it is not an array, else its length |
| TableStr.GetHeader | tablestr.py:65-79 | without a filter, every key in order and no excluded list; with one, exactly the requested keys the table has, and an empty excluded list |
| TableStr.HeaderInRequestOrder | tablestr.py:73-77 | the filtered header keeps request order and multiplicity, and holds a key only if the table has it |
| TableStr.Pick | tablestr.py:84-85 | a scalar table shows the whole value; otherwise `value[line]`: a row of an array or an item of a list, tuple or string; past the end, or for a zero-dimensional array or a numpy scalar, an IndexError; for a Python number a TypeError |
| TableStr.CellAt | tablestr.py:16-26 | a cell is the picked value rendered: the picking error, or a TypeError where the rendering fails |
| TableStr.PickExamples | tablestr.py:84-85 | row 1 of a list column `[10, 20, 30]` is `20`; a numpy-scalar column raises IndexError and a Python-number column TypeError; a string in a scalar table is picked whole and its rendering fails |
| TableStr.GetRow | tablestr.py:81-87 | a row has one picked value per header key, and fails exactly when some column fails, with the first failing column's error |
| TableStr.RowCells | tablestr.py:96-101 | a row's rendered cells: a picking error of any column comes before every rendering error, and a rendering error is a TypeError; the row succeeds exactly when every cell picks and renders |
| TableStr.Scan | tablestr.py:92-101 | the first `min(20, length)` rows are read, the first failing one raising |
| TableStr.ColumnWidth | tablestr.py:102 | a column's width is the widest scanned cell, reached by one |
| TableStr.Tallest | tablestr.py:103 | the line count is the tallest scanned cell, reached by one |
| TableStr.GetFormat | tablestr.py:89-107 | a failing scan raises its error; an empty scan or header is numpy's ValueError; a format has one width per key and at least one line |
| TableStr.FormatIsScanMaximum | tablestr.py:92-103 | each width is reached by a scanned cell of its column, and the line count by some scanned cell |
| TableStr.ScannedCellFits | tablestr.py:96-103 | every scanned cell fits its column's width and the line count |
| TableStr.Left5 | tablestr.py:90 | the label is left-aligned in at least five characters |
| TableStr.Centre | tablestr.py:105 | a cell is centred in at least its column's width, any odd space going on the right |
| TableStr.ColumnAt | tablestr.py:104-106 | with every cell fitting, column j sits after one bar and the width of each earlier column, and is a bar followed by the centred cell |
| TableStr.RowPlan | tablestr.py:126-128 | the plan lists every row, or 61 entries when there are more than 60 |
| TableStr.RowPlanShows | tablestr.py:126-128 | a row is shown exactly when the table has at most 60 rows or it is among the first or last 30; the marker appears, at position 30, exactly when rows are elided; shown rows are in increasing order |
| TableStr.TableLines | tablestr.py:109-147 | an empty table is an IndexError |
| TableStr.TableString | tablestr.py:109-147 | the printed string exists exactly when the lines do, and fails with their error |
| TableStr.TableLinesErrors | tablestr.py:109-147 | the printer fails only with an IndexError, a TypeError or a ValueError |
| TableStr.TableLinesNeedColumns | tablestr.py:89-107 | a printed table has a column and a row; a filter that matches no key of a non-empty table is a ValueError |
| TableStr.TableLinesCount | tablestr.py:116-144 | after the optional excluded line come the header and the underline, then `nline` lines per row, or `60 * nline + 1` when elided |
| TableStr.RowLineAt | tablestr.py:129-144 | line l of a printed row holds the row number on its first line only, and each cell's line l centred in its column |
| TableStr.ScannedRowAligned | tablestr.py:134-144 | the lines of a scanned row are exactly as wide as the underline |
| TableStr.LineAligned | tablestr.py:136-143 | a line whose cells fit their columns is as wide as the underline |
| ClassNp.FirstLine | tests/class_np.py:26 | the signature line is the docstring up to its first newline |
| ClassNp.DocArgs | tests/class_np.py:27-31 | one name per `, `-separated piece of the parameter text, each a prefix of its piece without `=` |
| ClassNp.ArgFind | tests/class_np.py:16-32 | introspected names when available; the docstring fallback otherwise; no names and an empty signature with neither |
| ClassNp.DocInnerBetween | tests/class_np.py:27-28 | for a line `pre(mid)post` the parameter text is `mid` with its parentheses removed |
| ClassNp.DocArgsOfSignature | tests/class_np.py:25-31 | the fallback reads `name(a, b, ...)` back as the names `a, b, ...` |
| ClassNp.ArgFindAgrees | tests/class_np.py:16-32 | introspection and the docstring fallback agree when the docstring starts with the introspected signature |
| ClassNp.EmptyParameterText | tests/class_np.py:27-29 | a docstring `f()` reads as one empty name, where introspection finds none |
| ClassNp.FirstMatch | tests/class_np.py:49-51 | the first signature that is a prefix of the names, and none when none is |
| ClassNp.IfMatch | tests/class_np.py:47-56 | true exactly when some signature is a prefix of the names; a match records the name with its signature text, no match changes nothing |
| ClassNp.DSub | tests/class_np.py:35-40 | exactly the entries whose key is not in the other dict, with their values, in order |
| ClassNp.DSubTwice | tests/class_np.py:35-40 | taking away two key sets in turn is taking away their union |
| ClassNp.DSubIdempotent | tests/class_np.py:35-40 | taking away the same keys twice is taking them away once |
| ClassNp.DSubNothing | tests/class_np.py:35-40 | taking away no keys changes nothing |
| ClassNp.Sub | tests/class_np.py:58-64 | with a dict, the same signatures and exactly the entries whose key the dict lacks, in order; anything else gives None |
| ClassNp.DescribeLines | tests/class_np.py:66-71 | one newline-terminated line per entry, quoting its key, then at most 60 leading characters of its value |
| ClassNp.VisitPlaces | tests/class_np.py:93-108 | the `ifmatch` chain files a member exactly where the precedence binary > axial > element-wise > constructor > unknown, properties aside, says |
| ClassNp.PlaceFiles | tests/class_np.py:92-108 | filing a new name adds it last to its own category and nowhere else |
| ClassNp.ScanFiles | tests/class_np.py:92-108 | visiting distinct names in order files each under its kind, in order, with what `from_pkg` stores |
| ClassNp.FromPkgSorts | tests/class_np.py:84-109 | every member of the package is filed under exactly its own category, in package order |
| ClassNp.PrecedenceExamples | tests/class_np.py:86-105 | `x, axis` is axial, `a, b` binary, `x` element-wise, an uninspectable one unknown, a non-callable a property |
| ClassNp.SurveySub | tests/class_np.py:111-119 | subtracting surveys gives a survey exactly when the other one is a survey |
| ClassNp.SurveySubFiles | tests/class_np.py:111-119 | each category keeps, in order, the names the other survey lacks in that category |
| ClassNp.SurveySubSorts | tests/class_np.py:111-119 | a name stays under a category exactly when the first package files it there and the second does not |

## Left out

- Array contents and every numpy primitive: only shapes are modelled. numpy's reshape,
  tile and cumulative primitives are modelled by their effect on shapes.
- The shape engine (`taShape.combine`, the `TablArray` class, `_viewdims`, `wraps`) is
  not part of this model; it is supplied as model functions (see above).
- Legacy.SetItem: inserting an object whose `ts` is None into a table that already has
  a master calls `taShape.combine` with None. That method is not part of this model, so
  the outcome is taken to be the AttributeError of reading an attribute of None.
- `TablaSet.from_layered`, `_recursive_loader1/2` and `axis_of` of `tablarray/set.py`:
  they rely on helpers that are not part of this model.
- `update`, `__view__`, `__str__` and the `keys`/`items`/`pop` facade of the containers.
  `update` is a loop of inserts, the same as `Containers.InsertAll`.
- numpy's global print options, which the printers set before rendering (`tdimstr.py`,
  `tablarray/_tabstr.py`, `tablestr.py`). They are put back only when the rendering
  returns normally: no `try`/`finally` guards them, so an error raised in between (in
  `tablestr.py:112-146`, for instance) leaves the changed options in force. The model
  has no global state, so this side effect is not represented. The rendering itself
  (`%d`, `%g`, `%e`, numpy's `str`, `str.format` of numbers) is a parameter.
- `_float2str` claims numpy scalars through `np.isscalar`; numpy's boolean scalars are
  one more kind of scalar here.
- The legacy code in the string literal after `digest_2str`, and plotting
  (`tablarray/taplot.py`).
- `inspect.getfullargspec` is a parameter: a function's introspected names, or none
  when introspection raises TypeError.
- The `__main__` block of `tests/class_np.py`, which only prints surveys.
- Axial.ViewAxis: `_viewdims` is not part of this model. The model takes an absent axis
  to stay absent and a negative axis to count from the end of the view's group, as numpy
  does for a plain array.
- A dict stored as a column value of `tablestr.py`: indexing it looks the row number up
  as a key. The model's non-array values are sequences, Python numbers or numpy scalars.
- ClassNp.DSub: takes the keys of the dict on its right as a set, since only its keys
  are read.
- TablaSets.SurveyView: `np.argsort` breaks ties between equal counts in an order
  numpy does not promise; the model returns the last tag with the highest count, and
  the contract states only that the count is maximal.
- The `print` in `_survey_view` and the `'counts'` it writes.
- Digest.PadRight: a column whose widest line is empty gets the field `' {:0} |'`,
  where Python reads the `0` as a fill flag rather than a width. The model pads to
  width 0, which leaves the text as it is.
- TabStr.GetItem: states the error kind and that a line holds no newline, not which
  line comes back for a negative position; `TabStr.LineOf` states the line for every
  non-negative position.
- Demo scripts, `__init__.py` and the unit tests. The tests are only evidence for
  `combine`.

## Findings

| source | as written | input that shows it | evidently intended | confidence | as-written member | corrected member |
|---|---|---|---|---|---|---|
| tablarray/re.py:78-81 | in view table/bcast the repetitions are padded with the cshape, in view cell with the tshape, so the other axis group is multiplied by its own sizes | a table of two 2-vectors (t(2)\|c(2)) tiled by (3,) in view table gives t(6)\|c(4) | pad with 1s, giving t(6)\|c(2) with the cells unchanged | not executed | Reshaping.TileAsWritten, Reshaping.TileAsWrittenExample | Reshaping.Tile, Reshaping.TileKeepsOtherGroup |
| tablarray/set.py:296 | `meshtile` tiles the member's table view with `re.tile`, whose padding repeats each cellular axis by its own size | members a: t(3,2)\|c() and b: t(2)\|c(2); `meshtile('b')` tiles by reps (3,1), numpy gets (3,1,2), and the result is t(3,2)\|c(4) | the master tshape over the member's own cshape, as a bcast view prints it: t(3,2)\|c(2) | not executed | TablaSets.MeshTile, TablaSets.MeshTileFills, TablaSets.MeshTileExample | TablaSets.MeshTileIntended, TablaSets.MeshTileIntendedFills |
| tdimstr.py:46-65 | `dim_i2` is assigned only in the barrier branch, but `dim_i = dim_i2` runs after every non-blank line | rendering `[1 2]` with tdim 2: the first line gets no barrier and `dim_i2` is unbound, raising UnboundLocalError; after a barrier line a no-barrier line reuses a stale depth | advance the depth by the line's bracket balance on every non-blank line | not executed | TdimStr.ArrayToStrPlusTdimAsWritten, TdimStr.AsWrittenUnboundExample | TdimStr.ArrayToStrPlusTdim, TdimStr.ArrayToStrPlusTdimByLine |

=== FILE: axial.dfy ===
/** The cumulative-operation wrapper of `np2ta/ax2_op.py` (`cumsum`, `cumprod`,
    `nancumsum`, `nancumprod`): translate the axis through the operand's view,
    call the shape-preserving primitive on the base array, then unwrap or rewrap.
    The axis is numpy's: absent (`None`, the default) for the flattened array,
    or an integer that counts from the end when it is negative. */
module Axial {
  import opened Common
  import opened Shapes
  import opened Values
  import Io

  /** A possibly negative axis of a rank-`n` group, counted from the front:
      `k` or `k + n`, and nothing when it lies outside `-n <= k < n`. */
  function Normalise(k: int, n: nat): (r: Option<nat>)
    ensures r.Some? <==> 0 <= k + n && k < n
    ensures r.Some? ==> r.value < n && (r.value == k || r.value == k + n)
  {
    if k + n < 0 || k >= n then None
    else if k < 0 then Some(k + n)
    else Some(k)
  }

  /** The view axis map (`_viewdims`): a user axis counts within the view's own
      axis group, from its end when negative; the cell view adds the tabular
      rank.  An axis outside the group is an AxisError and an unrecognised view
      a ValueError; the absent axis stays absent. */
  function ViewAxis(d: Descriptor, view: string, axis: Option<int>): (r: Result<Option<nat>>)
    ensures ParseView(view).None? ==> r == Err(ValueError)
    ensures ParseView(view).Some? && axis.None? ==> r == Ok(None)
    ensures r.Ok? ==> (r.value.Some? <==> axis.Some?)
    ensures ParseView(view).Some? && axis.Some? ==>
              (r.Ok? <==> Normalise(axis.value, |ViewDims(d, ParseView(view).value).shape|).Some?)
    ensures r.Ok? && axis.Some? && ParseView(view).value in {Table, Bcast} ==>
              r.value.value == Normalise(axis.value, d.TDim()).value
    ensures r.Ok? && axis.Some? && ParseView(view).value == Cell ==>
              r.value.value == d.TDim() + Normalise(axis.value, d.CDim()).value
    ensures r.Ok? && axis.Some? && ParseView(view).value == Array ==>
              r.value.value == Normalise(axis.value, d.TDim() + d.CDim()).value
    ensures r.Err? ==> r.error in {ValueError, AxisError}
  {
    match ParseView(view)
    case None => Err(ValueError)
    case Some(v) =>
      match axis
      case None => Ok(None)
      case Some(k) =>
        match Normalise(k, |ViewDims(d, v).shape|)
        case None => Err(AxisError)
        case Some(ax) => if v == Cell then Ok(Some(d.TDim() + ax)) else Ok(Some(ax))
  }

  /** A numpy cumulative primitive along one axis: same shape as its input; an
      axis outside the rank is an AxisError, and no axis flattens the input
      into one axis of all its elements. */
  function Primitive(shape: Shape, axis: Option<int>): (r: Result<Shape>)
    ensures axis.None? ==> r == Ok([Prod(shape)])
    ensures axis.Some? ==> (r.Ok? <==> -|shape| <= axis.value < |shape|)
    ensures axis.Some? && r.Ok? ==> r.value == shape
    ensures r.Err? ==> r.error == AxisError
  {
    match axis
    case None => Ok([Prod(shape)])
    case Some(k) => if Normalise(k, |shape|).Some? then Ok(shape) else Err(AxisError)
  }

  /** `_axial2_broadcast(func)(a, axis)`. */
  function Cumulative(a: Operand, axis: Option<int>): (r: Result<Value>)
    ensures a.ArrayOp? && axis.None? ==> r == Ok(NdArray([Prod(a.shape)]))
    ensures a.ArrayOp? && axis.Some? ==>
              r == (if -|a.shape| <= axis.value < |a.shape| then Ok(NdArray(a.shape)) else Err(AxisError))
    ensures a.TaOp? && r.Ok? ==> ViewAxis(a.t.desc, a.t.view, axis).Ok?
    ensures a.TaOp? && axis.Some? && r.Ok? ==> (r.value.NdArray? <==> a.t.desc.TDim() == 0)
    ensures a.TaOp? && axis.Some? && r.Ok? && r.value.NdArray? ==> r.value.shape == a.t.desc.Base()
    ensures a.TaOp? && axis.Some? && r.Ok? && !r.value.NdArray? ==> r.value == Tab(a.t)
    ensures a.TaOp? && axis.None? && ParseView(a.t.view).Some? ==> (r.Ok? <==> a.t.desc.CDim() <= 1)
    ensures a.TaOp? && axis.None? && r.Ok? ==>
              (r.value.NdArray? <==> a.t.desc.CDim() == 1)
              && (r.value.NdArray? ==> r.value.shape == [Prod(a.t.desc.Base())])
              && (r.value.Tab? ==> r.value.ta == TablArray(Descriptor([Prod(a.t.desc.Base())], []), a.t.view))
  {
    match a
    case ArrayOp(s) =>
      (match Primitive(s, axis) case Ok(rs) => Ok(NdArray(rs)) case Err(e) => Err(e))
    case TaOp(t) =>
      match ViewAxis(t.desc, t.view, axis)
      case Err(e) => Err(e)
      case Ok(ax) =>
        match Primitive(t.desc.Base(), ax)
        case Err(e) => Err(e)
        case Ok(rs) =>
          MakeDescriptorRoundTrip(t.desc);
          FlatDescriptor(rs, t.desc.CDim());
          Io.RvalOnceATa(rs, t.desc.CDim(), t.view)
  }

  /** A one-axis result wrapped with no cellular axis is a table of that length. */
  lemma {:induction false} FlatDescriptor(rs: Shape, cdim: nat)
    ensures |rs| == 1 && cdim == 0 ==> MakeDescriptor(rs, cdim) == Ok(Descriptor(rs, []))
  {
    if |rs| == 1 && cdim == 0 {
      assert rs[..1] == rs && rs[1..] == [];
    }
  }

  /** For a TablArray in a recognised view, a cumulative op along an axis of the
      view never fails, and its result is bare exactly when there is no tabular
      axis (the operation keeps the rank, so rank == cdim iff tdim == 0). */
  lemma {:induction false} CumulativeUnwrapLaw(t: TablArray, axis: int)
    requires ParseView(t.view).Some?
    requires -|ViewDims(t.desc, ParseView(t.view).value).shape| <= axis < |ViewDims(t.desc, ParseView(t.view).value).shape|
    ensures Cumulative(TaOp(t), Some(axis)).Ok?
    ensures Cumulative(TaOp(t), Some(axis)).value.NdArray? <==> t.desc.TDim() == 0
  {
    var v := ParseView(t.view).value;
    var ax := ViewAxis(t.desc, t.view, Some(axis)).value.value;
    assert ax < |t.desc.Base()| by {
      assert |t.desc.Base()| == t.desc.TDim() + t.desc.CDim();
    }
    MakeDescriptorRoundTrip(t.desc);
  }

  /** A negative axis names the same axis as its count from the front: the
      results agree for every operand. */
  lemma {:induction false} NegativeAxisAgrees(a: Operand, k: nat, n: nat)
    requires n == (if a.ArrayOp? then |a.shape| else if ParseView(a.t.view).Some? then |ViewDims(a.t.desc, ParseView(a.t.view).value).shape| else 0)
    requires k < n
    ensures Cumulative(a, Some(k - n)) == Cumulative(a, Some(k))
  {
    if a.TaOp? {
      assert ViewAxis(a.t.desc, a.t.view, Some(k - n)) == ViewAxis(a.t.desc, a.t.view, Some(k));
    }
  }
}

=== FILE: classnp.dfy ===
/** The survey script `tests/class_np.py`: it sorts the members of a package
    (numpy, in practice) by the names of their leading parameters into binary,
    axis-reducing, element-wise and constructor functions, keeps everything
    else callable as unknown and the rest as properties, so that one survey
    can be subtracted from another.  Python's introspection is carried as
    input: the parameter names `inspect.getfullargspec` finds (or its
    TypeError), the `__name__`, and the docstring when it is a string. */
module ClassNp {
  import opened Common
  import opened Text
  import opened OrderedMaps

  /** A callable as the survey sees it. */
  datatype Func = Func(name: Option<string>, argspec: Option<seq<string>>, doc: Option<string>)

  /** The first line of a text: everything before the first newline. */
  function FirstLine(doc: string): (r: string)
    ensures r <= doc && '\n' !in r
    ensures |r| < |doc| ==> doc[|r|] == '\n'
  {
    CutAt(doc, '\n')
  }

  /** Where the docstring fallback looks for parameters: the text after the
      first `(` and before the last `)`, with every parenthesis removed. */
  function DocInner(sig: string): string {
    var after := Concat(Split(sig, "(")[1..]);
    var pieces := Split(after, ")");
    Concat(pieces[..|pieces| - 1])
  }

  /** The parameter names of a signature line: the pieces between `, `, each
      cut at its first `=` to drop a default. */
  function DocArgs(sig: string): (r: seq<string>)
    ensures |r| == |Split(DocInner(sig), ", ")|
    ensures forall i :: 0 <= i < |r| ==> '=' !in r[i] && r[i] <= Split(DocInner(sig), ", ")[i]
  {
    var pieces := Split(DocInner(sig), ", ");
    seq(|pieces|, i requires 0 <= i < |pieces| => CutAt(pieces[i], '='))
  }

  /** `s.split(c)[0]`: the text before the first `c`. */
  function CutAt(s: string, c: char): (r: string)
    ensures r <= s && c !in r
    ensures |r| < |s| ==> s[|r|] == c
  {
    FirstPiece(s, c);
    Split(s, [c])[0]
  }

  lemma {:induction false} FirstPiece(s: string, c: char)
    ensures var r := Split(s, [c])[0]; r <= s && c !in r && (|r| < |s| ==> s[|r|] == c)
  {
    var _ := SplitCharStep(s, c);
  }

  /** `argfind(func)`: the parameter names and a one-line signature, from
      introspection when it works and from the docstring's first line when it
      raises TypeError; with neither, no names and an empty signature. */
  function ArgFind(f: Func): (r: (seq<string>, string))
    ensures f.argspec.Some? ==> r.0 == f.argspec.value
    ensures f.argspec.None? && f.doc.None? ==> r == ([], "")
    ensures f.argspec.None? && f.doc.Some? ==>
              r.1 == FirstLine(f.doc.value) && r.0 == DocArgs(FirstLine(f.doc.value)) && |r.0| >= 1
  {
    match f.argspec
    case Some(args) =>
      var name := match f.name case Some(n) => n case None => "";
      (args, name + "(" + Join(args, ", ") + ")")
    case None =>
      match f.doc
      case None => ([], "")
      case Some(doc) => var sig := FirstLine(doc); (DocArgs(sig), sig)
  }

  /** Gluing the pieces of a split on `c`, all but the last, gives the text
      before the last `c` with every `c` removed. */
  lemma {:induction false} ConcatButLast(a: string, b: string, c: char)
    requires c !in b
    ensures var pieces := Split(a + [c] + b, [c]); Concat(pieces[..|pieces| - 1]) == Remove(a, c)
    decreases |a|, 1
  {
    var s := a + [c] + b;
    var i := SplitCharStep(s, c);
    FirstOfThree(a, b, c, i);
    if i == |a| {
      ConcatButLastHere(a, b, c, Split(s, [c]));
    } else {
      ConcatButLastLater(a, b, c, i, Split(s, [c]));
    }
  }

  /** Where the first `c` of `a + [c] + b` sits. */
  lemma {:induction false} FirstOfThree(a: string, b: string, c: char, i: int)
    requires i < 0 ==> c !in a + [c] + b
    requires i >= 0 ==> i < |a + [c] + b| && (a + [c] + b)[i] == c && c !in (a + [c] + b)[..i]
    ensures 0 <= i <= |a|
    ensures i == |a| ==> c !in a && (a + [c] + b)[..i] == a && (a + [c] + b)[i + 1..] == b
    ensures i < |a| ==> a[i] == c && c !in a[..i] && (a + [c] + b)[..i] == a[..i]
                        && (a + [c] + b)[i + 1..] == a[i + 1..] + [c] + b
  {
    var s := a + [c] + b;
    assert s[|a|] == c;
    if i < |a| {
      assert s == a + ([c] + b);
      DropAppend(a, [c] + b, i + 1);
      assert a[i + 1..] + ([c] + b) == a[i + 1..] + [c] + b;
      assert s[..i] == a[..i];
    } else {
      assert s[..i] == a;
    }
  }

  lemma {:induction false} DropAppend<T>(x: seq<T>, y: seq<T>, k: nat)
    requires k <= |x|
    ensures (x + y)[k..] == x[k..] + y
  {
  }

  lemma {:induction false} ConcatButLastHere(a: string, b: string, c: char, pieces: seq<string>)
    requires c !in a && c !in b
    requires pieces == [a] + Split(b, [c])
    ensures Concat(pieces[..|pieces| - 1]) == Remove(a, c)
  {
    NoCharNoOccurrence(b, c);
    SplitUnfold(b, [c]);
    ButLastOfTwo(a, b, pieces);
    RemoveAbsent(a, c);
  }

  lemma {:induction false} ConcatButLastLater(a: string, b: string, c: char, i: nat, pieces: seq<string>)
    requires c !in b && i < |a| && a[i] == c && c !in a[..i]
    requires pieces == [a[..i]] + Split(a[i + 1..] + [c] + b, [c])
    ensures Concat(pieces[..|pieces| - 1]) == Remove(a, c)
    decreases |a|, 0
  {
    var a' := a[i + 1..];
    ConcatButLast(a', b, c);
    ButLastCons(a[..i], Split(a' + [c] + b, [c]), pieces);
    assert a == a[..i] + [c] + a';
    RemoveAroundChar(a[..i], a', c);
  }

  lemma {:induction false} ButLastOfTwo(a: string, b: string, pieces: seq<string>)
    requires pieces == [a] + [b]
    ensures Concat(pieces[..|pieces| - 1]) == a
  {
    assert pieces[..|pieces| - 1] == [a];
    ConcatCons(a, []);
  }

  lemma {:induction false} ButLastCons(x: string, tail: seq<string>, pieces: seq<string>)
    requires |tail| >= 1 && pieces == [x] + tail
    ensures Concat(pieces[..|pieces| - 1]) == x + Concat(tail[..|tail| - 1])
  {
    assert pieces[..|pieces| - 1] == [x] + tail[..|tail| - 1];
    ConcatCons(x, tail[..|tail| - 1]);
  }

  /** For a signature line `pre(mid)post` whose prefix has no `(` and whose
      suffix has no parenthesis, the parameters are read from `mid`, with
      any parentheses inside it dropped. */
  lemma {:induction false} DocInnerBetween(pre: string, mid: string, post: string)
    requires '(' !in pre && '(' !in post && ')' !in post
    ensures DocInner(pre + "(" + mid + ")" + post) == Remove(Remove(mid, '('), ')')
  {
    var sig := pre + "(" + mid + ")" + post;
    var rest := mid + ")" + post;
    assert sig == pre + ['('] + rest;
    AfterFirst(pre, rest, '(');
    var after := Concat(Split(sig, "(")[1..]);
    var a := Remove(mid, '(');
    assert after == a + [')'] + post by {
      RemoveClosing(mid, post);
    }
    ConcatButLast(a, post, ')');
  }

  lemma {:induction false} RemoveClosing(mid: string, post: string)
    requires '(' !in post
    ensures Remove(mid + ")" + post, '(') == Remove(mid, '(') + [')'] + post
  {
    assert mid + ")" + post == mid + (")" + post);
    RemoveAppend(mid, ")" + post, '(');
    RemoveAbsent(")" + post, '(');
  }

  /** Gluing the pieces after the first: the text after the first `c`, with
      every `c` removed. */
  lemma {:induction false} AfterFirst(pre: string, rest: string, c: char)
    requires c !in pre
    ensures Concat(Split(pre + [c] + rest, [c])[1..]) == Remove(rest, c)
  {
    var s := pre + [c] + rest;
    var i := SplitCharStep(s, c);
    assert s[|pre|] == c;
    assert i == |pre|;
    assert s[i + 1..] == rest;
    SplitConcat(rest, c);
  }

  /** A signature line without `(` has an empty parameter text. */
  lemma {:induction false} DocInnerNoParen(sig: string)
    requires '(' !in sig
    ensures DocInner(sig) == ""
  {
    var _ := SplitCharStep(sig, '(');
    var _ := SplitCharStep("", ')');
  }

  /** No piece and no separator holds `c`, so neither does the join. */
  lemma {:induction false} JoinFree(xs: seq<string>, sep: string, c: char)
    requires c !in sep
    requires forall i :: 0 <= i < |xs| ==> c !in xs[i]
    ensures c !in Join(xs, sep)
    decreases |xs|
  {
    if |xs| > 1 {
      JoinFree(xs[1..], sep, c);
    }
  }

  /** Plain parameter names: no parenthesis, comma, `=` or newline. */
  predicate PlainName(s: string) {
    '(' !in s && ')' !in s && ',' !in s && '=' !in s && '\n' !in s
  }

  /** The docstring fallback reads back the names that the introspection
      branch writes into its signature: a docstring whose first line is
      `name(a, b, ...)` gives the parameters `a, b, ...`. */
  lemma {:induction false} DocArgsOfSignature(name: string, args: seq<string>)
    requires '(' !in name
    requires |args| >= 1 && forall i :: 0 <= i < |args| ==> PlainName(args[i])
    ensures DocArgs(name + "(" + Join(args, ", ") + ")") == args
  {
    var body := Join(args, ", ");
    JoinFree(args, ", ", '(');
    JoinFree(args, ", ", ')');
    DocInnerBetween(name, body, "");
    assert name + "(" + body + ")" + "" == name + "(" + body + ")";
    RemoveAbsent(body, '(');
    RemoveAbsent(body, ')');
    SplitJoinSep(args, ", ");
    var r := DocArgs(name + "(" + body + ")");
    forall i | 0 <= i < |args| ensures r[i] == args[i] {
      var _ := SplitCharStep(args[i], '=');
    }
  }

  /** Introspection and the docstring fallback agree whenever the docstring
      starts with the signature introspection would write. */
  lemma {:induction false} ArgFindAgrees(name: string, args: seq<string>, rest: string)
    requires '(' !in name && '\n' !in name
    requires |args| >= 1 && forall i :: 0 <= i < |args| ==> PlainName(args[i])
    requires |rest| == 0 || rest[0] == '\n'
    ensures var sig := ArgFind(Func(Some(name), Some(args), None)).1;
            ArgFind(Func(Some(name), None, Some(sig + rest))) == ArgFind(Func(Some(name), Some(args), None))
  {
    var sig := name + "(" + Join(args, ", ") + ")";
    JoinFree(args, ", ", '\n');
    assert '\n' !in sig;
    var line := FirstLine(sig + rest);
    assert line <= sig + rest;
    assert (sig + rest)[..|sig|] == sig;
    assert line == sig;
    DocArgsOfSignature(name, args);
  }

  /** A docstring `f()` reads as one empty parameter name, where
      introspection of the same function finds none. */
  lemma {:induction false} EmptyParameterText(sig: string)
    requires '(' !in sig
    ensures DocArgs(sig) == [""]
  {
    DocInnerNoParen(sig);
    var _ := SplitCharStep("", '=');
    assert FindFrom("", ", ", 0) == -1;
  }

  /** `sig` equals the leading arguments: a prefix of `args`. */
  predicate Leads(sig: seq<string>, args: seq<string>) {
    |sig| <= |args| && args[..|sig|] == sig
  }

  /** The loop of `ifmatch`: the first signature with `sig == args[:len(sig)]`. */
  function FirstMatch(sigs: seq<seq<string>>, args: seq<string>): (r: Option<nat>)
    ensures r.Some? ==> r.value < |sigs| && Leads(sigs[r.value], args)
    ensures r.Some? ==> forall i :: 0 <= i < r.value ==> !Leads(sigs[i], args)
    ensures r.None? ==> forall i :: 0 <= i < |sigs| ==> !Leads(sigs[i], args)
    decreases |sigs|
  {
    if |sigs| == 0 then None
    else if sigs[0] == PyTake(args, |sigs[0]|) then Some(0)
    else
      match FirstMatch(sigs[1..], args)
      case None => None
      case Some(i) => Some(i + 1)
  }

  /** A `MethodID`: its signatures, and the names it has recorded, each with
      the signature text of the function recorded. */
  datatype MethodId = MethodId(signatures: seq<seq<string>>, entries: OMap<string, string>)

  /** `ifmatch(name, func)`: whether some signature leads the function's
      parameters; if so the name is recorded with the function's signature
      text, otherwise nothing changes. */
  function IfMatch(m: MethodId, name: string, f: Func): (r: (bool, MethodId))
    ensures r.0 <==> exists i :: 0 <= i < |m.signatures| && Leads(m.signatures[i], ArgFind(f).0)
    ensures r.1.signatures == m.signatures
    ensures r.0 ==> r.1.entries == Put(m.entries, name, ArgFind(f).1)
    ensures !r.0 ==> r.1 == m
    ensures m.entries.Valid() ==> r.1.entries.Valid()
  {
    var (args, signature) := ArgFind(f);
    if FirstMatch(m.signatures, args).Some? then (true, m.(entries := Put(m.entries, name, signature)))
    else (false, m)
  }

  /** The keys of a dict on the right of `-`; anything else is not a dict. */
  datatype Operand = Dict(keys: set<string>) | NotDict

  function Absent(b: set<string>): string -> bool {
    k => k !in b
  }

  /** `dsub(a, b)`: the entries of `a` whose key is not in `b`, in order. */
  function DSub<V>(a: OMap<string, V>, b: set<string>): (r: OMap<string, V>)
    requires a.Valid()
    ensures r.Valid()
    ensures r.vals == a.vals - b
    ensures r.keys == Keep(a.keys, Absent(b))
  {
    var r := Filter(a, Absent(b));
    assert r.vals.Keys == (a.vals - b).Keys;
    r
  }

  /** Taking away nothing changes nothing. */
  lemma {:induction false} KeepAll(xs: seq<string>)
    ensures Keep(xs, Absent({})) == xs
    decreases |xs|
  {
    if |xs| > 0 {
      KeepAll(xs[..|xs| - 1]);
    }
  }

  /** Taking away `b` and then `c` takes away both at once; in particular
      taking away the same keys twice is taking them away once. */
  lemma {:induction false} DSubTwice<V>(a: OMap<string, V>, b: set<string>, c: set<string>)
    requires a.Valid()
    ensures DSub(DSub(a, b), c) == DSub(a, b + c)
  {
    DSubTwiceKeys(a, b, c);
    DSubTwiceVals(a, b, c);
  }

  lemma {:induction false} DSubTwiceKeys<V>(a: OMap<string, V>, b: set<string>, c: set<string>)
    requires a.Valid()
    ensures DSub(DSub(a, b), c).keys == DSub(a, b + c).keys
  {
    KeepBoth(a.keys, Absent(b), Absent(c), Absent(b + c));
  }

  lemma {:induction false} DSubTwiceVals<V>(a: OMap<string, V>, b: set<string>, c: set<string>)
    requires a.Valid()
    ensures DSub(DSub(a, b), c).vals == DSub(a, b + c).vals
  {
    assert (a.vals - b) - c == a.vals - (b + c);
  }

  lemma {:induction false} DSubIdempotent<V>(a: OMap<string, V>, b: set<string>)
    requires a.Valid()
    ensures DSub(DSub(a, b), b) == DSub(a, b)
  {
    DSubTwice(a, b, b);
    assert b + b == b;
  }

  lemma {:induction false} DSubNothing<V>(a: OMap<string, V>)
    requires a.Valid()
    ensures DSub(a, {}) == a
  {
    KeepAll(a.keys);
    assert a.vals - {} == a.vals;
  }

  /** `MethodID - other`: for a dict, a new `MethodID` with the same
      signatures holding the entries whose name `other` lacks; for anything
      else Python's implicit None. */
  function Sub(m: MethodId, other: Operand): (r: Option<MethodId>)
    requires m.entries.Valid()
    ensures r.None? <==> other.NotDict?
    ensures r.Some? ==> r.value.signatures == m.signatures && r.value.entries.Valid()
    ensures r.Some? ==> forall k :: k in r.value.entries.vals <==> k in m.entries.vals && k !in other.keys
    ensures r.Some? ==> forall k :: k in r.value.entries.vals ==> r.value.entries.vals[k] == m.entries.vals[k]
    ensures r.Some? ==> r.value.entries.keys == Keep(m.entries.keys, Absent(other.keys))
  {
    match other
    case NotDict => None
    case Dict(keys) => Some(MethodId(m.signatures, DSub(m.entries, keys)))
  }

  /** One line of `str(MethodID)`. */
  function EntryLine(key: string, val: string): string {
    "'" + key + "': " + PyTake(val, 60)
  }

  /** `str(MethodID)`: one newline-terminated line per entry, in order. */
  function Describe(m: MethodId): string
    requires m.entries.Valid()
  {
    var keys := m.entries.keys;
    Terminated(seq(|keys|, i requires 0 <= i < |keys| => EntryLine(keys[i], m.entries.vals[keys[i]])))
  }

  /** Reading `str(MethodID)` back line by line: one line per entry, quoting
      its name, followed by at most 60 leading characters of its value. */
  lemma {:induction false} DescribeLines(m: MethodId, i: nat)
    requires m.entries.Valid() && i < |m.entries.keys|
    requires forall k :: k in m.entries.vals ==> '\n' !in k && '\n' !in m.entries.vals[k]
    ensures |Split(Describe(m), "\n")| == |m.entries.keys| + 1
    ensures Split(Describe(m), "\n")[|m.entries.keys|] == ""
    ensures var key := m.entries.keys[i];
            var val := m.entries.vals[key];
            var line := Split(Describe(m), "\n")[i];
            && |line| >= |key| + 4
            && line[..|key| + 4] == "'" + key + "': "
            && line[|key| + 4..] <= val
            && |line[|key| + 4..]| == if |val| < 60 then |val| else 60
  {
    var keys := m.entries.keys;
    var lines := seq(|keys|, j requires 0 <= j < |keys| => EntryLine(keys[j], m.entries.vals[keys[j]]));
    forall j | 0 <= j < |lines| ensures '\n' !in lines[j] {
      var key := keys[j];
      assert key in m.entries.vals;
      assert lines[j] == "'" + key + "': " + PyTake(m.entries.vals[key], 60);
    }
    TerminatedSplit(lines);
    var key := keys[i];
    assert key in m.entries.vals;
    var val := m.entries.vals[key];
    var line := lines[i];
    assert line == "'" + key + "': " + PyTake(val, 60);
    assert line[..|key| + 4] == "'" + key + "': ";
    assert line[|key| + 4..] == PyTake(val, 60);
  }

  /** A member of the package: whether it is callable, and what the survey
      can learn about it as a function. */
  datatype Member = Member(callable: bool, func: Func)

  /** The six categories of the survey. */
  datatype Kind = BinOp | AxOp | ElwOp | NewOp | Unknown | Property

  const BinSigs: seq<seq<string>> := [["x1", "x2"], ["a", "b"]]
  const AxSigs: seq<seq<string>> := [["x", "axis"], ["a", "axis"]]
  const ElwSigs: seq<seq<string>> := [["x"]]
  const NewSigs: seq<seq<string>> := [["shape"]]

  /** A `ClassifyMethods`. */
  datatype Survey = Survey(binOps: MethodId, elwOps: MethodId, axOps: MethodId, newOps: MethodId,
                           unknown: OMap<string, Member>, properties: OMap<string, Member>)

  function Blank(): Survey {
    Survey(MethodId(BinSigs, Empty()), MethodId(ElwSigs, Empty()), MethodId(AxSigs, Empty()),
           MethodId(NewSigs, Empty()), Empty(), Empty())
  }

  /** The category a member belongs in, by the first rule that applies:
      not callable, then binary (`x1, x2` or `a, b` first), axis-reducing
      (`x, axis` or `a, axis`), element-wise (`x`), constructor (`shape`). */
  function KindOf(v: Member): Kind {
    if !v.callable then Property
    else
      var args := ArgFind(v.func).0;
      if Leads(["x1", "x2"], args) || Leads(["a", "b"], args) then BinOp
      else if Leads(["x", "axis"], args) || Leads(["a", "axis"], args) then AxOp
      else if Leads(["x"], args) then ElwOp
      else if Leads(["shape"], args) then NewOp
      else Unknown
  }

  /** The names recorded under a category, in order. */
  function PartKeys(s: Survey, kind: Kind): seq<string> {
    match kind
    case BinOp => s.binOps.entries.keys
    case AxOp => s.axOps.entries.keys
    case ElwOp => s.elwOps.entries.keys
    case NewOp => s.newOps.entries.keys
    case Unknown => s.unknown.keys
    case Property => s.properties.keys
  }

  /** The names recorded under a category, as a set. */
  function PartSet(s: Survey, kind: Kind): set<string> {
    match kind
    case BinOp => s.binOps.entries.vals.Keys
    case AxOp => s.axOps.entries.vals.Keys
    case ElwOp => s.elwOps.entries.vals.Keys
    case NewOp => s.newOps.entries.vals.Keys
    case Unknown => s.unknown.vals.Keys
    case Property => s.properties.vals.Keys
  }

  ghost predicate PartsValid(s: Survey) {
    && s.binOps.entries.Valid() && s.axOps.entries.Valid() && s.elwOps.entries.Valid()
    && s.newOps.entries.Valid() && s.unknown.Valid() && s.properties.Valid()
  }

  /** Every recorded entry carries what `from_pkg` stores for its member:
      the signature text for a function category, the member itself else. */
  ghost predicate Recorded(s: Survey, package: OMap<string, Member>) {
    && SignaturesRecorded(s.binOps, package) && SignaturesRecorded(s.axOps, package)
    && SignaturesRecorded(s.elwOps, package) && SignaturesRecorded(s.newOps, package)
    && MembersRecorded(s.unknown, package) && MembersRecorded(s.properties, package)
  }

  ghost predicate SignaturesRecorded(m: MethodId, package: OMap<string, Member>) {
    forall k :: k in m.entries.vals ==> k in package.vals && m.entries.vals[k] == ArgFind(package.vals[k].func).1
  }

  ghost predicate MembersRecorded(o: OMap<string, Member>, package: OMap<string, Member>) {
    forall k :: k in o.vals ==> k in package.vals && o.vals[k] == package.vals[k]
  }

  /** One pass of the loop in `from_pkg`: the `ifmatch` chain, first match wins. */
  function Visit(s: Survey, key: string, v: Member): Survey {
    if !v.callable then s.(properties := Put(s.properties, key, v))
    else
      var (isBin, bin) := IfMatch(s.binOps, key, v.func);
      if isBin then s.(binOps := bin)
      else
        var (isAx, ax) := IfMatch(s.axOps, key, v.func);
        if isAx then s.(axOps := ax)
        else
          var (isElw, elw) := IfMatch(s.elwOps, key, v.func);
          if isElw then s.(elwOps := elw)
          else
            var (isNew, nw) := IfMatch(s.newOps, key, v.func);
            if isNew then s.(newOps := nw)
            else s.(unknown := Put(s.unknown, key, v))
  }

  /** The four function categories carry the signatures `from_pkg` gives them. */
  predicate Standard(s: Survey) {
    && s.binOps.signatures == BinSigs && s.axOps.signatures == AxSigs
    && s.elwOps.signatures == ElwSigs && s.newOps.signatures == NewSigs
  }

  /** Filing a member directly under a category. */
  function Place(s: Survey, kind: Kind, key: string, v: Member): Survey {
    var sig := ArgFind(v.func).1;
    match kind
    case BinOp => s.(binOps := s.binOps.(entries := Put(s.binOps.entries, key, sig)))
    case AxOp => s.(axOps := s.axOps.(entries := Put(s.axOps.entries, key, sig)))
    case ElwOp => s.(elwOps := s.elwOps.(entries := Put(s.elwOps.entries, key, sig)))
    case NewOp => s.(newOps := s.newOps.(entries := Put(s.newOps.entries, key, sig)))
    case Unknown => s.(unknown := Put(s.unknown, key, v))
    case Property => s.(properties := Put(s.properties, key, v))
  }

  lemma {:induction false} LeadsEither(sigs: seq<seq<string>>, args: seq<string>)
    requires |sigs| == 2
    ensures (exists i :: 0 <= i < |sigs| && Leads(sigs[i], args)) <==> Leads(sigs[0], args) || Leads(sigs[1], args)
  {
    if Leads(sigs[0], args) {
      assert 0 < |sigs|;
    } else if Leads(sigs[1], args) {
      assert 1 < |sigs|;
    }
  }

  lemma {:induction false} LeadsOnly(sigs: seq<seq<string>>, args: seq<string>)
    requires |sigs| == 1
    ensures (exists i :: 0 <= i < |sigs| && Leads(sigs[i], args)) <==> Leads(sigs[0], args)
  {
    if Leads(sigs[0], args) {
      assert 0 < |sigs|;
    }
  }

  /** The `ifmatch` chain of `from_pkg` files a member exactly where the
      precedence of `KindOf` says. */
  lemma {:induction false} VisitPlaces(s: Survey, key: string, v: Member)
    requires Standard(s)
    ensures Visit(s, key, v) == Place(s, KindOf(v), key, v)
  {
    if v.callable {
      var args := ArgFind(v.func).0;
      LeadsEither(BinSigs, args);
      if !IfMatch(s.binOps, key, v.func).0 {
        LeadsEither(AxSigs, args);
        if !IfMatch(s.axOps, key, v.func).0 {
          LeadsOnly(ElwSigs, args);
          if !IfMatch(s.elwOps, key, v.func).0 {
            LeadsOnly(NewSigs, args);
          }
        }
      }
    }
  }

  /** Filing a new name adds it last to its own category and nowhere else. */
  lemma {:induction false} PlaceFiles(s: Survey, kind: Kind, key: string, v: Member)
    requires PartsValid(s) && Standard(s)
    requires forall c :: key !in PartSet(s, c)
    ensures PartsValid(Place(s, kind, key, v)) && Standard(Place(s, kind, key, v))
    ensures forall c :: PartKeys(Place(s, kind, key, v), c) ==
                        if c == kind then PartKeys(s, c) + [key] else PartKeys(s, c)
    ensures forall c :: PartSet(Place(s, kind, key, v), c) ==
                        if c == kind then PartSet(s, c) + {key} else PartSet(s, c)
  {
    assert key !in PartSet(s, kind);
  }

  /** Filing a member of the package under its category stores what
      `from_pkg` stores and keeps every earlier entry. */
  lemma {:induction false} PlaceRecords(s: Survey, key: string, package: OMap<string, Member>)
    requires key in package.vals
    requires Recorded(s, package)
    ensures Recorded(Place(s, KindOf(package.vals[key]), key, package.vals[key]), package)
  {
    var v := package.vals[key];
    var sig := ArgFind(v.func).1;
    match KindOf(v)
    case BinOp => SignaturePut(s.binOps, key, package);
    case AxOp => SignaturePut(s.axOps, key, package);
    case ElwOp => SignaturePut(s.elwOps, key, package);
    case NewOp => SignaturePut(s.newOps, key, package);
    case Unknown => MemberPut(s.unknown, key, package);
    case Property => MemberPut(s.properties, key, package);
  }

  lemma {:induction false} SignaturePut(m: MethodId, key: string, package: OMap<string, Member>)
    requires key in package.vals && SignaturesRecorded(m, package)
    ensures SignaturesRecorded(m.(entries := Put(m.entries, key, ArgFind(package.vals[key].func).1)), package)
  {
  }

  lemma {:induction false} MemberPut(o: OMap<string, Member>, key: string, package: OMap<string, Member>)
    requires key in package.vals && MembersRecorded(o, package)
    ensures MembersRecorded(Put(o, key, package.vals[key]), package)
  {
  }

  /** The survey of the first names of `keys`, visited in order. */
  function Scan(package: OMap<string, Member>, keys: seq<string>): Survey
    requires forall i :: 0 <= i < |keys| ==> keys[i] in package.vals
    decreases |keys|
  {
    if |keys| == 0 then Blank()
    else
      var last := keys[|keys| - 1];
      Visit(Scan(package, keys[..|keys| - 1]), last, package.vals[last])
  }

  function OfKind(package: OMap<string, Member>, kind: Kind): string -> bool {
    k => k in package.vals && KindOf(package.vals[k]) == kind
  }

  lemma {:induction false} ScanFiles(package: OMap<string, Member>, keys: seq<string>)
    requires forall i :: 0 <= i < |keys| ==> keys[i] in package.vals
    requires forall i, j :: 0 <= i < j < |keys| ==> keys[i] != keys[j]
    ensures PartsValid(Scan(package, keys)) && Standard(Scan(package, keys))
    ensures Recorded(Scan(package, keys), package)
    ensures forall kind :: PartKeys(Scan(package, keys), kind) == Keep(keys, OfKind(package, kind))
    decreases |keys|
  {
    if |keys| > 0 {
      var init := keys[..|keys| - 1];
      var last := keys[|keys| - 1];
      var v := package.vals[last];
      var s := Scan(package, init);
      ScanFiles(package, init);
      assert last !in init;
      forall kind ensures last !in PartSet(s, kind) {
        PartSetKeys(s, kind, last);
        KeepMembers(init, OfKind(package, kind), last);
      }
      VisitPlaces(s, last, v);
      PlaceFiles(s, KindOf(v), last, v);
      PlaceRecords(s, last, package);
      forall kind ensures PartKeys(Scan(package, keys), kind) == Keep(keys, OfKind(package, kind)) {
        assert OfKind(package, kind)(last) <==> KindOf(v) == kind;
      }
    }
  }

  /** A category's set and its ordered names agree. */
  lemma {:induction false} PartSetKeys(s: Survey, kind: Kind, k: string)
    requires PartsValid(s)
    ensures k in PartSet(s, kind) <==> k in PartKeys(s, kind)
  {
  }

  /** `ClassifyMethods.from_pkg(package)`. */
  function FromPkg(package: OMap<string, Member>): Survey
    requires package.Valid()
  {
    Scan(package, package.keys)
  }

  /** The survey files every member of the package under exactly its own
      category, with the value `from_pkg` stores, keeping the package's
      order within each category. */
  lemma {:induction false} FromPkgSorts(package: OMap<string, Member>, k: string)
    requires package.Valid()
    ensures PartsValid(FromPkg(package)) && Recorded(FromPkg(package), package)
    ensures forall kind :: PartKeys(FromPkg(package), kind) == Keep(package.keys, OfKind(package, kind))
    ensures forall kind :: k in PartSet(FromPkg(package), kind) <==> k in package.vals && kind == KindOf(package.vals[k])
  {
    ScanFiles(package, package.keys);
    forall kind ensures k in PartSet(FromPkg(package), kind) <==> k in package.vals && kind == KindOf(package.vals[k]) {
      PartSetKeys(FromPkg(package), kind, k);
      KeepMembers(package.keys, OfKind(package, kind), k);
    }
  }

  /** Earlier rules win: parameters `x, axis` make a function axis-reducing
      although `x` alone would have made it element-wise, and a callable
      the survey learns nothing about is unknown. */
  lemma {:induction false} PrecedenceExamples(name: Option<string>, doc: Option<string>)
    ensures KindOf(Member(true, Func(name, Some(["x", "axis", "out"]), doc))) == AxOp
    ensures KindOf(Member(true, Func(name, Some(["a", "b"]), doc))) == BinOp
    ensures KindOf(Member(true, Func(name, Some(["x", "out"]), doc))) == ElwOp
    ensures KindOf(Member(true, Func(name, None, None))) == Unknown
    ensures KindOf(Member(false, Func(name, Some(["x"]), doc))) == Property
  {
    assert ["x", "axis", "out"][..2] == ["x", "axis"];
    assert ["x", "out"][..1] == ["x"];
  }

  /** `ClassifyMethods - other`: every category taken away category by
      category; the implicit None for anything else. */
  function SurveySub(a: Survey, other: Option<Survey>): (r: Option<Survey>)
    requires PartsValid(a)
    ensures r.Some? <==> other.Some?
    ensures r.Some? ==> PartsValid(r.value)
  {
    match other
    case None => None
    case Some(b) =>
      Some(Survey(Sub(a.binOps, Dict(b.binOps.entries.vals.Keys)).value,
                  Sub(a.elwOps, Dict(b.elwOps.entries.vals.Keys)).value,
                  Sub(a.axOps, Dict(b.axOps.entries.vals.Keys)).value,
                  Sub(a.newOps, Dict(b.newOps.entries.vals.Keys)).value,
                  DSub(a.unknown, b.unknown.vals.Keys),
                  DSub(a.properties, b.properties.vals.Keys)))
  }

  /** Subtraction works category by category: a category keeps the names,
      in order, that the other survey lacks in the same category. */
  lemma {:induction false} SurveySubFiles(a: Survey, b: Survey, kind: Kind, k: string)
    requires PartsValid(a)
    ensures PartKeys(SurveySub(a, Some(b)).value, kind) == Keep(PartKeys(a, kind), Absent(PartSet(b, kind)))
    ensures k in PartSet(SurveySub(a, Some(b)).value, kind) <==> k in PartSet(a, kind) && k !in PartSet(b, kind)
  {
  }

  /** Subtracting one survey from another keeps a name under a category
      exactly when the first package files it there and the second does
      not file it there: a name that only changed category stays. */
  lemma {:induction false} SurveySubSorts(p: OMap<string, Member>, q: OMap<string, Member>, k: string, kind: Kind)
    requires p.Valid() && q.Valid()
    ensures PartsValid(FromPkg(p))
    ensures var r := SurveySub(FromPkg(p), Some(FromPkg(q)));
            r.Some? && (k in PartSet(r.value, kind) <==>
              k in p.vals && KindOf(p.vals[k]) == kind && !(k in q.vals && KindOf(q.vals[k]) == kind))
  {
    FromPkgSorts(p, k);
    FromPkgSorts(q, k);
    SurveySubFiles(FromPkg(p), FromPkg(q), kind, k);
  }
}

=== FILE: common.dfy ===
/** Failure-carrying results shared by every module of the model.

    The library reports failures by raising Python exceptions.  Pure functions of
    the model return a `Result`, and operations that mutate an object before they
    raise return a `Step`: the state the object is left in, and the exception, if any.
 */
module Common {

  datatype Option<+T> = None | Some(value: T)

  /** The exception classes the modelled code raises (or lets escape). */
  datatype Error =
    | ValueError
    | KeyError
    | TypeError
    | IndexError
    | AttributeError
    | AssertionError
    | UnboundLocalError
    | ShapeError
    | AxisError

  datatype Result<+T> = Ok(value: T) | Err(error: Error)

  /** State of a mutable object after a call, and the exception the call raised (if any). */
  datatype Step<+S> = Step(state: S, raised: Option<Error>) {
    predicate Raised() { raised.Some? }
  }

  /** The first error of a list of results, in order, or all their values. */
  function Collect<T>(xs: seq<Result<T>>): (r: Result<seq<T>>)
    ensures r.Ok? <==> forall i :: 0 <= i < |xs| ==> xs[i].Ok?
    ensures r.Ok? ==> |r.value| == |xs| && forall i :: 0 <= i < |xs| ==> r.value[i] == xs[i].value
    ensures r.Err? ==> exists i :: 0 <= i < |xs| && xs[i] == Err(r.error) && forall i' :: 0 <= i' < i ==> xs[i'].Ok?
  {
    if |xs| == 0 then Ok([])
    else match xs[0]
      case Err(e) => Err(e)
      case Ok(v) =>
        match Collect(xs[1..])
        case Err(e) =>
          ghost var i :| 0 <= i < |xs[1..]| && xs[1..][i] == Err(e) && forall i' :: 0 <= i' < i ==> xs[1..][i'].Ok?;
          assert xs[i + 1] == Err(e);
          Err(e)
        case Ok(vs) => Ok([v] + vs)
  }

  /** Collecting row by row finds the first failing cell in reading order. */
  function CollectRows<T>(rows: seq<seq<Result<T>>>): (r: Result<seq<seq<T>>>)
    ensures r.Ok? <==> forall i, j :: 0 <= i < |rows| && 0 <= j < |rows[i]| ==> rows[i][j].Ok?
    ensures r.Ok? ==> |r.value| == |rows|
    ensures r.Ok? ==> forall i :: 0 <= i < |rows| ==> |r.value[i]| == |rows[i]|
    ensures r.Ok? ==> forall i, j :: 0 <= i < |rows| && 0 <= j < |rows[i]| ==> r.value[i][j] == rows[i][j].value
    ensures r.Err? ==> exists i, j :: 0 <= i < |rows| && 0 <= j < |rows[i]| && rows[i][j] == Err(r.error)
  {
    var collected := seq(|rows|, i requires 0 <= i < |rows| => Collect(rows[i]));
    var r := Collect(collected);
    assert forall i :: 0 <= i < |rows| ==> collected[i] == Collect(rows[i]);
    if r.Err? then
      ghost var i :| 0 <= i < |collected| && collected[i] == Err(r.error);
      assert Collect(rows[i]).Err?;
      r
    else
      assert forall i :: 0 <= i < |rows| ==> collected[i] == Collect(rows[i]) && collected[i].Ok?;
      r
  }
}

=== FILE: containers.dfy ===
/** The broadcast-checked containers `TablaSet` (`tablarray/set.py`) and
    `Assembly` (`tablarray/assy.py`), whose `_set_ts`, `__setitem__`,
    `__getitem__`, `__contains__` and `setview` are the same code: an ordered
    map of named TablArrays plus a master descriptor that every member
    broadcasts into. */
module Containers {
  import opened Common
  import opened Shapes
  import opened Values
  import opened OrderedMaps

  /** A key or index argument: a `str`, or anything else (an int, a slice, ...),
      which is handed to the members' indexing unchanged. */
  datatype Arg = Name(name: string) | Index(i: int)

  /** The container state: the master descriptor `ts` (None before the first
      insert), the `_shape`/`_ndim`/`_size` attributes (absent until the first
      `_set_ts`), the view tag and the members in insertion order. */
  datatype Container = Container(
    master: Option<Descriptor>,
    dims: Option<Dims>,
    view: string,
    members: OMap<string, TablArray>)

  /** Every member carries the container's view and broadcasts into the master;
      without a master there are no members. */
  ghost predicate Valid(c: Container) {
    && c.members.Valid()
    && (c.master.None? ==> c.members.keys == [])
    && (forall k :: k in c.members.vals ==> c.members.vals[k].view == c.view)
    && (c.master.Some? ==> forall k :: k in c.members.vals ==> Fits(c.members.vals[k].desc, c.master.value))
  }

  /** `TablaSet(view)` with no keyword arguments. */
  function New(view: string): (r: Container)
    ensures Valid(r) && r.view == view && r.master.None? && r.members.keys == []
  {
    Container(None, None, view, Empty())
  }

  /** The conversion at the head of `__setitem__`: an ndarray becomes a TablArray
      whose every axis is cellular, a scalar one with no axes; a TablArray is
      kept; anything else is a ValueError. */
  function Admit(val: Value): (r: Result<TablArray>)
    ensures val.Tab? ==> r == Ok(val.ta)
    ensures val.NdArray? ==> r.Ok? && r.value.desc == Descriptor([], val.shape)
    ensures val.Scalar? ==> r.Ok? && r.value.desc == Descriptor([], [])
    ensures val.Foreign? ==> r == Err(ValueError)
  {
    match val
    case Tab(t) => Ok(t)
    case NdArray(s) => Ok(TablArray(Descriptor([], s), "table"))
    case Scalar => Ok(TablArray(Descriptor([], []), "table"))
    case Foreign(_, _, _) => Err(ValueError)
  }

  /** `_set_ts(new_ts)`: the master is replaced first; then shape, ndim and size
      are derived for the view, and an unrecognised view raises ValueError with
      the master already replaced. */
  function SetTs(c: Container, m: Descriptor): (r: Step<Container>)
    ensures r.state.master == Some(m)
    ensures r.state.view == c.view && r.state.members == c.members
    ensures r.Raised() <==> ParseView(c.view).None?
    ensures r.Raised() ==> r.raised == Some(ValueError) && r.state.dims == c.dims
    ensures !r.Raised() ==> r.state.dims.Some?
    ensures !r.Raised() ==>
              var d := r.state.dims.value;
              && d.ndim == |d.shape| && d.size == Prod(d.shape)
              && (ParseView(c.view).value in {Table, Bcast} ==> d.shape == m.tshape)
              && (ParseView(c.view).value == Cell ==> d.shape == m.cshape)
              && (ParseView(c.view).value == Array ==> d.shape == m.tshape + m.cshape)
  {
    match ParseView(c.view)
    case None => Step(c.(master := Some(m)), Some(ValueError))
    case Some(v) => Step(c.(master := Some(m), dims := Some(ViewDims(m, v))), None)
  }

  /** The master-shape update of `__setitem__`: the first insert takes the new
      descriptor as master without `_set_ts`; a later one combines, refusing an
      incompatible descriptor with a ValueError and no change at all. */
  function MergeMaster(c: Container, d: Descriptor): (r: Step<Container>)
    ensures r.state.view == c.view && r.state.members == c.members
    ensures c.master.None? ==> r == Step(c.(master := Some(d)), None)
    ensures c.master.Some? && Combine(c.master.value, d).None? ==> r == Step(c, Some(ValueError))
    ensures c.master.Some? && Combine(c.master.value, d).Some? ==>
              r == SetTs(c, Combine(c.master.value, d).value)
    ensures r.Raised() ==> r.raised == Some(ValueError)
    ensures c.master.None? || Combine(c.master.value, d).Some? ==>
              r.state.master.Some? && Fits(d, r.state.master.value)
    ensures c.master.Some? ==> r.state.master.Some? && Fits(c.master.value, r.state.master.value)
  {
    match c.master
    case None =>
      FitsSelf(d);
      Step(c.(master := Some(d)), None)
    case Some(m) =>
      match Combine(m, d)
      case None =>
        FitsSelf(m);
        Step(c, Some(ValueError))
      case Some(nm) =>
        CombineFits(m, d);
        SetTs(c, nm)
  }

  /** `container[key] = val`.  The value is converted, the master merged, and
      only then is a non-`str` key refused; the stored member is relabelled to
      the container's view. */
  function SetItem(c: Container, key: Arg, val: Value): (r: Step<Container>)
    ensures r.state.view == c.view
    ensures Admit(val).Err? ==> r == Step(c, Some(ValueError))
    ensures Admit(val).Ok? && c.master.Some? && Combine(c.master.value, Admit(val).value.desc).None? ==>
              r == Step(c, Some(ValueError))
    ensures Admit(val).Ok? ==> r.state.master == MergeMaster(c, Admit(val).value.desc).state.master
    ensures Admit(val).Ok? && c.master.None? ==> r.state.master == Some(Admit(val).value.desc) && r.state.dims == c.dims
    ensures key.Index? ==> r.raised == Some(ValueError) && r.state.members == c.members
    ensures r.Raised() ==> r.state.members == c.members && r.raised == Some(ValueError)
    ensures !r.Raised() <==>
              Admit(val).Ok? && key.Name?
              && (c.master.Some? ==> Combine(c.master.value, Admit(val).value.desc).Some? && ParseView(c.view).Some?)
    ensures !r.Raised() ==>
              && key.name in r.state.members.vals
              && r.state.members.vals[key.name] == Relabel(Admit(val).value, c.view)
              && (forall k :: k in c.members.vals && k != key.name ==>
                    k in r.state.members.vals && r.state.members.vals[k] == c.members.vals[k])
              && (forall k :: k in r.state.members.vals ==> k in c.members.vals || k == key.name)
  {
    match Admit(val)
    case Err(e) => Step(c, Some(e))
    case Ok(t) =>
      var merged := MergeMaster(c, t.desc);
      if merged.Raised() then merged
      else if key.Index? then Step(merged.state, Some(ValueError))
      else
        var s := merged.state;
        Step(s.(members := Put(s.members, key.name, Relabel(t, c.view))), None)
  }

  /** Every insert, whether it succeeds or raises, leaves a valid container:
      the master only grows, and every member keeps broadcasting into it. */
  lemma {:induction false} SetItemPreservesValid(c: Container, key: Arg, val: Value)
    requires Valid(c)
    ensures Valid(SetItem(c, key, val).state)
    ensures c.master.Some? ==> Fits(c.master.value, SetItem(c, key, val).state.master.value)
  {
    var r := SetItem(c, key, val);
    if Admit(val).Ok? {
      var t := Admit(val).value;
      var merged := MergeMaster(c, t.desc);
      var m := merged.state.master.value;
      if c.master.Some? {
        forall k | k in c.members.vals ensures Fits(c.members.vals[k].desc, m) {
          FitsTransitive(c.members.vals[k].desc, c.master.value, m);
        }
      }
    }
  }

  /** `key in container`: only names of stored members are in it. */
  function Contains(c: Container, key: Arg): (r: bool)
    ensures r <==> key.Name? && key.name in c.members.keys
    requires Valid(c)
  {
    key.Name? && key.name in c.members.vals
  }

  /** After a successful insert the key is in the container, and every key
      that was in it still is. */
  lemma {:induction false} ContainsAfterSetItem(c: Container, key: Arg, val: Value, other: Arg)
    requires Valid(c)
    requires !SetItem(c, key, val).Raised()
    ensures Valid(SetItem(c, key, val).state)
    ensures Contains(SetItem(c, key, val).state, key)
    ensures Contains(c, other) ==> Contains(SetItem(c, key, val).state, other)
    ensures Contains(SetItem(c, key, val).state, other) <==> Contains(c, other) || other == key
  {
    SetItemPreservesValid(c, key, val);
  }

  /** `setview(view)`: the container's tag and every member's tag become
      `view`; the master and the derived shape attributes are not recomputed. */
  function SetView(c: Container, view: string): (r: Container)
    requires Valid(c)
    ensures Valid(r)
    ensures r.view == view && r.master == c.master && r.dims == c.dims
    ensures r.members.keys == c.members.keys
    ensures forall k :: k in r.members.vals ==>
              k in c.members.vals && r.members.vals[k] == Relabel(c.members.vals[k], view)
  {
    c.(view := view, members := MapValues(c.members, (t: TablArray) => Relabel(t, view)))
  }

  // ---------------------------------------------------------------- indexing

  /** The `str` arguments, in order. */
  function Names(args: seq<Arg>): (r: seq<string>)
    ensures |r| <= |args|
  {
    if |args| == 0 then []
    else if args[|args| - 1].Name? then Names(args[..|args| - 1]) + [args[|args| - 1].name]
    else Names(args[..|args| - 1])
  }

  /** The other arguments, in order. */
  function Indices(args: seq<Arg>): (r: seq<int>)
    ensures |r| <= |args|
  {
    if |args| == 0 then []
    else if args[|args| - 1].Index? then Indices(args[..|args| - 1]) + [args[|args| - 1].i]
    else Indices(args[..|args| - 1])
  }

  /** The sorting loop at the head of `__getitem__`: every argument goes to
      exactly one of the two lists, and each list keeps the arguments' order. */
  method PartitionArgs(args: seq<Arg>) returns (keys: seq<string>, indices: seq<int>)
    ensures keys == Names(args) && indices == Indices(args)
    ensures |keys| + |indices| == |args|
  {
    keys, indices := [], [];
    var n := 0;
    while n < |args|
      invariant 0 <= n <= |args|
      invariant keys == Names(args[..n]) && indices == Indices(args[..n])
      invariant |keys| + |indices| == n
    {
      assert args[..n + 1][..n] == args[..n];
      if args[n].Name? {
        keys := keys + [args[n].name];
      } else {
        indices := indices + [args[n].i];
      }
      n := n + 1;
    }
    assert args[..|args|] == args;
  }

  /** One member for `__getitem__`: a KeyError if absent; with indices, the
      member's bcast relabelling indexed by them (`index` stands for TablArray
      indexing, which may raise, and which gives a bare ndarray or scalar once
      no tabular axis is left). */
  function Fetch(m: OMap<string, TablArray>, key: string, indices: seq<int>,
                 index: (TablArray, seq<int>) -> Result<Value>): (r: Result<Value>)
    ensures key !in m.vals ==> r == Err(KeyError)
    ensures key in m.vals && |indices| == 0 ==> r == Ok(Tab(m.vals[key]))
    ensures key in m.vals && |indices| > 0 ==> r == index(Relabel(m.vals[key], "bcast"), indices)
  {
    match Get(m, key)
    case Err(e) => Err(e)
    case Ok(element) =>
      if |indices| == 0 then Ok(Tab(element)) else index(Relabel(element, "bcast"), indices)
  }

  /** The members for the keys, in key order; the first failure is raised. */
  function Gather(m: OMap<string, TablArray>, keys: seq<string>, indices: seq<int>,
                  index: (TablArray, seq<int>) -> Result<Value>): (r: Result<seq<Value>>)
    ensures r.Ok? ==> |r.value| == |keys|
    ensures r.Ok? ==> forall i :: 0 <= i < |keys| ==> keys[i] in m.vals
    ensures r.Ok? ==> forall i :: 0 <= i < |keys| ==> Fetch(m, keys[i], indices, index) == Ok(r.value[i])
    ensures |indices| == 0 ==> (r.Ok? <==> forall i :: 0 <= i < |keys| ==> keys[i] in m.vals)
    ensures |indices| == 0 && r.Err? ==> r.error == KeyError
    ensures |keys| == 1 ==>
              var x := Fetch(m, keys[0], indices, index);
              r == if x.Ok? then Ok([x.value]) else Err(x.error)
    decreases |keys|
  {
    if |keys| == 0 then Ok([])
    else
      assert |keys| == 1 ==> keys[..|keys| - 1] == [];
      match Gather(m, keys[..|keys| - 1], indices, index)
      case Err(e) => Err(e)
      case Ok(front) =>
        match Fetch(m, keys[|keys| - 1], indices, index)
        case Err(e) => Err(e)
        case Ok(x) =>
          assert |keys| == 1 ==> front == [] && front + [x] == [x];
          Ok(front + [x])
  }

  /** `container[k] = v` for each pair in order, stopping at the first raise. */
  function InsertAll(c: Container, items: seq<(string, Value)>): (r: Step<Container>)
    ensures r.state.view == c.view
    ensures r.Raised() ==> r.raised == Some(ValueError)
    decreases |items|
  {
    if |items| == 0 then Step(c, None)
    else
      var s := InsertAll(c, items[..|items| - 1]);
      if s.Raised() then s
      else SetItem(s.state, Name(items[|items| - 1].0), items[|items| - 1].1)
  }

  /** `TablaSet(view, **kwargs)`. */
  function Make(view: string, kwargs: seq<(string, Value)>): (r: Step<Container>)
    ensures Valid(r.state)
    ensures r.state.view == view
  {
    InsertAllPreservesValid(New(view), kwargs);
    InsertAll(New(view), kwargs)
  }

  lemma {:induction false} InsertAllPreservesValid(c: Container, items: seq<(string, Value)>)
    requires Valid(c)
    ensures Valid(InsertAll(c, items).state)
    decreases |items|
  {
    if |items| > 0 {
      InsertAllPreservesValid(c, items[..|items| - 1]);
      var s := InsertAll(c, items[..|items| - 1]);
      if !s.Raised() {
        SetItemPreservesValid(s.state, Name(items[|items| - 1].0), items[|items| - 1].1);
      }
    }
  }

  /** What `__getitem__` returns: one value (a member, or what indexing a
      member gives), or a new container. */
  datatype Got = One(v: Value) | Many(c: Container)

  /** The keyword pairs of TablArrays inserted under the keys. */
  function TabEntries(keys: seq<string>, vals: seq<TablArray>): (r: seq<(string, Value)>)
    requires |keys| == |vals|
    ensures |r| == |keys|
    ensures forall i :: 0 <= i < |r| ==> r[i] == (keys[i], Tab(vals[i]))
  {
    seq(|keys|, i requires 0 <= i < |keys| => (keys[i], Tab(vals[i])))
  }

  /** The pairs `rval[keys[i]] = rarrays[i]` of the many-key branch. */
  function Entries(keys: seq<string>, vals: seq<Value>): (r: seq<(string, Value)>)
    requires |keys| == |vals|
    ensures |r| == |keys|
    ensures forall i :: 0 <= i < |r| ==> r[i] == (keys[i], vals[i])
  {
    seq(|keys|, i requires 0 <= i < |keys| => (keys[i], vals[i]))
  }

  /** The keys `__getitem__` works with: the `str` arguments, or every key in
      insertion order when there are none. */
  function Selected(c: Container, args: seq<Arg>): seq<string> {
    if |Names(args)| == 0 then c.members.keys else Names(args)
  }

  /** `container[args]`: one selected key gives that member (indexed in bcast
      view when there are indices); otherwise a new container in view table is
      built from the selected members in request order. */
  function GetItem(c: Container, args: seq<Arg>, index: (TablArray, seq<int>) -> Result<Value>): (r: Result<Got>)
    ensures |Indices(args)| == 0 ==>
              (r == Err(KeyError) <==> exists i :: 0 <= i < |Selected(c, args)| && Selected(c, args)[i] !in c.members.vals)
    ensures r.Ok? ==> forall i :: 0 <= i < |Selected(c, args)| ==> Selected(c, args)[i] in c.members.vals
    ensures r.Ok? && |Selected(c, args)| == 1 && |Indices(args)| == 0 ==>
              r.value == One(Tab(c.members.vals[Selected(c, args)[0]]))
    ensures |Selected(c, args)| == 1 && Selected(c, args)[0] in c.members.vals && |Indices(args)| > 0 ==>
              var x := index(Relabel(c.members.vals[Selected(c, args)[0]], "bcast"), Indices(args));
              r == if x.Ok? then Ok(One(x.value)) else Err(x.error)
    ensures r.Ok? ==> (r.value.One? <==> |Selected(c, args)| == 1)
    ensures r.Ok? && r.value.Many? ==> r.value.c.view == "table"
  {
    var keys := Selected(c, args);
    var indices := Indices(args);
    match Gather(c.members, keys, indices, index)
    case Err(e) => Err(e)
    case Ok(rarrays) =>
      if |rarrays| == 1 then Ok(One(rarrays[0]))
      else
        var built := InsertAll(New("table"), Entries(keys, rarrays));
        if built.Raised() then Err(built.raised.value) else Ok(Many(built.state))
  }

  /** `container[key, i]` gives whatever indexing the member's bcast view
      gives, a bare scalar included, without wrapping it again. */
  lemma {:induction false} GetItemIndexedBare(c: Container, key: string, i: int, index: (TablArray, seq<int>) -> Result<Value>)
    requires key in c.members.vals
    requires index(Relabel(c.members.vals[key], "bcast"), [i]) == Ok(Scalar)
    ensures GetItem(c, [Name(key), Index(i)], index) == Ok(One(Scalar))
  {
    var args := [Name(key), Index(i)];
    assert args[..1] == [Name(key)] && args[..1][..0] == [];
    assert Names(args) == [key];
    assert Indices(args) == [i];
  }

  /** One insert of a TablArray that fits `m` under a new name, into a
      container whose master fits `m`, does not raise. */
  lemma {:induction false} SetItemFitting(s: Container, k: string, t: TablArray, m: Descriptor)
    requires Valid(s) && ParseView(s.view).Some?
    requires s.master.Some? ==> Fits(s.master.value, m)
    requires Fits(t.desc, m)
    requires k !in s.members.vals
    ensures var r := SetItem(s, Name(k), Tab(t));
            && !r.Raised() && Valid(r.state)
            && r.state.members.keys == s.members.keys + [k]
            && r.state.members.vals == s.members.vals[k := Relabel(t, s.view)]
            && r.state.master.Some? && Fits(r.state.master.value, m)
  {
    if s.master.Some? {
      FitsCombine(s.master.value, t.desc, m);
    }
    SetItemPreservesValid(s, Name(k), Tab(t));
  }

  /** The outcome of inserting `vals` under the new names `keys` into `c`
      without a raise, within the bound `m`. */
  ghost predicate InsertedWithin(c: Container, keys: seq<string>, vals: seq<TablArray>, m: Descriptor, r: Step<Container>)
    requires |keys| == |vals|
  {
    && !r.Raised() && Valid(r.state)
    && r.state.members.keys == c.members.keys + keys
    && (r.state.master.Some? ==> Fits(r.state.master.value, m))
    && (forall i :: 0 <= i < |keys| ==> keys[i] in r.state.members.vals && r.state.members.vals[keys[i]] == Relabel(vals[i], c.view))
    && (forall k :: k in c.members.vals ==> k in r.state.members.vals && r.state.members.vals[k] == c.members.vals[k])
  }

  lemma {:induction false} AssignedAfterUpdate(sv: map<string, TablArray>, keys: seq<string>, vals: seq<TablArray>, view: string)
    requires |keys| == |vals| && |keys| > 0
    requires forall i :: 0 <= i < |keys| - 1 ==> keys[i] != keys[|keys| - 1]
    requires var pk, pv := keys[..|keys| - 1], vals[..|keys| - 1];
             forall i :: 0 <= i < |pk| ==> pk[i] in sv && sv[pk[i]] == Relabel(pv[i], view)
    ensures var rv := sv[keys[|keys| - 1] := Relabel(vals[|keys| - 1], view)];
            forall i :: 0 <= i < |keys| ==> keys[i] in rv && rv[keys[i]] == Relabel(vals[i], view)
  {
    var n := |keys| - 1;
    forall i | 0 <= i < n ensures keys[i] in sv && sv[keys[i]] == Relabel(vals[i], view) {
      assert keys[..n][i] == keys[i] && vals[..n][i] == vals[i];
    }
  }

  /** Inserting TablArrays that all fit one descriptor `m` under distinct new
      names never raises: each merge stays within `m`. */
  lemma {:induction false} InsertFitting(c: Container, keys: seq<string>, vals: seq<TablArray>, m: Descriptor)
    requires Valid(c) && ParseView(c.view).Some?
    requires c.master.Some? ==> Fits(c.master.value, m)
    requires |keys| == |vals|
    requires forall i :: 0 <= i < |vals| ==> Fits(vals[i].desc, m)
    requires forall i, j :: 0 <= i < j < |keys| ==> keys[i] != keys[j]
    requires forall i :: 0 <= i < |keys| ==> keys[i] !in c.members.vals
    ensures InsertedWithin(c, keys, vals, m, InsertAll(c, TabEntries(keys, vals)))
    decreases |keys|
  {
    if |keys| > 0 {
      var n := |keys| - 1;
      assert TabEntries(keys, vals)[..n] == TabEntries(keys[..n], vals[..n]);
      InsertFitting(c, keys[..n], vals[..n], m);
      InsertFittingStep(c, keys, vals, m);
    }
  }

  lemma {:induction false} InsertFittingStep(c: Container, keys: seq<string>, vals: seq<TablArray>, m: Descriptor)
    requires Valid(c) && ParseView(c.view).Some?
    requires |keys| == |vals| && |keys| > 0
    requires Fits(vals[|vals| - 1].desc, m)
    requires forall i :: 0 <= i < |keys| - 1 ==> keys[i] != keys[|keys| - 1]
    requires keys[|keys| - 1] !in c.members.vals
    requires InsertedWithin(c, keys[..|keys| - 1], vals[..|keys| - 1], m,
                            InsertAll(c, TabEntries(keys, vals)[..|keys| - 1]))
    ensures InsertedWithin(c, keys, vals, m, InsertAll(c, TabEntries(keys, vals)))
  {
    var n := |keys| - 1;
    var items := TabEntries(keys, vals);
    var s := InsertAll(c, items[..n]);
    assert keys[n] !in s.state.members.vals by {
      assert s.state.members.keys == c.members.keys + keys[..n];
    }
    SetItemFitting(s.state, keys[n], vals[n], m);
    assert InsertAll(c, items) == SetItem(s.state, Name(keys[n]), Tab(vals[n]));
    StepWithin(c, keys, vals, m, s, InsertAll(c, items));
  }

  /** The bookkeeping of one step of `InsertFitting`, on states alone. */
  lemma {:induction false} StepWithin(c: Container, keys: seq<string>, vals: seq<TablArray>, m: Descriptor, s: Step<Container>, r: Step<Container>)
    requires |keys| == |vals| && |keys| > 0
    requires forall i :: 0 <= i < |keys| - 1 ==> keys[i] != keys[|keys| - 1]
    requires keys[|keys| - 1] !in c.members.vals
    requires r.state.view == c.view
    requires InsertedWithin(c, keys[..|keys| - 1], vals[..|keys| - 1], m, s)
    requires !r.Raised() && Valid(r.state)
    requires r.state.members.keys == s.state.members.keys + [keys[|keys| - 1]]
    requires r.state.members.vals == s.state.members.vals[keys[|keys| - 1] := Relabel(vals[|keys| - 1], s.state.view)]
    requires s.state.view == c.view
    requires r.state.master.Some? && Fits(r.state.master.value, m)
    ensures InsertedWithin(c, keys, vals, m, r)
  {
    var n := |keys| - 1;
    assert c.members.keys + keys[..n] + [keys[n]] == c.members.keys + keys;
    AssignedAfterUpdate(s.state.members.vals, keys, vals, c.view);
  }

  /** Members of a valid container never clash with each other: selecting
      distinct present keys without indices always succeeds, giving the one
      member for one key and otherwise a valid container holding exactly the
      selected members, in request order, relabelled to view table, whose
      master still fits the original master. */
  lemma {:induction false} GetItemNeverFails(c: Container, args: seq<Arg>, index: (TablArray, seq<int>) -> Result<Value>)
    requires Valid(c)
    requires |Indices(args)| == 0
    requires forall i :: 0 <= i < |Names(args)| ==> Names(args)[i] in c.members.vals
    requires forall i, j :: 0 <= i < j < |Names(args)| ==> Names(args)[i] != Names(args)[j]
    ensures GetItem(c, args, index).Ok?
    ensures var keys := Selected(c, args);
            var r := GetItem(c, args, index).value;
            |keys| != 1 ==>
              && r.Many? && Valid(r.c)
              && r.c.members.keys == keys
              && (forall i :: 0 <= i < |keys| ==>
                    keys[i] in r.c.members.vals && r.c.members.vals[keys[i]] == Relabel(c.members.vals[keys[i]], "table"))
              && (r.c.master.Some? ==> c.master.Some? && Fits(r.c.master.value, c.master.value))
  {
    var keys := Selected(c, args);
    assert forall i :: 0 <= i < |keys| ==> keys[i] in c.members.vals;
    GatherMembers(c, keys, index);
    if |keys| != 1 {
      GetItemMany(c, args, index);
    }
  }

  /** Without indices, gathering present keys gives their members, each
      fitting the master. */
  lemma {:induction false} GatherMembers(c: Container, keys: seq<string>, index: (TablArray, seq<int>) -> Result<Value>)
    requires Valid(c)
    requires forall i :: 0 <= i < |keys| ==> keys[i] in c.members.vals
    ensures var g := Gather(c.members, keys, [], index);
            && g.Ok?
            && (forall i :: 0 <= i < |keys| ==> g.value[i] == Tab(c.members.vals[keys[i]]))
            && (|keys| > 0 ==> c.master.Some? && forall i :: 0 <= i < |keys| ==> Fits(c.members.vals[keys[i]].desc, c.master.value))
  {
    var g := Gather(c.members, keys, [], index);
    forall i | 0 <= i < |keys| ensures g.value[i] == Tab(c.members.vals[keys[i]]) {
      assert Fetch(c.members, keys[i], [], index) == Ok(g.value[i]);
    }
    if |keys| > 0 {
      assert keys[0] in c.members.vals;
    }
  }

  /** The many-member branch of `GetItemNeverFails`. */
  lemma {:induction false} GetItemMany(c: Container, args: seq<Arg>, index: (TablArray, seq<int>) -> Result<Value>)
    requires Valid(c)
    requires |Indices(args)| == 0 && |Selected(c, args)| != 1
    requires forall i, j :: 0 <= i < j < |Selected(c, args)| ==> Selected(c, args)[i] != Selected(c, args)[j]
    requires var g := Gather(c.members, Selected(c, args), [], index);
             && g.Ok?
             && (forall i :: 0 <= i < |Selected(c, args)| ==> g.value[i] == Tab(c.members.vals[Selected(c, args)[i]]))
    ensures GetItem(c, args, index).Ok?
    ensures var keys := Selected(c, args);
            var r := GetItem(c, args, index).value;
            && r.Many? && Valid(r.c)
            && r.c.members.keys == keys
            && (forall i :: 0 <= i < |keys| ==> keys[i] in r.c.members.vals && r.c.members.vals[keys[i]] == Relabel(c.members.vals[keys[i]], "table"))
            && (r.c.master.Some? ==> c.master.Some? && Fits(r.c.master.value, c.master.value))
  {
    var keys := Selected(c, args);
    var rarrays := Gather(c.members, keys, [], index).value;
    GetItemBuilds(c, args, index, rarrays);
    var ts := seq(|keys|, i requires 0 <= i < |keys| => c.members.vals[keys[i]]);
    assert Entries(keys, rarrays) == TabEntries(keys, ts);
    if |keys| > 0 {
      assert keys[0] in c.members.vals;
    }
    BuiltMembers(c, keys, ts);
  }

  /** Inserting distinct present members into a new container in view table
      does not raise and keeps the master within the original one. */
  lemma {:induction false} BuiltMembers(c: Container, keys: seq<string>, rarrays: seq<TablArray>)
    requires Valid(c)
    requires |keys| == |rarrays|
    requires forall i, j :: 0 <= i < j < |keys| ==> keys[i] != keys[j]
    requires forall i :: 0 <= i < |keys| ==> keys[i] in c.members.vals && rarrays[i] == c.members.vals[keys[i]]
    requires |keys| > 0 ==> c.master.Some? && forall i :: 0 <= i < |rarrays| ==> Fits(rarrays[i].desc, c.master.value)
    ensures var built := InsertAll(New("table"), TabEntries(keys, rarrays));
            && !built.Raised() && Valid(built.state)
            && built.state.members.keys == keys
            && (forall i :: 0 <= i < |keys| ==>
                  keys[i] in built.state.members.vals && built.state.members.vals[keys[i]] == Relabel(c.members.vals[keys[i]], "table"))
            && (built.state.master.Some? ==> c.master.Some? && Fits(built.state.master.value, c.master.value))
  {
    if |keys| == 0 {
      assert TabEntries(keys, rarrays) == [];
    } else {
      InsertFitting(New("table"), keys, rarrays, c.master.value);
    }
  }

  /** With no indices and other than one key, `__getitem__` inserts the
      gathered members into a new container in view table. */
  lemma {:induction false} GetItemBuilds(c: Container, args: seq<Arg>, index: (TablArray, seq<int>) -> Result<Value>, rarrays: seq<Value>)
    requires |Indices(args)| == 0 && |Selected(c, args)| != 1
    requires Gather(c.members, Selected(c, args), [], index) == Ok(rarrays)
    ensures |rarrays| == |Selected(c, args)|
    ensures var built := InsertAll(New("table"), Entries(Selected(c, args), rarrays));
            GetItem(c, args, index) == if built.Raised() then Err(built.raised.value) else Ok(Many(built.state))
  {
  }

  /** The partition of `__getitem__` separates the two kinds of argument. */
  lemma {:induction false} NamesIndicesPartition(args: seq<Arg>)
    ensures |Names(args)| + |Indices(args)| == |args|
  {
    if |args| > 0 {
      NamesIndicesPartition(args[..|args| - 1]);
    }
  }
}

=== FILE: digest.dfy ===
/** `digest_2str` of `tablarray/_tabstr.py`: choose the most precise candidate
    level whose columns fit the line width, then print the grid row by row,
    each row as tall as its tallest cell and closed by an underline. */
module Digest {
  import opened Common
  import opened Text
  import opened TabStr

  /** Every row of the grid reaches column `j`. */
  predicate Reaches(t: seq<seq<CellStr>>, j: nat) {
    forall i :: 0 <= i < |t| ==> j < |t[i]|
  }

  /** `rows[k].max(axis=0)[j]`: the widest candidate-`k` line in column `j`. */
  function ColWidth(t: seq<seq<CellStr>>, j: nat, k: nat): (r: nat)
    requires k < 3 && Reaches(t, j)
    ensures forall i :: 0 <= i < |t| ==> Width(t[i][j], k) <= r
    ensures |t| > 0 ==> exists i :: 0 <= i < |t| && Width(t[i][j], k) == r
  {
    if |t| == 0 then 0
    else
      assert Reaches(t[1..], j);
      Max(Width(t[0][j], k), ColWidth(t[1..], j, k))
  }

  /** The column widths at level `k` for the first `ncol` columns. */
  function Widths(t: seq<seq<CellStr>>, ncol: nat, k: nat): (w: seq<nat>)
    requires k < 3 && forall i :: 0 <= i < |t| ==> ncol <= |t[i]|
    ensures |w| == ncol
    ensures forall j :: 0 <= j < ncol ==> w[j] == ColWidth(t, j, k)
  {
    seq(ncol, j requires 0 <= j < ncol => ColWidth(t, j, k))
  }

  /** `widths.sum() + len(widths) * 3 < linewidth` at level `k`. */
  predicate FitsAt(t: seq<seq<CellStr>>, ncol: nat, k: nat, linewidth: int)
    requires k < 3 && forall i :: 0 <= i < |t| ==> ncol <= |t[i]|
  {
    Sum(Widths(t, ncol, k)) + 3 * ncol < linewidth
  }

  /** The level chosen by trying 2, 1, 0 in turn: the largest that fits. */
  function Precision(t: seq<seq<CellStr>>, ncol: nat, linewidth: int): (r: Option<nat>)
    requires forall i :: 0 <= i < |t| ==> ncol <= |t[i]|
    ensures r.Some? ==> r.value < 3 && FitsAt(t, ncol, r.value, linewidth)
  {
    if FitsAt(t, ncol, 2, linewidth) then Some(2)
    else if FitsAt(t, ncol, 1, linewidth) then Some(1)
    else if FitsAt(t, ncol, 0, linewidth) then Some(0)
    else None
  }

  /** The chosen level is the largest that fits, and there is none exactly
      when no level fits. */
  lemma {:induction false} PrecisionIsLargest(t: seq<seq<CellStr>>, ncol: nat, linewidth: int)
    requires forall i :: 0 <= i < |t| ==> ncol <= |t[i]|
    ensures var r := Precision(t, ncol, linewidth);
            r.Some? ==> forall k :: r.value < k < 3 ==> !FitsAt(t, ncol, k, linewidth)
    ensures Precision(t, ncol, linewidth).None? <==> forall k :: 0 <= k < 3 ==> !FitsAt(t, ncol, k, linewidth)
  {
    var r := Precision(t, ncol, linewidth);
    var f0, f1, f2 := FitsAt(t, ncol, 0, linewidth), FitsAt(t, ncol, 1, linewidth), FitsAt(t, ncol, 2, linewidth);
    forall k | 0 <= k < 3 ensures FitsAt(t, ncol, k, linewidth) == (if k == 0 then f0 else if k == 1 then f1 else f2) {
      if k == 0 {
      } else if k == 1 {
      } else {
        assert k == 2;
      }
    }
  }

  /** `'{:w}'.format(s)`: left-aligned, padded with spaces to `w`. */
  function PadRight(s: string, w: nat): (r: string)
    ensures |s| <= w ==> |r| == w
    ensures |s| <= |r| && r[..|s|] == s
    ensures forall i :: |s| <= i < |r| ==> r[i] == ' '
  {
    if |s| >= w then s else s + Spaces(w - |s|)
  }

  /** One printed line of a row: `' {:w} |'` per cell with line `l` of its
      level-`p` candidate. */
  function RowLine(cells: seq<CellStr>, widths: seq<nat>, p: nat, l: nat): string
    requires |cells| == |widths| && p < 3
  {
    if |cells| == 0 then ""
    else " " + PadRight(LineOf(cells[0], p, l), widths[0]) + " |" + RowLine(cells[1..], widths[1..], p, l)
  }

  function Dashes(n: nat): (r: string)
    ensures |r| == n
    ensures '\n' !in r
  {
    seq(n, _ => '-')
  }

  /** `'-' * (w + 2) + '+'` per column. */
  function Underline(widths: seq<nat>): string {
    if |widths| == 0 then "" else Dashes(widths[0] + 2) + "+" + Underline(widths[1..])
  }

  /** `cols[p, i, :].max()`: the tallest level-`p` candidate in the row. */
  function RowHeight(cells: seq<CellStr>, p: nat): (r: nat)
    requires p < 3
    ensures forall j :: 0 <= j < |cells| ==> NLines(cells[j], p) <= r
  {
    if |cells| == 0 then 0 else Max(NLines(cells[0], p), RowHeight(cells[1..], p))
  }

  /** The lines of one row: its printed lines, then the underline. */
  function RowBlock(cells: seq<CellStr>, widths: seq<nat>, p: nat): (r: seq<string>)
    requires |cells| == |widths| && p < 3
    ensures |r| == RowHeight(cells, p) + 1
  {
    seq(RowHeight(cells, p), l requires 0 <= l < RowHeight(cells, p) => RowLine(cells, widths, p, l)) + [Underline(widths)]
  }

  function AllLines(t: seq<seq<CellStr>>, widths: seq<nat>, p: nat): (r: seq<string>)
    requires p < 3 && forall i :: 0 <= i < |t| ==> |t[i]| == |widths|
    ensures |r| == TotalLines(t, p)
  {
    if |t| == 0 then [] else RowBlock(t[0], widths, p) + AllLines(t[1..], widths, p)
  }

  /** How many lines the rows print, underlines included. */
  function TotalLines(t: seq<seq<CellStr>>, p: nat): nat
    requires p < 3
  {
    if |t| == 0 then 0 else RowHeight(t[0], p) + 1 + TotalLines(t[1..], p)
  }

  /** `digest_2str(tables_2str, linewidth)`: an IndexError for an empty grid or
      a row shorter than the first, the failed assertion when no level fits,
      numpy's ValueError for a grid with no columns, and otherwise the rows
      printed at the chosen level. */
  function Digest(t: seq<seq<CellStr>>, linewidth: int): (r: Result<string>)
    ensures |t| == 0 ==> r == Err(IndexError)
    ensures r.Err? ==> r.error in {IndexError, AssertionError, ValueError}
    ensures |t| > 0 && (forall i :: 0 <= i < |t| ==> |t[0]| <= |t[i]|) ==>
              (r == Err(AssertionError) <==> Precision(t, |t[0]|, linewidth).None?)
    ensures r.Ok? ==> |t| > 0 && |t[0]| > 0 && (forall i :: 0 <= i < |t| ==> |t[0]| <= |t[i]|)
    ensures r.Ok? ==> Precision(t, |t[0]|, linewidth).Some?
  {
    if |t| == 0 then Err(IndexError)
    else
      var ncol := |t[0]|;
      if exists i :: 0 <= i < |t| && |t[i]| < ncol then Err(IndexError)
      else
        match Precision(t, ncol, linewidth)
        case None => Err(AssertionError)
        case Some(p) =>
          if ncol == 0 then Err(ValueError)
          else Ok(Terminated(AllLines(Trim(t, ncol), Widths(t, ncol, p), p)))
  }

  /** The first `ncol` cells of every row. */
  function Trim(t: seq<seq<CellStr>>, ncol: nat): (u: seq<seq<CellStr>>)
    requires forall i :: 0 <= i < |t| ==> ncol <= |t[i]|
    ensures |u| == |t|
    ensures forall i :: 0 <= i < |t| ==> u[i] == t[i][..ncol]
  {
    seq(|t|, i requires 0 <= i < |t| => t[i][..ncol])
  }

  // ---------------------------------------------------------------- lemmas

  /** Cell lines fit their column widths. */
  predicate ColumnsFit(t: seq<seq<CellStr>>, widths: seq<nat>, p: nat)
    requires p < 3
  {
    forall i, j :: 0 <= i < |t| && 0 <= j < |widths| ==> j < |t[i]| && Width(t[i][j], p) <= widths[j]
  }

  lemma {:induction false} RowLineShape(cells: seq<CellStr>, widths: seq<nat>, p: nat, l: nat)
    requires |cells| == |widths| && p < 3
    requires forall j :: 0 <= j < |cells| ==> Width(cells[j], p) <= widths[j]
    ensures |RowLine(cells, widths, p, l)| == Sum(widths) + 3 * |widths|
    ensures '\n' !in RowLine(cells, widths, p, l)
  {
    if |cells| > 0 {
      var s := LineOf(cells[0], p, l);
      var pad := PadRight(s, widths[0]);
      RowLineShape(cells[1..], widths[1..], p, l);
      assert '\n' !in pad by {
        forall i | 0 <= i < |pad| ensures pad[i] != '\n' {
          if i < |s| {
            assert pad[..|s|][i] == s[i];
          }
        }
      }
    }
  }

  lemma {:induction false} UnderlineShape(widths: seq<nat>)
    ensures |Underline(widths)| == Sum(widths) + 3 * |widths|
    ensures '\n' !in Underline(widths)
  {
    if |widths| > 0 {
      UnderlineShape(widths[1..]);
    }
  }

  /** A line is as wide as the columns plus their borders, with no newline. */
  predicate Framed(line: string, widths: seq<nat>) {
    |line| == Sum(widths) + 3 * |widths| && '\n' !in line
  }

  lemma {:induction false} RowBlockShape(cells: seq<CellStr>, widths: seq<nat>, p: nat)
    requires |cells| == |widths| && p < 3
    requires forall j :: 0 <= j < |cells| ==> Width(cells[j], p) <= widths[j]
    ensures forall l :: 0 <= l < |RowBlock(cells, widths, p)| ==> Framed(RowBlock(cells, widths, p)[l], widths)
  {
    var block := RowBlock(cells, widths, p);
    UnderlineShape(widths);
    forall l | 0 <= l < |block| ensures Framed(block[l], widths) {
      if l < RowHeight(cells, p) {
        RowLineShape(cells, widths, p, l);
      }
    }
  }

  /** Every printed line, content or underline, is exactly as wide as the
      columns plus three characters of border each. */
  lemma {:induction false} AllLinesShape(t: seq<seq<CellStr>>, widths: seq<nat>, p: nat)
    requires p < 3 && forall i :: 0 <= i < |t| ==> |t[i]| == |widths|
    requires ColumnsFit(t, widths, p)
    ensures forall n :: 0 <= n < |AllLines(t, widths, p)| ==> Framed(AllLines(t, widths, p)[n], widths)
  {
    if |t| > 0 {
      var block := RowBlock(t[0], widths, p);
      var rest := AllLines(t[1..], widths, p);
      assert ColumnsFit(t[1..], widths, p) by {
        forall i, j | 0 <= i < |t| - 1 && 0 <= j < |widths|
          ensures j < |t[1..][i]| && Width(t[1..][i][j], p) <= widths[j]
        {
          assert t[1..][i] == t[i + 1];
        }
      }
      AllLinesShape(t[1..], widths, p);
      RowBlockShape(t[0], widths, p);
      assert AllLines(t, widths, p) == block + rest;
    }
  }

  /** The chosen widths hold every cell line of the trimmed grid. */
  lemma {:induction false} ChosenWidthsFit(t: seq<seq<CellStr>>, ncol: nat, p: nat)
    requires p < 3 && forall i :: 0 <= i < |t| ==> ncol <= |t[i]|
    ensures ColumnsFit(Trim(t, ncol), Widths(t, ncol, p), p)
  {
    var u := Trim(t, ncol);
    var w := Widths(t, ncol, p);
    forall i, j | 0 <= i < |u| && 0 <= j < |w| ensures j < |u[i]| && Width(u[i][j], p) <= w[j] {
      assert u[i][j] == t[i][j];
      assert Reaches(t, j);
    }
  }

  /** A digest prints, for each row, as many lines as its tallest cell plus
      the underline, every one of them exactly `sum(widths) + 3 * ncol`
      characters wide, hence shorter than `linewidth`; the level is the most
      precise that fits. */
  lemma {:induction false} DigestShape(t: seq<seq<CellStr>>, linewidth: int, text: string)
    requires Digest(t, linewidth) == Ok(text)
    ensures |t| > 0 && Precision(t, |t[0]|, linewidth).Some?
    ensures var ncol := |t[0]|;
            var p := Precision(t, ncol, linewidth).value;
            var lines := Split(text, "\n");
            && |lines| == TotalLines(Trim(t, ncol), p) + 1
            && lines[|lines| - 1] == ""
            && forall n :: 0 <= n < |lines| - 1 ==>
                 |lines[n]| == Sum(Widths(t, ncol, p)) + 3 * ncol && |lines[n]| < linewidth
  {
    var ncol := |t[0]|;
    var p := Precision(t, ncol, linewidth).value;
    DigestText(t, linewidth, text);
    LevelShape(t, ncol, p, linewidth, text);
  }

  /** The rows printed at a level that fits: the lines of `DigestShape`. */
  lemma {:induction false} LevelShape(t: seq<seq<CellStr>>, ncol: nat, p: nat, linewidth: int, text: string)
    requires p < 3 && forall i :: 0 <= i < |t| ==> ncol <= |t[i]|
    requires FitsAt(t, ncol, p, linewidth)
    requires text == Terminated(AllLines(Trim(t, ncol), Widths(t, ncol, p), p))
    ensures var lines := Split(text, "\n");
            && |lines| == TotalLines(Trim(t, ncol), p) + 1
            && lines[|lines| - 1] == ""
            && forall n :: 0 <= n < |lines| - 1 ==>
                 |lines[n]| == Sum(Widths(t, ncol, p)) + 3 * ncol && |lines[n]| < linewidth
  {
    var u := Trim(t, ncol);
    var w := Widths(t, ncol, p);
    var all := AllLines(u, w, p);
    assert forall i :: 0 <= i < |u| ==> |u[i]| == |w|;
    ChosenWidthsFit(t, ncol, p);
    AllLinesShape(u, w, p);
    FramedTerminated(all, w, linewidth, text, Sum(w) + 3 * ncol);
  }

  /** Framed lines narrower than `linewidth`, each followed by a newline,
      split back into those lines and a final empty one. */
  lemma {:induction false} FramedTerminated(all: seq<string>, w: seq<nat>, linewidth: int, text: string, width: int)
    requires forall n :: 0 <= n < |all| ==> Framed(all[n], w)
    requires text == Terminated(all) && width == Sum(w) + 3 * |w| && width < linewidth
    ensures var lines := Split(text, "\n");
            && |lines| == |all| + 1
            && lines[|lines| - 1] == ""
            && forall n :: 0 <= n < |lines| - 1 ==> |lines[n]| == width && |lines[n]| < linewidth
  {
    forall n | 0 <= n < |all| ensures '\n' !in all[n] {
      assert Framed(all[n], w);
    }
    TerminatedSplit(all);
    var lines := Split(text, "\n");
    forall n | 0 <= n < |lines| - 1 ensures |lines[n]| == width && |lines[n]| < linewidth {
      assert lines[n] == all[n] && Framed(all[n], w);
    }
  }

  /** A successful digest is the rows printed at the chosen level, with every
      row reaching the first row's length. */
  lemma {:induction false} DigestText(t: seq<seq<CellStr>>, linewidth: int, text: string)
    requires Digest(t, linewidth) == Ok(text)
    ensures |t| > 0 && forall i :: 0 <= i < |t| ==> |t[0]| <= |t[i]|
    ensures var ncol := |t[0]|;
            var p := Precision(t, ncol, linewidth);
            && p.Some?
            && text == Terminated(AllLines(Trim(t, ncol), Widths(t, ncol, p.value), p.value))
  {
  }
}

=== FILE: io.dfy ===
/** Result-wrapping rules of `_io.py`: when the raw result of a primitive is
    returned bare and when it is wrapped back into a TablArray. */
module Io {
  import opened Common
  import opened Shapes
  import opened Values

  /** `quackslike_Tablarray`: has both `ts` and `view`. */
  predicate QuacksLikeTablArray(v: Value)
    ensures v.Tab? ==> QuacksLikeTablArray(v)
    ensures v.NdArray? || v.Scalar? ==> !QuacksLikeTablArray(v)
    ensures v.Foreign? ==> (QuacksLikeTablArray(v) <==> !v.ts.NoTs? && v.hasView)
  {
    HasTs(v) && HasView(v)
  }

  /** `rclass(rval, cdim, view)`: wraps a raw result of shape `rval`; a cdim
      outside `[0, ndim]` is a ShapeError. */
  function Wrap(rval: Shape, cdim: int, view: string): (r: Result<Value>)
    ensures r.Ok? <==> 0 <= cdim <= |rval|
    ensures r.Ok? ==> r.value.Tab? && r.value.ta.desc.Base() == rval
                      && r.value.ta.desc.CDim() == cdim && r.value.ta.view == view
  {
    match MakeDescriptor(rval, cdim)
    case Ok(d) => Ok(Tab(TablArray(d, view)))
    case Err(e) => Err(e)
  }

  /** `rval_once_a_ta`: the raw result is returned unchanged exactly when its rank
      equals `cdim`, i.e. no tabular axis survives; otherwise it is wrapped with
      exactly the given `cdim` and view. */
  function RvalOnceATa(rval: Shape, cdim: int, view: string): (r: Result<Value>)
    ensures r == Ok(NdArray(rval)) <==> |rval| == cdim
    ensures r.Err? <==> cdim < 0 || cdim > |rval|
    ensures r.Ok? && |rval| != cdim ==>
              r.value.Tab? && r.value.ta.desc.Base() == rval
              && r.value.ta.desc.CDim() == cdim && r.value.ta.view == view
              && r.value.ta.desc.TDim() > 0
  {
    if |rval| == cdim then Ok(NdArray(rval)) else Wrap(rval, cdim, view)
  }

  /** `rval_always_ta`: wraps regardless of rank, so a result is never bare. */
  function RvalAlwaysTa(rval: Shape, cdim: int, view: string): (r: Result<Value>)
    ensures r.Ok? <==> 0 <= cdim <= |rval|
    ensures r.Ok? ==> r.value.Tab? && r.value.ta.desc.Base() == rval && r.value.ta.desc.CDim() == cdim
  {
    Wrap(rval, cdim, view)
  }

  /** The two rules differ only on results without tabular axes. */
  lemma {:induction false} OnceAndAlwaysAgreeWithTabularAxes(rval: Shape, cdim: int, view: string)
    requires |rval| != cdim
    ensures RvalOnceATa(rval, cdim, view) == RvalAlwaysTa(rval, cdim, view)
  {
  }
}

=== FILE: legacy.dfy ===
/** The older broadcast-checked tables: `Assembly` of `assy.py` and `dbTA` of
    `db.py`.  Both keep the master descriptor like the newer containers but
    store each value as given, accept any key, and differ only in how an
    incompatible insert is refused (ValueError versus a failed assertion). */
module Legacy {
  import opened Common
  import opened Shapes
  import opened Values
  import opened OrderedMaps
  import Containers

  datatype Flavor = AssemblyTable | DbTable

  type Key = Containers.Arg

  datatype KeyedTable = KeyedTable(master: Option<Descriptor>, table: OMap<Key, Value>)

  function Empty(): (r: KeyedTable)
    ensures Valid(r) && r.master.None? && r.table.keys == []
  {
    KeyedTable(None, OrderedMaps.Empty())
  }

  /** The `ts` an inserted value contributes: its own `ts` attribute when it
      has both `ts` and `view` (None for an empty TablaSet), all axes cellular
      for an ndarray, and a ValueError for anything else (a scalar included). */
  function Descr(val: Value): (r: Result<Option<Descriptor>>)
    ensures HasTs(val) && HasView(val) ==> r == Ok(TsOf(val))
    ensures val.NdArray? ==> r == Ok(Some(Descriptor([], val.shape)))
    ensures r.Ok? <==> (HasTs(val) && HasView(val)) || val.NdArray?
    ensures r.Ok? && r.value.None? <==> val.Foreign? && val.ts.TsNone? && val.hasView
    ensures r.Err? ==> r.error == ValueError
  {
    if HasTs(val) && HasView(val) then Ok(TsOf(val))
    else if val.NdArray? then Ok(Some(Descriptor([], val.shape)))
    else Err(ValueError)
  }

  /** Every stored value has a `ts`; while there is no master, every stored
      `ts` is None, and once there is one, every stored descriptor broadcasts
      into it. */
  ghost predicate Valid(t: KeyedTable) {
    && t.table.Valid()
    && (forall k :: k in t.table.vals ==> Descr(t.table.vals[k]).Ok?)
    && (t.master.None? ==> forall k :: k in t.table.vals ==> Descr(t.table.vals[k]).value.None?)
    && (t.master.Some? ==> forall k :: k in t.table.vals && Descr(t.table.vals[k]).value.Some? ==>
                             Fits(Descr(t.table.vals[k]).value.value, t.master.value))
  }

  /** How each flavour refuses an incompatible insert. */
  function Refusal(f: Flavor): Error {
    match f
    case AssemblyTable => ValueError
    case DbTable => AssertionError
  }

  /** `table[key] = val`: with no master the value's `ts` becomes the master
      (None again for an empty TablaSet), otherwise the master is combined with
      it; an incompatible value is refused before anything changes, and the
      stored value is the original object.  Combining the master with a None
      `ts` reads attributes of None, an AttributeError. */
  function SetItem(f: Flavor, t: KeyedTable, key: Key, val: Value): (r: Step<KeyedTable>)
    ensures Descr(val).Err? ==> r == Step(t, Some(ValueError))
    ensures Descr(val).Ok? && Descr(val).value.None? && t.master.Some? ==> r == Step(t, Some(AttributeError))
    ensures Descr(val).Ok? && Descr(val).value.Some? && t.master.Some?
            && Combine(t.master.value, Descr(val).value.value).None? ==>
              r == Step(t, Some(Refusal(f)))
    ensures !r.Raised() <==>
              && Descr(val).Ok?
              && (t.master.Some? ==> Descr(val).value.Some? && Combine(t.master.value, Descr(val).value.value).Some?)
    ensures !r.Raised() && t.master.None? ==> r.state.master == Descr(val).value
    ensures !r.Raised() && t.master.Some? ==> r.state.master == Combine(t.master.value, Descr(val).value.value)
    ensures !r.Raised() ==> r.state.table == Put(t.table, key, val)
    ensures r.Raised() ==> r.state == t
  {
    match Descr(val)
    case Err(e) => Step(t, Some(e))
    case Ok(d) =>
      match t.master
      case None => Step(KeyedTable(d, Put(t.table, key, val)), None)
      case Some(m) =>
        match d
        case None => Step(t, Some(AttributeError))
        case Some(dd) =>
          match Combine(m, dd)
          case None => Step(t, Some(Refusal(f)))
          case Some(nm) => Step(KeyedTable(Some(nm), Put(t.table, key, val)), None)
  }

  /** Every insert leaves a valid table: the master only grows, and every
      stored descriptor keeps broadcasting into it. */
  lemma {:induction false} SetItemPreservesValid(f: Flavor, t: KeyedTable, key: Key, val: Value)
    requires Valid(t)
    ensures Valid(SetItem(f, t, key, val).state)
    ensures t.master.Some? ==> Fits(t.master.value, SetItem(f, t, key, val).state.master.value)
  {
    match Descr(val)
    case Err(_) =>
      if t.master.Some? {
        FitsSelf(t.master.value);
      }
    case Ok(d) =>
      match t.master
      case None =>
        if d.Some? {
          FitsSelf(d.value);
        }
      case Some(m) =>
        if d.None? {
          FitsSelf(m);
        } else {
          match Combine(m, d.value)
          case None => FitsSelf(m);
          case Some(nm) =>
            CombineFits(m, d.value);
            forall k | k in t.table.vals && Descr(t.table.vals[k]).value.Some?
              ensures Fits(Descr(t.table.vals[k]).value.value, nm)
            {
              FitsTransitive(Descr(t.table.vals[k]).value.value, m, nm);
            }
        }
  }

  /** `table[key]`: straight from the ordered map (KeyError when absent). */
  function GetItem(t: KeyedTable, key: Key): (r: Result<Value>)
    ensures r.Ok? <==> key in t.table.vals
    ensures r.Ok? ==> r.value == t.table.vals[key]
    ensures r.Err? ==> r.error == KeyError
  {
    Get(t.table, key)
  }

  /** `key in table`. */
  function Contains(t: KeyedTable, key: Key): (r: bool)
    requires Valid(t)
    ensures r <==> key in t.table.keys
  {
    key in t.table.vals
  }

  /** After a successful insert, lookup gives back the very object inserted
      (its view untouched), and every other key keeps its value. */
  lemma {:induction false} GetAfterSetItem(f: Flavor, t: KeyedTable, key: Key, val: Value, other: Key)
    requires Valid(t)
    requires !SetItem(f, t, key, val).Raised()
    ensures Valid(SetItem(f, t, key, val).state)
    ensures GetItem(SetItem(f, t, key, val).state, key) == Ok(val)
    ensures other != key ==> GetItem(SetItem(f, t, key, val).state, other) == GetItem(t, other)
    ensures Contains(SetItem(f, t, key, val).state, other) <==> Contains(t, other) || other == key
  {
    SetItemPreservesValid(f, t, key, val);
  }

  /** The two flavours behave identically except for the kind of refusal. */
  lemma {:induction false} FlavorsAgree(t: KeyedTable, key: Key, val: Value)
    ensures SetItem(AssemblyTable, t, key, val).state == SetItem(DbTable, t, key, val).state
    ensures SetItem(AssemblyTable, t, key, val).Raised() == SetItem(DbTable, t, key, val).Raised()
  {
  }

  /** An empty TablaSet is stored with a None `ts` while the master stays
      None, so a key can be present before any master exists; once there is a
      master, the same object is an AttributeError. */
  lemma {:induction false} EmptySetStored(f: Flavor, key: Key, m: Descriptor)
    ensures var r := SetItem(f, Empty(), key, Foreign(TsNone, true, true));
            && !r.Raised() && r.state.master.None? && Valid(r.state) && Contains(r.state, key)
    ensures SetItem(f, KeyedTable(Some(m), OrderedMaps.Empty()), key, Foreign(TsNone, true, true)).raised == Some(AttributeError)
  {
    SetItemPreservesValid(f, Empty(), key, Foreign(TsNone, true, true));
  }

  /** A scalar is refused here although the newer containers admit it. */
  lemma {:induction false} ScalarRefused(f: Flavor, t: KeyedTable, key: Key)
    ensures SetItem(f, t, key, Scalar) == Step(t, Some(ValueError))
    ensures !Containers.SetItem(Containers.New("table"), Containers.Name("x"), Scalar).Raised()
  {
  }
}

=== FILE: omap.dfy ===
/** An insertion-ordered dictionary (`collections.OrderedDict`, or a plain `dict`
    in Python 3.7+): a list of distinct keys in first-insertion order plus a map. */
module OrderedMaps {
  import opened Common

  datatype OMap<K(==,!new), V> = OMap(keys: seq<K>, vals: map<K, V>) {
    ghost predicate Valid() {
      && (forall i, j :: 0 <= i < j < |keys| ==> keys[i] != keys[j])
      && (forall k :: k in vals <==> k in keys)
    }
  }

  function Empty<K(==,!new), V>(): (r: OMap<K, V>)
    ensures r.Valid() && r.keys == [] && r.vals == map[]
  {
    OMap([], map[])
  }

  /** `d[k] = v`: an existing key keeps its position, a new key goes last. */
  function Put<K(==,!new), V>(m: OMap<K, V>, k: K, v: V): (r: OMap<K, V>)
    ensures m.Valid() ==> r.Valid()
    ensures r.vals == m.vals[k := v]
    ensures k in m.vals ==> r.keys == m.keys
    ensures k !in m.vals ==> r.keys == m.keys + [k]
  {
    if k in m.vals then OMap(m.keys, m.vals[k := v]) else OMap(m.keys + [k], m.vals[k := v])
  }

  /** `d[k]`, a KeyError when `k` is absent. */
  function Get<K(==,!new), V>(m: OMap<K, V>, k: K): (r: Result<V>)
    ensures r.Ok? <==> k in m.vals
    ensures r.Ok? ==> r.value == m.vals[k]
    ensures r.Err? ==> r.error == KeyError
  {
    if k in m.vals then Ok(m.vals[k]) else Err(KeyError)
  }

  /** The same keys in the same order, every value transformed by `f`. */
  function MapValues<K(==,!new), V, W>(m: OMap<K, V>, f: V -> W): (r: OMap<K, W>)
    requires m.Valid()
    ensures r.Valid() && r.keys == m.keys
    ensures forall k :: k in r.vals ==> k in m.vals && r.vals[k] == f(m.vals[k])
  {
    OMap(m.keys, map k | k in m.vals :: f(m.vals[k]))
  }

  /** The elements of `xs` satisfying `p`, in order. */
  function Keep<K>(xs: seq<K>, p: K -> bool): (r: seq<K>)
    ensures |r| <= |xs|
    ensures forall i :: 0 <= i < |r| ==> p(r[i]) && r[i] in xs
    decreases |xs|
  {
    if |xs| == 0 then []
    else
      var rest := Keep(xs[..|xs| - 1], p);
      if p(xs[|xs| - 1]) then rest + [xs[|xs| - 1]] else rest
  }

  /** An element survives `Keep` exactly when it occurs and satisfies `p`. */
  lemma {:induction false} KeepMembers<K>(xs: seq<K>, p: K -> bool, x: K)
    ensures x in Keep(xs, p) <==> x in xs && p(x)
    decreases |xs|
  {
    if |xs| > 0 {
      var init := xs[..|xs| - 1];
      KeepMembers(init, p, x);
      assert xs == init + [xs[|xs| - 1]];
    }
  }

  /** Keeping by `p` and then by `q` keeps by both. */
  lemma {:induction false} KeepBoth<K>(xs: seq<K>, p: K -> bool, q: K -> bool, both: K -> bool)
    requires forall x :: both(x) == (p(x) && q(x))
    ensures Keep(Keep(xs, p), q) == Keep(xs, both)
    decreases |xs|
  {
    if |xs| > 0 {
      var init := xs[..|xs| - 1];
      var last := xs[|xs| - 1];
      KeepBoth(init, p, q, both);
      if p(last) {
        var kp := Keep(init, p) + [last];
        assert kp[..|kp| - 1] == Keep(init, p);
      }
    }
  }

  /** The entries whose key satisfies `p`, in their original order. */
  function Filter<K(==,!new), V>(m: OMap<K, V>, p: K -> bool): (r: OMap<K, V>)
    requires m.Valid()
    ensures r.Valid()
    ensures forall k :: k in r.vals <==> k in m.vals && p(k)
    ensures forall k :: k in r.vals ==> r.vals[k] == m.vals[k]
    ensures r.keys == Keep(m.keys, p)
    decreases |m.keys|
  {
    if |m.keys| == 0 then Empty()
    else
      var last := m.keys[|m.keys| - 1];
      var init := OMap(m.keys[..|m.keys| - 1], m.vals - {last});
      assert init.Valid() by {
        forall k ensures k in init.vals <==> k in init.keys {
          if k in m.keys && k != last {
            var i :| 0 <= i < |m.keys| && m.keys[i] == k;
            assert i < |m.keys| - 1;
          }
        }
      }
      var r := Filter(init, p);
      if p(last) then
        assert last !in r.vals;
        Put(r, last, m.vals[last])
      else r
  }
}

=== FILE: reshape.dfy ===
/** Reshaping, flattening and tiling per view (`tablarray/re.py`, and the older
    `re.py` whose `reshape` and `ravel` are the same code).  The view chooses which
    axis group the new shape or the repetitions apply to, and what the cdim of
    the result is; the array contents are not modelled. */
module Reshaping {
  import opened Common
  import opened Shapes
  import opened Values
  import Io

  function Min(a: int, b: int): int { if a < b then a else b }

  /** The `newshape` argument of `reshape`: a tuple of ints, or one int. */
  datatype NewShape = TupleShape(dims: seq<int>) | IntShape(n: int)

  /** The axes `np.reshape` reads from `newshape`: an int is a single axis. */
  function AxesOf(ns: NewShape): seq<int> {
    match ns
    case TupleShape(dims) => dims
    case IntShape(n) => [n]
  }

  /** How many entries of a requested shape are negative: numpy's unknown
      dimension. */
  function Unknowns(dims: seq<int>): nat {
    if |dims| == 0 then 0 else (if dims[0] < 0 then 1 else 0) + Unknowns(dims[1..])
  }

  /** The product of the entries that are given (the unknown counts as 1). */
  function Known(dims: seq<int>): nat {
    if |dims| == 0 then 1 else (if dims[0] < 0 then 1 else dims[0]) * Known(dims[1..])
  }

  /** The requested shape with `x` in place of the unknown entry. */
  function Fill(dims: seq<int>, x: nat): (r: Shape)
    ensures |r| == |dims|
    ensures forall i :: 0 <= i < |dims| ==> r[i] == if dims[i] < 0 then x else dims[i]
  {
    seq(|dims|, i requires 0 <= i < |dims| => if dims[i] < 0 then x else dims[i] as nat)
  }

  /** A shape `s` is one the request `dims` describes: as many axes, and the
      size of every given entry. */
  ghost predicate Agrees(dims: seq<int>, s: Shape) {
    |s| == |dims| && forall i :: 0 <= i < |dims| && dims[i] >= 0 ==> s[i] == dims[i]
  }

  /** numpy can resolve `dims` for `total` elements: with no unknown entry the
      sizes multiply to `total`; with one, the given sizes multiply to a
      positive divisor of `total`. */
  ghost predicate Resolvable(total: nat, dims: seq<int>) {
    || (Unknowns(dims) == 0 && Known(dims) == total)
    || (Unknowns(dims) == 1 && Known(dims) > 0 && total % Known(dims) == 0)
  }

  /** `np.reshape` on shapes: the unknown entry (at most one) is the element
      count divided by the given sizes; a shape that cannot hold exactly the
      elements, or more than one unknown, is numpy's ValueError. */
  function NpReshape(shape: Shape, dims: seq<int>): (r: Result<Shape>)
    ensures r.Ok? <==> Resolvable(Prod(shape), dims)
    ensures r.Ok? ==> Agrees(dims, r.value) && Prod(r.value) == Prod(shape)
    ensures r.Err? ==> r.error == ValueError
  {
    var total := Prod(shape);
    if Unknowns(dims) > 1 then Err(ValueError)
    else if Unknowns(dims) == 0 then
      if Known(dims) == total then
        ProdFill(dims, 1);
        Ok(Fill(dims, 1))
      else Err(ValueError)
    else if Known(dims) == 0 || total % Known(dims) != 0 then Err(ValueError)
    else
      ProdFill(dims, total / Known(dims));
      Ok(Fill(dims, total / Known(dims)))
  }

  /** Filling the unknown entry with `x` multiplies the given sizes by `x`. */
  lemma {:induction false} ProdFill(dims: seq<int>, x: nat)
    requires Unknowns(dims) <= 1
    ensures Prod(Fill(dims, x)) == Known(dims) * (if Unknowns(dims) == 1 then x else 1)
    decreases |dims|
  {
    if |dims| > 0 {
      var f := Fill(dims, x);
      assert f[1..] == Fill(dims[1..], x);
      ProdFill(dims[1..], x);
      var u := if Unknowns(dims[1..]) == 1 then x else 1;
      assert Prod(f[1..]) == Known(dims[1..]) * u;
      if dims[0] < 0 {
        assert Unknowns(dims[1..]) == 0;
        assert Prod(f) == x * Known(dims[1..]);
      } else {
        assert Prod(f) == dims[0] * (Known(dims[1..]) * u);
        assert Known(dims) * u == dims[0] * Known(dims[1..]) * u;
      }
    }
  }

  /** A shape with every entry given has no unknown, and its given sizes are
      its sizes. */
  lemma {:induction false} KnownShape(s: Shape)
    ensures Unknowns(s) == 0 && Known(s) == Prod(s)
    decreases |s|
  {
    if |s| > 0 {
      KnownShape(s[1..]);
    }
  }

  /** The only shape a fully given request describes is itself. */
  lemma {:induction false} AgreesKnown(s: Shape, s': Shape)
    requires Agrees(s, s')
    ensures s' == s
  {
  }

  /** Reshaping to a fully given shape succeeds exactly when it keeps the
      element count, and gives that shape. */
  lemma {:induction false} NpReshapeKnown(shape: Shape, s: Shape)
    ensures NpReshape(shape, s) == if Prod(s) == Prod(shape) then Ok(s) else Err(ValueError)
  {
    KnownShape(s);
    if Prod(s) == Prod(shape) {
      AgreesKnown(s, NpReshape(shape, s).value);
    }
  }

  /** The position of the one unknown entry. */
  function UnknownAt(dims: seq<int>): (i: nat)
    requires Unknowns(dims) == 1
    ensures i < |dims| && dims[i] < 0
    ensures forall j :: 0 <= j < |dims| && j != i ==> dims[j] >= 0
    decreases |dims|
  {
    if dims[0] < 0 then
      NoUnknowns(dims[1..]);
      0
    else
      var i := UnknownAt(dims[1..]);
      assert forall j :: 1 <= j < |dims| ==> dims[j] == dims[1..][j - 1];
      i + 1
  }

  lemma {:induction false} NoUnknowns(dims: seq<int>)
    requires Unknowns(dims) == 0
    ensures forall j :: 0 <= j < |dims| ==> dims[j] >= 0
    decreases |dims|
  {
    if |dims| > 0 {
      NoUnknowns(dims[1..]);
      assert forall j :: 1 <= j < |dims| ==> dims[j] == dims[1..][j - 1];
    }
  }

  /** With a positive product of given sizes, the unknown entry is determined:
      every shape of the right element count that the request describes is
      the one numpy resolves. */
  lemma {:induction false} NpReshapeUnique(shape: Shape, dims: seq<int>, s: Shape)
    requires Agrees(dims, s) && Prod(s) == Prod(shape)
    requires Unknowns(dims) == 0 || (Unknowns(dims) == 1 && Known(dims) > 0)
    ensures NpReshape(shape, dims) == Ok(s)
  {
    if Unknowns(dims) == 0 {
      NoUnknowns(dims);
      assert s == Fill(dims, 1);
      ProdFill(dims, 1);
    } else {
      var i := UnknownAt(dims);
      var x := s[i];
      assert s == Fill(dims, x);
      ProdFill(dims, x);
      var k := Known(dims);
      MulDiv(k, x);
      assert Fill(dims, Prod(shape) / k) == s;
    }
  }

  lemma {:induction false} MulDiv(k: nat, x: nat)
    requires k > 0
    ensures (k * x) % k == 0 && (k * x) / k == x
  {
    var q, m := (k * x) / k, (k * x) % k;
    assert k * x == k * q + m && 0 <= m < k;
    assert k * (x - q) == m by {
      assert k * (x - q) == k * x - k * q;
    }
    if x - q >= 1 {
      MulAtLeast(k, x - q);
    } else if x - q <= -1 {
      MulAtLeast(k, q - x);
    }
  }

  lemma {:induction false} MulAtLeast(k: nat, y: int)
    requires y >= 1
    ensures k * y >= k
  {
    assert k * y == k * (y - 1) + k;
  }

  /** A request spelled as given entries followed by a known shape describes
      exactly the shapes that end in that shape. */
  lemma {:induction false} AgreesThenKnown(dims: seq<int>, tail: Shape, s: Shape)
    requires Agrees(dims + tail, s)
    ensures Agrees(dims, s[..|dims|]) && s[|dims|..] == tail
  {
    assert forall i :: 0 <= i < |tail| ==> (dims + tail)[|dims| + i] == tail[i];
  }

  /** A request spelled as a known shape followed by given entries. */
  lemma {:induction false} KnownThenAgrees(head: Shape, dims: seq<int>, s: Shape)
    requires Agrees(head + dims, s)
    ensures s[..|head|] == head && Agrees(dims, s[|head|..])
  {
    assert forall i :: 0 <= i < |head| ==> (head + dims)[i] == head[i];
    assert forall i :: 0 <= i < |dims| ==> (head + dims)[|head| + i] == dims[i];
  }

  /** The size of the axis group a view leaves alone (all of it for `array`). */
  function Rest(d: Descriptor, v: View): nat {
    match v
    case Table => d.CSize()
    case Bcast => d.CSize()
    case Cell => d.TSize()
    case Array => 1
  }

  /** The elements of a TablArray are the elements its view exposes times the
      elements of the axis group the view leaves alone. */
  lemma {:induction false} ViewSplit(d: Descriptor, v: View)
    ensures ViewDims(d, v).size * Rest(d, v) == Prod(d.Base())
  {
    ProdAppend(d.tshape, d.cshape);
  }

  /** The whole requested base shape of a reshape in view `v`: the new axes
      followed by the cshape, the tshape followed by the new axes, or the new
      axes alone. */
  function FullDims(d: Descriptor, v: View, dims: seq<int>): seq<int> {
    match v
    case Table => dims + d.cshape
    case Bcast => dims + d.cshape
    case Cell => d.tshape + dims
    case Array => dims
  }

  /** `reshape(a, newshape)`.  A plain array is reshaped by numpy, an int
      `newshape` meaning one axis.  A TablArray in view table/bcast gets base
      shape newshape ++ cshape with the same cdim; in view cell tshape ++
      newshape with cdim |newshape|; in view array newshape with cdim
      min(cdim, |newshape|).  An unrecognised view is a ValueError; an int
      `newshape` cannot be unpacked (TypeError), except in view array where
      numpy reshapes first and `len` then fails. */
  function Reshape(a: Operand, ns: NewShape): (r: Result<Value>)
    ensures a.ArrayOp? ==> (r.Ok? <==> Resolvable(Prod(a.shape), AxesOf(ns)))
    ensures a.ArrayOp? && r.Ok? ==>
              r.value.NdArray? && Agrees(AxesOf(ns), r.value.shape) && Prod(r.value.shape) == Prod(a.shape)
    ensures a.TaOp? && ParseView(a.t.view).None? ==> r == Err(ValueError)
    ensures a.TaOp? && ParseView(a.t.view).Some? && ns.IntShape? ==>
              r.Err? && (r.error == TypeError <==> (ParseView(a.t.view).value != Array || Resolvable(Prod(a.t.desc.Base()), [ns.n])))
              && r.error in {TypeError, ValueError}
    ensures a.TaOp? && ParseView(a.t.view).Some? && ns.TupleShape? ==>
              (r.Ok? <==> Resolvable(Prod(a.t.desc.Base()), FullDims(a.t.desc, ParseView(a.t.view).value, ns.dims)))
    ensures a.TaOp? && r.Ok? ==>
              r.value.Tab? && r.value.ta.view == a.t.view
              && Prod(r.value.ta.desc.Base()) == Prod(a.t.desc.Base())
              && Agrees(ns.dims, ViewDims(r.value.ta.desc, ParseView(a.t.view).value).shape)
    ensures a.TaOp? && r.Ok? && ParseView(a.t.view).value in {Table, Bcast} ==>
              r.value.ta.desc.cshape == a.t.desc.cshape
    ensures a.TaOp? && r.Ok? && ParseView(a.t.view).value == Cell ==>
              r.value.ta.desc.tshape == a.t.desc.tshape && r.value.ta.desc.CDim() == |ns.dims|
    ensures a.TaOp? && r.Ok? && ParseView(a.t.view).value == Array ==>
              r.value.ta.desc.CDim() == Min(a.t.desc.CDim(), |ns.dims|)
  {
    match a
    case ArrayOp(s) =>
      (match NpReshape(s, AxesOf(ns)) case Ok(rs) => Ok(NdArray(rs)) case Err(e) => Err(e))
    case TaOp(t) =>
      match ParseView(t.view)
      case None => Err(ValueError)
      case Some(v) =>
        match ns
        case IntShape(n) =>
          if v == Array then
            (match NpReshape(t.desc.Base(), [n]) case Err(e) => Err(e) case Ok(_) => Err(TypeError))
          else Err(TypeError)
        case TupleShape(dims) =>
          if v == Table || v == Bcast then ReshapeTabular(t, dims)
          else if v == Cell then ReshapeCellular(t, dims)
          else ReshapeWhole(t, dims)
  }

  /** View table or bcast: the new axes replace the tabular axes, the
      cellular axes and the cdim stay. */
  function ReshapeTabular(t: TablArray, dims: seq<int>): (r: Result<Value>)
    ensures r.Ok? <==> Resolvable(Prod(t.desc.Base()), dims + t.desc.cshape)
    ensures r.Ok? ==> r.value.Tab? && r.value.ta.view == t.view
                      && r.value.ta.desc.cshape == t.desc.cshape
                      && Agrees(dims, r.value.ta.desc.tshape)
                      && Prod(r.value.ta.desc.Base()) == Prod(t.desc.Base())
  {
    var d := t.desc;
    var r := ReshapeInto(d.Base(), dims + d.cshape, d.CDim(), t.view);
    if r.Ok? then
      var n := r.value.ta.desc;
      AgreesThenKnown(dims, d.cshape, n.Base());
      assert n.Base()[..|dims|] == n.tshape && n.Base()[|dims|..] == n.cshape;
      r
    else r
  }

  /** View cell: the new axes replace the cellular axes and set the cdim. */
  function ReshapeCellular(t: TablArray, dims: seq<int>): (r: Result<Value>)
    ensures r.Ok? <==> Resolvable(Prod(t.desc.Base()), t.desc.tshape + dims)
    ensures r.Ok? ==> r.value.Tab? && r.value.ta.view == t.view
                      && r.value.ta.desc.tshape == t.desc.tshape
                      && r.value.ta.desc.CDim() == |dims|
                      && Agrees(dims, r.value.ta.desc.cshape)
                      && Prod(r.value.ta.desc.Base()) == Prod(t.desc.Base())
  {
    var d := t.desc;
    var r := ReshapeInto(d.Base(), d.tshape + dims, |dims|, t.view);
    if r.Ok? then
      var n := r.value.ta.desc;
      KnownThenAgrees(d.tshape, dims, n.Base());
      assert n.Base()[..d.TDim()] == n.tshape && n.Base()[d.TDim()..] == n.cshape;
      r
    else r
  }

  /** View array: the new axes are the whole base shape, and the cdim is kept
      unless the new shape has fewer axes. */
  function ReshapeWhole(t: TablArray, dims: seq<int>): (r: Result<Value>)
    ensures r.Ok? <==> Resolvable(Prod(t.desc.Base()), dims)
    ensures r.Ok? ==> r.value.Tab? && r.value.ta.view == t.view
                      && Agrees(dims, r.value.ta.desc.Base())
                      && r.value.ta.desc.CDim() == Min(t.desc.CDim(), |dims|)
                      && Prod(r.value.ta.desc.Base()) == Prod(t.desc.Base())
  {
    var d := t.desc;
    ReshapeInto(d.Base(), dims, Min(d.CDim(), |dims|), t.view)
  }

  /** `rclass(np.reshape(base, shape), cdim, view)`. */
  function ReshapeInto(base: Shape, dims: seq<int>, cdim: nat, view: string): (r: Result<Value>)
    requires cdim <= |dims|
    ensures r.Ok? <==> Resolvable(Prod(base), dims)
    ensures r.Ok? ==> r.value.Tab? && Agrees(dims, r.value.ta.desc.Base())
                      && Prod(r.value.ta.desc.Base()) == Prod(base)
                      && r.value.ta.desc.CDim() == cdim && r.value.ta.view == view
  {
    match NpReshape(base, dims)
    case Err(e) => Err(e)
    case Ok(rs) => Io.Wrap(rs, cdim, view)
  }

  /** Reshaping a TablArray to the shape its view already shows gives it back. */
  lemma {:induction false} ReshapeToOwnShape(t: TablArray)
    requires ParseView(t.view).Some?
    ensures Reshape(TaOp(t), TupleShape(ViewDims(t.desc, ParseView(t.view).value).shape)) == Ok(Tab(t))
  {
    var v := ParseView(t.view).value;
    var d := t.desc;
    assert FullDims(d, v, ViewDims(d, v).shape) == d.Base();
    NpReshapeKnown(d.Base(), d.Base());
    MakeDescriptorRoundTrip(d);
    assert Tab(t) == Tab(TablArray(d, t.view));
  }

  /** Reshaping and then reshaping back to the original view shape restores the
      TablArray, except in view array when the new shape has fewer axes than
      the cellular group: there the cdim is lowered to the new rank for good. */
  lemma {:induction false} ReshapeRoundTrip(t: TablArray, dims: seq<int>)
    requires ParseView(t.view).Some?
    requires Reshape(TaOp(t), TupleShape(dims)).Ok?
    ensures var u := Reshape(TaOp(t), TupleShape(dims)).value.ta;
            var back := Reshape(TaOp(u), TupleShape(ViewDims(t.desc, ParseView(t.view).value).shape));
            back.Ok?
            && (ParseView(t.view).value != Array || |dims| >= t.desc.CDim() ==> back == Ok(Tab(t)))
            && (ParseView(t.view).value == Array && |dims| < t.desc.CDim() ==>
                  back.value.ta.desc.CDim() == |dims| < t.desc.CDim())
  {
    var v := ParseView(t.view).value;
    var u := Reshape(TaOp(t), TupleShape(dims)).value.ta;
    var d := t.desc;
    assert FullDims(u.desc, v, ViewDims(d, v).shape) == d.Base();
    NpReshapeKnown(u.desc.Base(), d.Base());
    MakeDescriptorRoundTrip(d);
    assert Tab(t) == Tab(TablArray(d, t.view));
  }

  /** `ravel(a)`: reshape to the single axis holding every element the view
      shows.  That count is `np.product` of the view's shape, which for a view
      of no axes is the float `1.0`, and numpy refuses a float axis with a
      TypeError.  An unrecognised view fails as the reshape would, with
      ValueError. */
  function Ravel(a: Operand): (r: Result<Value>)
    ensures a.ArrayOp? ==> r == Ok(NdArray([Prod(a.shape)]))
    ensures a.TaOp? ==> (r.Ok? <==> ParseView(a.t.view).Some? && ViewDims(a.t.desc, ParseView(a.t.view).value).shape != [])
    ensures a.TaOp? && ParseView(a.t.view).None? ==> r == Err(ValueError)
    ensures a.TaOp? && ParseView(a.t.view).Some? && ViewDims(a.t.desc, ParseView(a.t.view).value).shape == [] ==>
              r == Err(TypeError)
    ensures a.TaOp? && r.Ok? ==>
              var v := ParseView(a.t.view).value;
              r.value.Tab? && r.value.ta.view == a.t.view
              && ViewDims(r.value.ta.desc, v).shape == [ViewDims(a.t.desc, v).size]
              && Prod(r.value.ta.desc.Base()) == Prod(a.t.desc.Base())
  {
    match a
    case ArrayOp(s) => Ok(NdArray([Prod(s)]))
    case TaOp(t) =>
      match ParseView(t.view)
      case None => Err(ValueError)
      case Some(v) =>
        if ViewDims(t.desc, v).shape == [] then Err(TypeError)
        else
          var n := ViewDims(t.desc, v).size;
          RavelResolves(t.desc, v);
          var r := Reshape(a, TupleShape([n]));
          AgreesKnown([n], ViewDims(r.value.ta.desc, v).shape);
          r
  }

  /** The single axis of all the elements a view shows is a shape numpy can
      reshape the base to. */
  lemma {:induction false} RavelResolves(d: Descriptor, v: View)
    ensures Resolvable(Prod(d.Base()), FullDims(d, v, [ViewDims(d, v).size]))
  {
    var n := ViewDims(d, v).size;
    ViewSplit(d, v);
    ProdAppend(d.tshape, d.cshape);
    ProdAppend([n], d.cshape);
    ProdAppend(d.tshape, [n]);
    assert Prod([n]) == n;
    match v
    case Table => KnownShape([n] + d.cshape);
    case Bcast => KnownShape([n] + d.cshape);
    case Cell => KnownShape(d.tshape + [n]);
    case Array => KnownShape([n]);
  }

  /** Flattening twice is flattening once, and flattening fails only for a
      view of no axes. */
  lemma {:induction false} RavelIdempotent(t: TablArray)
    requires ParseView(t.view).Some?
    ensures Ravel(TaOp(t)).Ok? <==> ViewDims(t.desc, ParseView(t.view).value).shape != []
    ensures Ravel(TaOp(t)).Ok? ==> Ravel(TaOp(Ravel(TaOp(t)).value.ta)) == Ravel(TaOp(t))
  {
    if Ravel(TaOp(t)).Ok? {
      var u := Ravel(TaOp(t)).value.ta;
      var v := ParseView(t.view).value;
      var n := ViewDims(t.desc, v).size;
      assert ViewDims(u.desc, v).shape == [n];
      assert Prod([n]) == n;
      ReshapeToOwnShape(u);
    }
  }

  /** Reshaping a table of two by three 2-vectors in view table to `(-1,)`
      gives six 2-vectors; an int new shape is refused in view table with a
      TypeError, and in view array only after numpy has reshaped. */
  lemma {:induction false} ReshapeExamples()
    ensures Reshape(TaOp(TablArray(Descriptor([2, 3], [2]), "table")), TupleShape([-1]))
            == Ok(Tab(TablArray(Descriptor([6], [2]), "table")))
    ensures Reshape(TaOp(TablArray(Descriptor([2, 3], [2]), "table")), IntShape(6)) == Err(TypeError)
    ensures Reshape(TaOp(TablArray(Descriptor([2, 3], [2]), "array")), IntShape(12)) == Err(TypeError)
    ensures Reshape(TaOp(TablArray(Descriptor([2, 3], [2]), "array")), IntShape(5)) == Err(ValueError)
    ensures Reshape(ArrayOp([2, 3]), IntShape(6)) == Ok(NdArray([6]))
  {
    var t := TablArray(Descriptor([2, 3], [2]), "table");
    assert [2, 3] + [2] == [2, 3, 2];
    assert Prod([2, 3, 2]) == 2 * Prod([3, 2]);
    assert Prod([3, 2]) == 3 * Prod([2]);
    assert [-1] + [2] == [-1, 2] && [-1, 2][1..] == [2] && [2][1..] == [];
    assert Known([2]) == 2;
    assert Unknowns([-1] + [2]) == 1 && Known([-1] + [2]) == 2;
    var u := Reshape(TaOp(t), TupleShape([-1])).value.ta;
    AgreesThenKnown([-1], [2], u.desc.Base());
    ProdAppend(u.desc.tshape, u.desc.cshape);
    assert u.desc.tshape == [6];
    assert Unknowns([12]) == 0 && Known([12]) == 12;
    assert Unknowns([5]) == 0 && Known([5]) == 5;
    assert Unknowns([6]) == 0 && Known([6]) == 6;
    AgreesKnown([6], Reshape(ArrayOp([2, 3]), IntShape(6)).value.shape);
  }

  // ---------------------------------------------------------------- tiling

  /** Elementwise product of two shapes of one length. */
  function Times(a: Shape, b: Shape): (r: Shape)
    requires |a| == |b|
    ensures |r| == |a|
    ensures forall i :: 0 <= i < |a| ==> r[i] == a[i] * b[i]
  {
    seq(|a|, i requires 0 <= i < |a| => a[i] * b[i])
  }

  /** The shape of `np.tile(A, reps)`: shape and repetitions are both padded
      on the left with 1s to the longer length, then multiplied axis by axis
      (`TileFromRight`). */
  function NpTileShape(s: Shape, reps: Shape): (r: Shape)
    ensures |r| == Max(|s|, |reps|)
  {
    var n := Max(|s|, |reps|);
    Times(Pad(s, n), Pad(reps, n))
  }

  lemma {:induction false} TileFromRight(s: Shape, reps: Shape, k: nat)
    ensures FromRight(NpTileShape(s, reps), k) == FromRight(s, k) * FromRight(reps, k)
  {
    var n := Max(|s|, |reps|);
    if k < n {
      assert FromRight(Pad(s, n), k) == FromRight(s, k);
      assert FromRight(Pad(reps, n), k) == FromRight(reps, k);
    }
  }

  lemma {:induction false} FromRightConcat(x: Shape, y: Shape, k: nat)
    ensures FromRight(x + y, k) == if k < |y| then FromRight(y, k) else FromRight(x, k - |y|)
  {
  }

  lemma {:induction false} FromRightOnes(n: nat, k: nat)
    ensures FromRight(Ones(n), k) == 1
  {
  }

  /** Two shapes of one length that agree on every axis counted from the right
      are equal. */
  lemma {:induction false} FromRightExt(a: Shape, b: Shape)
    requires |a| == |b|
    requires forall k :: 0 <= k < |a| ==> FromRight(a, k) == FromRight(b, k)
    ensures a == b
  {
    forall i | 0 <= i < |a| ensures a[i] == b[i] {
      assert FromRight(a, |a| - 1 - i) == FromRight(b, |a| - 1 - i);
    }
  }

  /** Tiling a concatenation by a concatenation of the same split tiles each
      part separately. */
  lemma {:induction false} TileSplit(a: Shape, b: Shape, c: Shape, d: Shape)
    requires |b| == |d|
    ensures NpTileShape(a + b, c + d) == NpTileShape(a, c) + NpTileShape(b, d)
  {
    var lhs := NpTileShape(a + b, c + d);
    var rhs := NpTileShape(a, c) + NpTileShape(b, d);
    forall k | 0 <= k < |lhs| ensures FromRight(lhs, k) == FromRight(rhs, k) {
      TileFromRight(a + b, c + d, k);
      if k >= |b| {
        TileFromRight(a, c, k - |b|);
      }
      TileFromRight(b, d, k);
      FromRightConcat(a, b, k);
      FromRightConcat(c, d, k);
      FromRightConcat(NpTileShape(a, c), NpTileShape(b, d), k);
    }
    FromRightExt(lhs, rhs);
  }

  /** Tiling by all-ones repetitions changes nothing. */
  lemma {:induction false} TileByOnes(s: Shape)
    ensures NpTileShape(s, Ones(|s|)) == s
  {
    forall k | 0 <= k < |s| ensures FromRight(NpTileShape(s, Ones(|s|)), k) == FromRight(s, k) {
      TileFromRight(s, Ones(|s|), k);
      FromRightOnes(|s|, k);
    }
    FromRightExt(NpTileShape(s, Ones(|s|)), s);
  }

  /** Tiling a shape by itself squares every axis. */
  lemma {:induction false} TileBySelf(s: Shape)
    ensures NpTileShape(s, s) == Times(s, s)
  {
    assert Pad(s, |s|) == s;
  }

  lemma {:induction false} ProdTimes(a: Shape, b: Shape)
    requires |a| == |b|
    ensures Prod(Times(a, b)) == Prod(a) * Prod(b)
  {
    if |a| > 0 {
      assert Times(a, b)[1..] == Times(a[1..], b[1..]);
      ProdTimes(a[1..], b[1..]);
    }
  }

  lemma {:induction false} ProdPad(s: Shape, n: nat)
    requires |s| <= n
    ensures Prod(Pad(s, n)) == Prod(s)
  {
    var ones := Ones(n - |s|);
    assert Pad(s, n) == ones + s;
    ProdAppend(ones, s);
    ProdOnes(n - |s|);
    UnitTimes(Prod(ones), Prod(s));
  }

  lemma {:induction false} UnitTimes(x: nat, y: nat)
    requires x == 1
    ensures x * y == y
  {
  }

  /** A tile multiplies the element count by the product of the repetitions. */
  lemma {:induction false} TileCount(s: Shape, reps: Shape)
    ensures Prod(NpTileShape(s, reps)) == Prod(s) * Prod(reps)
  {
    var n := Max(|s|, |reps|);
    ProdTimes(Pad(s, n), Pad(reps, n));
    ProdPad(s, n);
    ProdPad(reps, n);
  }

  /** The repetition vector `tile` hands to numpy, as written: in view
      table/bcast the repetitions followed by the cshape, in view cell the
      tshape followed by the repetitions, in view array the repetitions. */
  function TileRepsAsWritten(d: Descriptor, v: View, reps: Shape): Shape {
    match v
    case Table => reps + d.cshape
    case Bcast => reps + d.cshape
    case Cell => d.tshape + reps
    case Array => reps
  }

  /** `tile(a, reps)` as written: numpy's tile of the base by the repetition
      vector above, rewrapped with the same cdim and view. */
  function TileAsWritten(a: Operand, reps: Shape): (r: Result<Value>)
    ensures a.ArrayOp? ==> r == Ok(NdArray(NpTileShape(a.shape, reps)))
    ensures a.TaOp? ==> (r.Ok? <==> ParseView(a.t.view).Some?)
    ensures a.TaOp? && ParseView(a.t.view).None? ==> r == Err(ValueError)
    ensures a.TaOp? && r.Ok? ==>
              r.value.Tab? && r.value.ta.view == a.t.view
              && r.value.ta.desc.CDim() == a.t.desc.CDim()
              && r.value.ta.desc.Base() == NpTileShape(a.t.desc.Base(), TileRepsAsWritten(a.t.desc, ParseView(a.t.view).value, reps))
  {
    match a
    case ArrayOp(s) => Ok(NdArray(NpTileShape(s, reps)))
    case TaOp(t) =>
      match ParseView(t.view)
      case None => Err(ValueError)
      case Some(v) =>
        Io.Wrap(NpTileShape(t.desc.Base(), TileRepsAsWritten(t.desc, v, reps)), t.desc.CDim(), t.view)
  }

  /** What the padding does: in view table/bcast every cellular axis is
      multiplied by itself; in view cell (with one repetition per cellular
      axis) every tabular axis is. */
  lemma {:induction false} TileAsWrittenMultipliesOtherGroup(t: TablArray, reps: Shape)
    requires ParseView(t.view).Some?
    ensures TileAsWritten(TaOp(t), reps).Ok?
    ensures ParseView(t.view).value in {Table, Bcast} ==>
              TileAsWritten(TaOp(t), reps).value.ta.desc
              == Descriptor(NpTileShape(t.desc.tshape, reps), Times(t.desc.cshape, t.desc.cshape))
    ensures ParseView(t.view).value == Cell && |reps| == t.desc.CDim() ==>
              TileAsWritten(TaOp(t), reps).value.ta.desc
              == Descriptor(Times(t.desc.tshape, t.desc.tshape), NpTileShape(t.desc.cshape, reps))
  {
    var d := t.desc;
    var v := ParseView(t.view).value;
    var r := TileAsWritten(TaOp(t), reps).value.ta.desc;
    if v == Table || v == Bcast {
      TileSplit(d.tshape, d.cshape, reps, d.cshape);
      TileBySelf(d.cshape);
      assert r.Base() == NpTileShape(d.tshape, reps) + Times(d.cshape, d.cshape);
      DescriptorOfBase(r, NpTileShape(d.tshape, reps), Times(d.cshape, d.cshape));
    } else if v == Cell && |reps| == d.CDim() {
      TileSplit(d.tshape, d.cshape, d.tshape, reps);
      TileBySelf(d.tshape);
      assert r.Base() == Times(d.tshape, d.tshape) + NpTileShape(d.cshape, reps);
      DescriptorOfBase(r, Times(d.tshape, d.tshape), NpTileShape(d.cshape, reps));
    }
  }

  /** A descriptor is determined by its base shape and its cdim. */
  lemma {:induction false} DescriptorOfBase(r: Descriptor, x: Shape, y: Shape)
    requires r.Base() == x + y && r.CDim() == |y|
    ensures r == Descriptor(x, y)
  {
    assert r.tshape == (x + y)[..|x|];
    assert r.cshape == (x + y)[|x|..];
  }

  /** A table of two 2-vectors tiled three times in view table comes out as
      six 4-vectors instead of six 2-vectors. */
  lemma {:induction false} TileAsWrittenExample()
    ensures TileAsWritten(TaOp(TablArray(Descriptor([2], [2]), "table")), [3])
            == Ok(Tab(TablArray(Descriptor([6], [4]), "table")))
  {
    var t := TablArray(Descriptor([2], [2]), "table");
    TileAsWrittenMultipliesOtherGroup(t, [3]);
    TileTwoByThree();
    assert Times([2], [2]) == [4];
  }

  lemma {:induction false} TileTwoByThree()
    ensures NpTileShape([2], [3]) == [6]
  {
    TileFromRight([2], [3], 0);
    FromRightExt(NpTileShape([2], [3]), [6]);
  }

  /** The repetition vector with 1s in place of the other axis group. */
  function TileReps(d: Descriptor, v: View, reps: Shape): Shape {
    match v
    case Table => reps + Ones(d.CDim())
    case Bcast => reps + Ones(d.CDim())
    case Cell => Ones(d.TDim()) + reps
    case Array => reps
  }

  /** `tile` with the repetitions padded with 1s, so that only the axis group
      of the view is repeated. */
  function Tile(a: Operand, reps: Shape): (r: Result<Value>)
    ensures a.ArrayOp? ==> r == Ok(NdArray(NpTileShape(a.shape, reps)))
    ensures a.TaOp? ==> (r.Ok? <==> ParseView(a.t.view).Some?)
    ensures a.TaOp? && ParseView(a.t.view).None? ==> r == Err(ValueError)
    ensures a.TaOp? && r.Ok? ==>
              r.value.Tab? && r.value.ta.view == a.t.view
              && r.value.ta.desc.CDim() == a.t.desc.CDim()
              && Prod(r.value.ta.desc.Base()) == Prod(a.t.desc.Base()) * Prod(reps)
  {
    match a
    case ArrayOp(s) => Ok(NdArray(NpTileShape(s, reps)))
    case TaOp(t) =>
      match ParseView(t.view)
      case None => Err(ValueError)
      case Some(v) =>
        var d := t.desc;
        TileRepsCount(d, v, reps);
        TileCount(d.Base(), TileReps(d, v, reps));
        Io.Wrap(NpTileShape(d.Base(), TileReps(d, v, reps)), d.CDim(), t.view)
  }

  lemma {:induction false} TileRepsCount(d: Descriptor, v: View, reps: Shape)
    ensures Prod(TileReps(d, v, reps)) == Prod(reps)
  {
    ProdAppend(reps, Ones(d.CDim()));
    ProdOnes(d.CDim());
    ProdAppend(Ones(d.TDim()), reps);
    ProdOnes(d.TDim());
    UnitTimes(Prod(Ones(d.CDim())), Prod(reps));
    UnitTimes(Prod(Ones(d.TDim())), Prod(reps));
  }

  /** Tiling repeats the view's axis group by `reps` and leaves the other
      group exactly as it was (in view cell, for at most as many repetitions
      as cellular axes). */
  lemma {:induction false} TileKeepsOtherGroup(t: TablArray, reps: Shape)
    requires ParseView(t.view).Some?
    ensures Tile(TaOp(t), reps).Ok?
    ensures ParseView(t.view).value in {Table, Bcast} ==>
              Tile(TaOp(t), reps).value.ta.desc == Descriptor(NpTileShape(t.desc.tshape, reps), t.desc.cshape)
    ensures ParseView(t.view).value == Cell && |reps| <= t.desc.CDim() ==>
              Tile(TaOp(t), reps).value.ta.desc == Descriptor(t.desc.tshape, NpTileShape(t.desc.cshape, reps))
    ensures ParseView(t.view).value == Array ==>
              Tile(TaOp(t), reps).value.ta.desc.Base() == NpTileShape(t.desc.Base(), reps)
  {
    var v := ParseView(t.view).value;
    if v == Table || v == Bcast {
      TileKeepsCells(t, reps);
    } else if v == Cell && |reps| <= t.desc.CDim() {
      TileKeepsTable(t, reps);
    }
  }

  lemma {:induction false} TileKeepsCells(t: TablArray, reps: Shape)
    requires ParseView(t.view) == Some(Table) || ParseView(t.view) == Some(Bcast)
    ensures Tile(TaOp(t), reps).Ok?
    ensures Tile(TaOp(t), reps).value.ta.desc == Descriptor(NpTileShape(t.desc.tshape, reps), t.desc.cshape)
  {
    var d := t.desc;
    var r := Tile(TaOp(t), reps).value.ta.desc;
    TileSplit(d.tshape, d.cshape, reps, Ones(d.CDim()));
    TileByOnes(d.cshape);
    DescriptorOfBase(r, NpTileShape(d.tshape, reps), d.cshape);
  }

  lemma {:induction false} TileKeepsTable(t: TablArray, reps: Shape)
    requires ParseView(t.view) == Some(Cell) && |reps| <= t.desc.CDim()
    ensures Tile(TaOp(t), reps).Ok?
    ensures Tile(TaOp(t), reps).value.ta.desc == Descriptor(t.desc.tshape, NpTileShape(t.desc.cshape, reps))
  {
    var d := t.desc;
    var r := Tile(TaOp(t), reps).value.ta.desc;
    assert r.Base() == NpTileShape(d.Base(), Ones(d.TDim()) + reps);
    TileCellShape(d, reps);
    DescriptorOfBase(r, d.tshape, NpTileShape(d.cshape, reps));
  }

  /** Tiling the base by 1s over the tabular axes and `reps` over the
      cellular ones tiles only the cshape. */
  lemma {:induction false} TileCellShape(d: Descriptor, reps: Shape)
    requires |reps| <= d.CDim()
    ensures NpTileShape(d.Base(), Ones(d.TDim()) + reps) == d.tshape + NpTileShape(d.cshape, reps)
  {
    var lhs := NpTileShape(d.Base(), Ones(d.TDim()) + reps);
    var rhs := d.tshape + NpTileShape(d.cshape, reps);
    forall k | 0 <= k < |lhs| ensures FromRight(lhs, k) == FromRight(rhs, k) {
      TileCellAxis(d, reps, k);
    }
    FromRightExt(lhs, rhs);
  }

  lemma {:induction false} TileCellAxis(d: Descriptor, reps: Shape, k: nat)
    requires |reps| <= d.CDim()
    ensures FromRight(NpTileShape(d.Base(), Ones(d.TDim()) + reps), k)
            == FromRight(d.tshape + NpTileShape(d.cshape, reps), k)
  {
    TileFromRight(d.Base(), Ones(d.TDim()) + reps, k);
    TileFromRight(d.cshape, reps, k);
    FromRightConcat(d.tshape, d.cshape, k);
    FromRightConcat(Ones(d.TDim()), reps, k);
    FromRightConcat(d.tshape, NpTileShape(d.cshape, reps), k);
    if k >= |reps| {
      FromRightOnes(d.TDim(), k - |reps|);
    }
  }
}

=== FILE: shapes.dfy ===
/** The dual-axis shape descriptor (`taShape`), its broadcast combination and the
    four views.

    A descriptor is a tabular shape followed by a cellular shape.  `Combine` applies
    right-aligned array broadcasting to the two axis groups independently.  The
    engine's own implementation of `combine` is not part of this model; `Broadcast`
    below is the model function, and `BroadcastPointwise` is its independent,
    index-by-index reference definition.
 */
module Shapes {
  import opened Common

  type Shape = seq<nat>

  datatype Descriptor = Descriptor(tshape: Shape, cshape: Shape) {
    function TDim(): nat { |tshape| }
    function CDim(): nat { |cshape| }
    function TSize(): nat { Prod(tshape) }
    function CSize(): nat { Prod(cshape) }
    /** The shape of the base array: tabular axes first, then cellular axes. */
    function Base(): Shape { tshape + cshape }
  }

  /** The four index interpretations of a TablArray. */
  datatype View = Table | Bcast | Cell | Array

  function Tag(v: View): string {
    match v
    case Table => "table"
    case Bcast => "bcast"
    case Cell => "cell"
    case Array => "array"
  }

  /** Recognises a view tag; any other string is an unknown view. */
  function ParseView(tag: string): (r: Option<View>)
    ensures r.Some? ==> Tag(r.value) == tag
    ensures r.None? <==> (tag != "table" && tag != "bcast" && tag != "cell" && tag != "array")
  {
    if tag == "table" then Some(Table)
    else if tag == "bcast" then Some(Bcast)
    else if tag == "cell" then Some(Cell)
    else if tag == "array" then Some(Array)
    else None
  }

  lemma {:induction false} ParseTagRoundTrip(v: View)
    ensures ParseView(Tag(v)) == Some(v)
  {
  }

  function Prod(s: Shape): nat {
    if |s| == 0 then 1 else s[0] * Prod(s[1..])
  }

  lemma {:induction false} ProdAppend(a: Shape, b: Shape)
    ensures Prod(a + b) == Prod(a) * Prod(b)
  {
    if |a| == 0 {
      assert a + b == b;
    } else {
      assert (a + b)[1..] == a[1..] + b;
      ProdAppend(a[1..], b);
    }
  }

  function Ones(n: nat): (r: Shape)
    ensures |r| == n
    ensures forall i :: 0 <= i < n ==> r[i] == 1
  {
    seq(n, _ => 1)
  }

  lemma {:induction false} ProdOnes(n: nat)
    ensures Prod(Ones(n)) == 1
  {
    if n > 0 {
      assert Ones(n)[1..] == Ones(n - 1);
      ProdOnes(n - 1);
    }
  }

  function Max(a: nat, b: nat): nat { if a < b then b else a }

  /** Size of axis `k`, counting from the right (k = 0 is the last axis);
      an axis the shape does not have reads as 1, as in broadcasting. */
  function FromRight(s: Shape, k: nat): nat {
    if k < |s| then s[|s| - 1 - k] else 1
  }

  /** `s` left-padded with 1s to length `n`: what broadcasting aligns it to. */
  function Pad(s: Shape, n: nat): (r: Shape)
    requires |s| <= n
    ensures |r| == n
    ensures forall k :: 0 <= k < n ==> FromRight(r, k) == FromRight(s, k)
  {
    Ones(n - |s|) + s
  }

  predicate Compatible(x: nat, y: nat) { x == y || x == 1 || y == 1 }

  /** The broadcast size of two compatible axis sizes. */
  function Merge(x: nat, y: nat): nat { if x == 1 then y else x }

  function Init(s: Shape): Shape requires |s| > 0 { s[..|s| - 1] }
  function Last(s: Shape): nat requires |s| > 0 { s[|s| - 1] }

  /** Right-aligned broadcasting of two shapes, processed from the last axis;
      `None` when some aligned pair is neither equal nor 1. */
  function Broadcast(a: Shape, b: Shape): Option<Shape>
    decreases |a| + |b|
  {
    if |a| == 0 then Some(b)
    else if |b| == 0 then Some(a)
    else if !Compatible(Last(a), Last(b)) then None
    else
      match Broadcast(Init(a), Init(b))
      case None => None
      case Some(r) => Some(r + [Merge(Last(a), Last(b))])
  }

  /** Reference definition: every right-aligned pair is compatible. */
  ghost predicate AllCompatible(a: Shape, b: Shape) {
    forall k :: 0 <= k < Max(|a|, |b|) ==> Compatible(FromRight(a, k), FromRight(b, k))
  }

  /** Reference definition: `r` is the pointwise broadcast of `a` and `b`. */
  ghost predicate BroadcastPointwise(a: Shape, b: Shape, r: Shape) {
    && |r| == Max(|a|, |b|)
    && forall k :: 0 <= k < |r| ==> FromRight(r, k) == Merge(FromRight(a, k), FromRight(b, k))
  }

  lemma {:induction false} FromRightInit(s: Shape, k: nat)
    requires |s| > 0
    ensures FromRight(Init(s), k) == FromRight(s, k + 1)
  {
  }

  lemma {:induction false} FromRightSnoc(s: Shape, x: nat, k: nat)
    ensures FromRight(s + [x], 0) == x
    ensures FromRight(s + [x], k + 1) == FromRight(s, k)
  {
  }

  lemma {:induction false} MergeOne(x: nat)
    ensures Merge(1, x) == x && Merge(x, 1) == x
  {
  }

  /** Broadcasting succeeds exactly when all aligned pairs are compatible, and then
      produces the pointwise broadcast shape. */
  lemma {:induction false} BroadcastCorrect(a: Shape, b: Shape)
    ensures Broadcast(a, b).Some? <==> AllCompatible(a, b)
    ensures Broadcast(a, b).Some? ==> BroadcastPointwise(a, b, Broadcast(a, b).value)
    decreases |a| + |b|
  {
    if |a| == 0 {
      forall k | 0 <= k < |b| ensures FromRight(b, k) == Merge(FromRight(a, k), FromRight(b, k)) {
        MergeOne(FromRight(b, k));
      }
    } else if |b| == 0 {
      forall k | 0 <= k < |a| ensures FromRight(a, k) == Merge(FromRight(a, k), FromRight(b, k)) {
        MergeOne(FromRight(a, k));
      }
    } else {
      var n := Max(|a|, |b|);
      BroadcastCorrect(Init(a), Init(b));
      forall k | 0 <= k < n - 1
        ensures FromRight(Init(a), k) == FromRight(a, k + 1)
        ensures FromRight(Init(b), k) == FromRight(b, k + 1)
      {
        FromRightInit(a, k);
        FromRightInit(b, k);
      }
      if !Compatible(Last(a), Last(b)) {
        assert FromRight(a, 0) == Last(a) && FromRight(b, 0) == Last(b);
      } else {
        assert AllCompatible(Init(a), Init(b)) <==> AllCompatible(a, b) by {
          if AllCompatible(a, b) {
            forall k | 0 <= k < n - 1
              ensures Compatible(FromRight(Init(a), k), FromRight(Init(b), k))
            {
              assert Compatible(FromRight(a, k + 1), FromRight(b, k + 1));
            }
          }
          if AllCompatible(Init(a), Init(b)) {
            forall k | 0 <= k < n ensures Compatible(FromRight(a, k), FromRight(b, k)) {
              if k > 0 {
                assert Compatible(FromRight(Init(a), k - 1), FromRight(Init(b), k - 1));
              }
            }
          }
        }
        if Broadcast(Init(a), Init(b)).Some? {
          var r := Broadcast(Init(a), Init(b)).value;
          var x := Merge(Last(a), Last(b));
          assert Broadcast(a, b) == Some(r + [x]);
          forall k | 0 <= k < n
            ensures FromRight(r + [x], k) == Merge(FromRight(a, k), FromRight(b, k))
          {
            FromRightSnoc(r, x, if k == 0 then 0 else k - 1);
            if k > 0 {
              assert FromRight(r, k - 1) == Merge(FromRight(Init(a), k - 1), FromRight(Init(b), k - 1));
            }
          }
        }
      }
    }
  }

  /** Combination of two descriptors: broadcast each axis group independently. */
  function Combine(a: Descriptor, b: Descriptor): Option<Descriptor> {
    match (Broadcast(a.tshape, b.tshape), Broadcast(a.cshape, b.cshape))
    case (Some(t), Some(c)) => Some(Descriptor(t, c))
    case _ => None
  }

  /** Combination succeeds iff both groups are compatible; the result has the larger
      rank of each group. */
  lemma {:induction false} CombineCorrect(a: Descriptor, b: Descriptor)
    ensures Combine(a, b).Some? <==> AllCompatible(a.tshape, b.tshape) && AllCompatible(a.cshape, b.cshape)
    ensures Combine(a, b).Some? ==>
              && BroadcastPointwise(a.tshape, b.tshape, Combine(a, b).value.tshape)
              && BroadcastPointwise(a.cshape, b.cshape, Combine(a, b).value.cshape)
    ensures Combine(a, b).Some? ==>
              Combine(a, b).value.TDim() == Max(a.TDim(), b.TDim()) &&
              Combine(a, b).value.CDim() == Max(a.CDim(), b.CDim())
  {
    BroadcastCorrect(a.tshape, b.tshape);
    BroadcastCorrect(a.cshape, b.cshape);
  }

  lemma {:induction false} MergeSymmetric(x: nat, y: nat)
    requires Compatible(x, y)
    ensures Merge(x, y) == Merge(y, x)
  {
  }

  lemma {:induction false} BroadcastSymmetric(a: Shape, b: Shape)
    ensures Broadcast(a, b) == Broadcast(b, a)
    decreases |a| + |b|
  {
    if |a| > 0 && |b| > 0 && Compatible(Last(a), Last(b)) {
      BroadcastSymmetric(Init(a), Init(b));
      MergeSymmetric(Last(a), Last(b));
    }
  }

  /** Combination does not depend on argument order. */
  lemma {:induction false} CombineSymmetric(a: Descriptor, b: Descriptor)
    ensures Combine(a, b) == Combine(b, a)
  {
    BroadcastSymmetric(a.tshape, b.tshape);
    BroadcastSymmetric(a.cshape, b.cshape);
  }

  lemma {:induction false} BroadcastSelf(a: Shape)
    ensures Broadcast(a, a) == Some(a)
  {
    if |a| > 0 {
      BroadcastSelf(Init(a));
      assert Init(a) + [Last(a)] == a;
    }
  }

  /** A descriptor combined with itself is itself. */
  lemma {:induction false} CombineSelf(a: Descriptor)
    ensures Combine(a, a) == Some(a)
  {
    BroadcastSelf(a.tshape);
    BroadcastSelf(a.cshape);
  }

  /** `s` broadcasts into `m` without changing `m`: no more axes, and every
      right-aligned axis is 1 or equal to the axis of `m`. */
  ghost predicate FitsShape(s: Shape, m: Shape) {
    && |s| <= |m|
    && forall k :: 0 <= k < |s| ==> FromRight(s, k) == 1 || FromRight(s, k) == FromRight(m, k)
  }

  ghost predicate Fits(d: Descriptor, m: Descriptor) {
    FitsShape(d.tshape, m.tshape) && FitsShape(d.cshape, m.cshape)
  }

  lemma {:induction false} FitsSelf(d: Descriptor)
    ensures Fits(d, d)
  {
  }

  lemma {:induction false} FitsTransitive(a: Descriptor, b: Descriptor, c: Descriptor)
    requires Fits(a, b) && Fits(b, c)
    ensures Fits(a, c)
  {
    forall k | 0 <= k < |a.tshape| ensures FromRight(a.tshape, k) == 1 || FromRight(a.tshape, k) == FromRight(c.tshape, k) {
      assert FromRight(b.tshape, k) == 1 || FromRight(b.tshape, k) == FromRight(c.tshape, k);
    }
    forall k | 0 <= k < |a.cshape| ensures FromRight(a.cshape, k) == 1 || FromRight(a.cshape, k) == FromRight(c.cshape, k) {
      assert FromRight(b.cshape, k) == 1 || FromRight(b.cshape, k) == FromRight(c.cshape, k);
    }
  }

  lemma {:induction false} BroadcastFitsShape(a: Shape, b: Shape)
    requires Broadcast(a, b).Some?
    ensures FitsShape(a, Broadcast(a, b).value) && FitsShape(b, Broadcast(a, b).value)
  {
    BroadcastCorrect(a, b);
    var r := Broadcast(a, b).value;
    forall k | 0 <= k < |a| ensures FromRight(a, k) == 1 || FromRight(a, k) == FromRight(r, k) {
      assert Compatible(FromRight(a, k), FromRight(b, k));
    }
    forall k | 0 <= k < |b| ensures FromRight(b, k) == 1 || FromRight(b, k) == FromRight(r, k) {
      assert Compatible(FromRight(a, k), FromRight(b, k));
    }
  }

  /** Both operands of a successful combination fit into the combined descriptor. */
  lemma {:induction false} CombineFits(a: Descriptor, b: Descriptor)
    requires Combine(a, b).Some?
    ensures Fits(a, Combine(a, b).value) && Fits(b, Combine(a, b).value)
  {
    BroadcastFitsShape(a.tshape, b.tshape);
    BroadcastFitsShape(a.cshape, b.cshape);
  }

  lemma {:induction false} FitsShapeBroadcast(a: Shape, b: Shape, m: Shape)
    requires FitsShape(a, m) && FitsShape(b, m)
    ensures Broadcast(a, b).Some? && FitsShape(Broadcast(a, b).value, m)
  {
    assert AllCompatible(a, b) by {
      forall k | 0 <= k < Max(|a|, |b|) ensures Compatible(FromRight(a, k), FromRight(b, k)) {
      }
    }
    BroadcastCorrect(a, b);
    var r := Broadcast(a, b).value;
    forall k | 0 <= k < |r| ensures FromRight(r, k) == 1 || FromRight(r, k) == FromRight(m, k) {
      assert FromRight(r, k) == Merge(FromRight(a, k), FromRight(b, k));
    }
  }

  /** Two descriptors that both fit a master combine, and their combination fits
      the master too: members of one container never clash with each other. */
  lemma {:induction false} FitsCombine(a: Descriptor, b: Descriptor, m: Descriptor)
    requires Fits(a, m) && Fits(b, m)
    ensures Combine(a, b).Some? && Fits(Combine(a, b).value, m)
  {
    FitsShapeBroadcast(a.tshape, b.tshape, m.tshape);
    FitsShapeBroadcast(a.cshape, b.cshape, m.cshape);
  }

  /** Splits a base shape into a descriptor with the last `cdim` axes cellular;
      a negative or too large `cdim` is a ShapeError. */
  function MakeDescriptor(shape: Shape, cdim: int): (r: Result<Descriptor>)
    ensures r.Ok? <==> 0 <= cdim <= |shape|
    ensures r.Ok? ==> r.value.Base() == shape && r.value.CDim() == cdim
  {
    if cdim < 0 || cdim > |shape| then Err(ShapeError)
    else Ok(Descriptor(shape[..|shape| - cdim], shape[|shape| - cdim..]))
  }

  lemma {:induction false} MakeDescriptorRoundTrip(d: Descriptor)
    ensures MakeDescriptor(d.Base(), d.CDim()) == Ok(d)
  {
    assert d.Base()[..d.TDim()] == d.tshape;
    assert d.Base()[d.TDim()..] == d.cshape;
  }

  /** The shape, rank and size a view exposes (`_set_ts` of the containers). */
  datatype Dims = Dims(shape: Shape, ndim: nat, size: nat)

  function ViewDims(d: Descriptor, v: View): (r: Dims)
    ensures r.ndim == |r.shape| && r.size == Prod(r.shape)
    ensures v == Table || v == Bcast ==> r.shape == d.tshape
    ensures v == Cell ==> r.shape == d.cshape
    ensures v == Array ==> r.shape == d.Base()
  {
    match v
    case Table => Dims(d.tshape, d.TDim(), d.TSize())
    case Bcast => Dims(d.tshape, d.TDim(), d.TSize())
    case Cell => Dims(d.cshape, d.CDim(), d.CSize())
    case Array =>
      ProdAppend(d.tshape, d.cshape);
      Dims(d.tshape + d.cshape, d.TDim() + d.CDim(), d.TSize() * d.CSize())
  }

  /** Evidence from the test of binary operators: t(4,1)|c(2) combined with
      t(3)|c(1,2) is t(4,3)|c(1,2), a base shape of 4x3x1x2 with cdim 2. */
  lemma {:induction false} CombineExample()
    ensures Combine(Descriptor([4, 1], [2]), Descriptor([3], [1, 2]))
            == Some(Descriptor([4, 3], [1, 2]))
    ensures Descriptor([4, 3], [1, 2]).Base() == [4, 3, 1, 2]
  {
    assert Broadcast([4, 1], [3]) == Some([4, 3]) by {
      assert Init([4, 1]) == [4];
      assert Init([3]) == [];
      assert Broadcast([4], []) == Some([4]);
      assert [4] + [3] == [4, 3];
    }
    assert Broadcast([2], [1, 2]) == Some([1, 2]) by {
      assert Init([2]) == [];
      assert Init([1, 2]) == [1];
      assert Broadcast([], [1]) == Some([1]);
      assert [1] + [2] == [1, 2];
    }
  }

  /** t(3)|c() and t(5)|c() do not combine. */
  lemma {:induction false} CombineRefusedExample()
    ensures Combine(Descriptor([3], []), Descriptor([5], [])) == None
  {
    assert !Compatible(Last([3]), Last([5]));
  }
}

=== FILE: tablaset.dfy ===
/** The two TablaSet helpers of `tablarray/set.py` built on top of the container:
    `meshtile`, which tiles members out to the master tabular shape, and
    `_survey_view`, which finds the most common view among arguments. */
module TablaSets {
  import opened Common
  import opened Shapes
  import opened Values
  import opened OrderedMaps
  import Containers
  import Reshaping

  /** The repetitions that fill a member's tshape `t` out to the master tshape:
      `t` is right-aligned into 1s, and an axis already of the master's size is
      repeated once, any other axis master-size times.  A member with more
      tabular axes than the master cannot be aligned (numpy's ValueError). */
  function MeshReps(master: Shape, t: Shape): (r: Result<Shape>)
    ensures r.Ok? <==> |t| <= |master|
    ensures r.Ok? ==> |r.value| == |master|
    ensures r.Ok? ==> forall i :: 0 <= i < |master| ==>
              r.value[i] == (if Pad(t, |master|)[i] == master[i] then 1 else master[i])
  {
    if |t| > |master| then Err(ValueError)
    else
      var padded := Pad(t, |master|);
      Ok(seq(|master|, i requires 0 <= i < |master| => if padded[i] == master[i] then 1 else master[i]))
  }

  /** For a member that broadcasts into the master, the padded shape times the
      repetitions is exactly the master shape, axis by axis. */
  lemma {:induction false} MeshRepsFill(master: Shape, t: Shape)
    requires FitsShape(t, master)
    ensures MeshReps(master, t).Ok?
    ensures Reshaping.Times(Pad(t, |master|), MeshReps(master, t).value) == master
  {
    var n := |master|;
    var padded := Pad(t, n);
    var reps := MeshReps(master, t).value;
    forall i | 0 <= i < n ensures padded[i] * reps[i] == master[i] {
      var k := n - 1 - i;
      assert FromRight(padded, k) == FromRight(t, k);
      if k < |t| {
        assert FromRight(t, k) == 1 || FromRight(t, k) == FromRight(master, k);
      }
    }
  }

  /** Which tile `meshtile` calls: the tile of `tablarray/re.py` as written,
      whose table-view padding repeats every cellular axis by its own size,
      or the tile with that padding corrected to 1s. */
  datatype Tiling = AsWritten | Intended

  function TileWith(k: Tiling, a: Operand, reps: Shape): Result<Value> {
    match k
    case AsWritten => Reshaping.TileAsWritten(a, reps)
    case Intended => Reshaping.Tile(a, reps)
  }

  /** The cellular shape of a meshed member: every axis squared as written,
      the member's own as intended. */
  function MeshCells(k: Tiling, cshape: Shape): Shape {
    match k
    case AsWritten => Reshaping.Times(cshape, cshape)
    case Intended => cshape
  }

  /** Tiling the member's table view by those repetitions gives the master
      tshape; the tile as written squares each cellular axis, the corrected
      tile keeps the member's cshape. */
  lemma {:induction false} MeshTileShape(k: Tiling, master: Shape, t: TablArray)
    requires FitsShape(t.desc.tshape, master)
    ensures var reps := MeshReps(master, t.desc.tshape).value;
            var r := TileWith(k, TaOp(Relabel(t, "table")), reps);
            r.Ok? && r.value.ta.desc == Descriptor(master, MeshCells(k, t.desc.cshape))
  {
    MeshRepsFill(master, t.desc.tshape);
    var reps := MeshReps(master, t.desc.tshape).value;
    var n := |master|;
    assert Pad(reps, n) == reps;
    assert Reshaping.NpTileShape(t.desc.tshape, reps) == master;
    match k
    case AsWritten => Reshaping.TileAsWrittenMultipliesOtherGroup(Relabel(t, "table"), reps);
    case Intended => Reshaping.TileKeepsOtherGroup(Relabel(t, "table"), reps);
  }

  /** What `meshtile` returns: one TablArray, or a tuple of them. */
  datatype Meshed = Lone(t: TablArray) | Tuple(ts: seq<TablArray>)

  /** `meshtile(*keys)` from the `i`-th key on, with the tiles made so far in
      `acc`: before each key the master is read (an AttributeError without
      one), the member is looked up (KeyError), and a member whose tshape is
      already the master's is returned at once, untiled, whatever keys remain.
      Any other member is tiled in its table view by the repetitions. */
  function MeshFrom(k: Tiling, c: Containers.Container, keys: seq<string>, i: nat, acc: seq<TablArray>): (r: Result<Meshed>)
    requires i <= |keys| && |acc| == i
    ensures r.Ok? && r.value.Tuple? ==> |r.value.ts| == |keys| && |keys| != 1
    decreases |keys| - i
  {
    if i == |keys| then
      if |keys| == 1 then Ok(Lone(acc[0])) else Ok(Tuple(acc))
    else
      match c.master
      case None => Err(AttributeError)
      case Some(m) =>
        match Get(c.members, keys[i])
        case Err(e) => Err(e)
        case Ok(member) =>
          if m.tshape == member.desc.tshape then Ok(Lone(member))
          else
            match MeshReps(m.tshape, member.desc.tshape)
            case Err(e) => Err(e)
            case Ok(reps) =>
              match TileWith(k, TaOp(Relabel(member, "table")), reps)
              case Err(e) => Err(e)
              case Ok(tiled) => MeshFrom(k, c, keys, i + 1, acc + [tiled.ta])
  }

  /** `meshtile(*keys)`, tiling with `re.tile` as written: one key gives one
      TablArray, any other number a tuple, unless a member already spans the
      master. */
  function MeshTile(c: Containers.Container, keys: seq<string>): (r: Result<Meshed>)
    ensures |keys| == 0 ==> r == Ok(Tuple([]))
    ensures |keys| > 0 && c.master.None? ==> r == Err(AttributeError)
    ensures |keys| > 0 && keys[0] !in c.members.vals ==> r.Err?
    ensures r.Ok? && r.value.Tuple? ==> |r.value.ts| == |keys| && |keys| != 1
  {
    MeshFrom(AsWritten, c, keys, 0, [])
  }

  /** `meshtile(*keys)` with the corrected tile: the same walk, the tiles
      keeping their member's cellular shape. */
  function MeshTileIntended(c: Containers.Container, keys: seq<string>): (r: Result<Meshed>)
    ensures |keys| == 0 ==> r == Ok(Tuple([]))
    ensures |keys| > 0 && c.master.None? ==> r == Err(AttributeError)
    ensures |keys| > 0 && keys[0] !in c.members.vals ==> r.Err?
    ensures r.Ok? && r.value.Tuple? ==> |r.value.ts| == |keys| && |keys| != 1
  {
    MeshFrom(Intended, c, keys, 0, [])
  }

  /** The meshed descriptor of a member: the master tshape over the cellular
      shape the tiling leaves. */
  ghost predicate Meshes(k: Tiling, m: Descriptor, member: TablArray, tiled: TablArray) {
    tiled.desc == Descriptor(m.tshape, MeshCells(k, member.desc.cshape)) && tiled.view == "table"
  }

  /** The walk from the `i`-th key stops at key `j`: that member already has
      the master tshape and every member before it, from `i` on, is short. */
  ghost predicate StopsAt(c: Containers.Container, keys: seq<string>, i: nat, j: nat) {
    && c.master.Some?
    && i <= j < |keys|
    && keys[j] in c.members.vals
    && c.members.vals[keys[j]].desc.tshape == c.master.value.tshape
    && forall j' :: i <= j' < j ==>
         keys[j'] in c.members.vals && c.members.vals[keys[j']].desc.tshape != c.master.value.tshape
  }

  lemma {:induction false} MeshFromFills(k: Tiling, c: Containers.Container, keys: seq<string>, i: nat, acc: seq<TablArray>)
    requires Containers.Valid(c) && c.master.Some?
    requires i <= |keys| && |acc| == i
    requires forall j :: 0 <= j < |keys| ==> keys[j] in c.members.vals
    requires forall j :: 0 <= j < i ==> Meshes(k, c.master.value, c.members.vals[keys[j]], acc[j])
    requires forall j :: 0 <= j < i ==> c.members.vals[keys[j]].desc.tshape != c.master.value.tshape
    ensures var r := MeshFrom(k, c, keys, i, acc);
            && r.Ok?
            && (r.value.Tuple? ==> forall j :: 0 <= j < |keys| ==> Meshes(k, c.master.value, c.members.vals[keys[j]], r.value.ts[j]))
            && (r.value.Lone? ==> r.value.t.desc.tshape == c.master.value.tshape)
            && (r.value.Lone? && i == |keys| ==> Meshes(k, c.master.value, c.members.vals[keys[0]], r.value.t))
    decreases |keys| - i
  {
    if i < |keys| && c.members.vals[keys[i]].desc.tshape != c.master.value.tshape {
      var tiled := MeshStep(k, c, keys, i, acc);
      MeshesExtend(k, c, keys, i, acc, tiled);
      MeshFromFills(k, c, keys, i + 1, acc + [tiled]);
    }
  }

  /** A single TablArray from the walk is the untiled member of the key where
      it stops, or, when one key was asked for, that key's meshed tile. */
  lemma {:induction false} MeshFromLone(k: Tiling, c: Containers.Container, keys: seq<string>, i: nat, acc: seq<TablArray>)
    requires Containers.Valid(c) && c.master.Some?
    requires i <= |keys| && |acc| == i
    requires forall j :: 0 <= j < |keys| ==> keys[j] in c.members.vals
    requires forall j :: 0 <= j < i ==> Meshes(k, c.master.value, c.members.vals[keys[j]], acc[j])
    requires forall j :: 0 <= j < i ==> c.members.vals[keys[j]].desc.tshape != c.master.value.tshape
    ensures var r := MeshFrom(k, c, keys, i, acc);
            r.Ok? && r.value.Lone? ==>
              (exists j: nat :: StopsAt(c, keys, i, j) && r.value.t == c.members.vals[keys[j]])
              || (|keys| == 1 && c.members.vals[keys[0]].desc.tshape != c.master.value.tshape
                  && Meshes(k, c.master.value, c.members.vals[keys[0]], r.value.t))
    decreases |keys| - i
  {
    if i < |keys| && c.members.vals[keys[i]].desc.tshape != c.master.value.tshape {
      var tiled := MeshStep(k, c, keys, i, acc);
      MeshesExtend(k, c, keys, i, acc, tiled);
      MeshFromLone(k, c, keys, i + 1, acc + [tiled]);
      var r := MeshFrom(k, c, keys, i + 1, acc + [tiled]);
      if r.Ok? && r.value.Lone? && exists j: nat :: StopsAt(c, keys, i + 1, j) && r.value.t == c.members.vals[keys[j]] {
        var j: nat :| StopsAt(c, keys, i + 1, j) && r.value.t == c.members.vals[keys[j]];
        assert StopsAt(c, keys, i, j);
      }
    } else if i < |keys| {
      assert StopsAt(c, keys, i, i);
    }
  }

  /** One step of `meshtile` on a member short of the master: its tile is
      meshed and the walk goes on with it. */
  lemma {:induction false} MeshStep(k: Tiling, c: Containers.Container, keys: seq<string>, i: nat, acc: seq<TablArray>) returns (tiled: TablArray)
    requires Containers.Valid(c) && c.master.Some?
    requires i < |keys| && |acc| == i && keys[i] in c.members.vals
    requires c.members.vals[keys[i]].desc.tshape != c.master.value.tshape
    ensures MeshFrom(k, c, keys, i, acc) == MeshFrom(k, c, keys, i + 1, acc + [tiled])
    ensures Meshes(k, c.master.value, c.members.vals[keys[i]], tiled)
  {
    var m := c.master.value;
    var member := c.members.vals[keys[i]];
    assert Fits(member.desc, m);
    MeshTileShape(k, m.tshape, member);
    var reps := MeshReps(m.tshape, member.desc.tshape).value;
    tiled := TileWith(k, TaOp(Relabel(member, "table")), reps).value.ta;
  }

  lemma {:induction false} MeshesExtend(k: Tiling, c: Containers.Container, keys: seq<string>, i: nat, acc: seq<TablArray>, tiled: TablArray)
    requires c.master.Some? && i < |keys| && |acc| == i
    requires forall j :: 0 <= j < |keys| ==> keys[j] in c.members.vals
    requires forall j :: 0 <= j < i ==> Meshes(k, c.master.value, c.members.vals[keys[j]], acc[j])
    requires Meshes(k, c.master.value, c.members.vals[keys[i]], tiled)
    ensures forall j :: 0 <= j < i + 1 ==> Meshes(k, c.master.value, c.members.vals[keys[j]], (acc + [tiled])[j])
  {
  }

  /** Every TablArray `meshtile` returns for the keys of a valid container has
      the master's tabular shape, and each tile has every cellular axis of its
      member squared. A single TablArray is either the untiled member at which
      the walk stops, or the tile of the one key asked for. */
  lemma {:induction false} MeshTileFills(c: Containers.Container, keys: seq<string>)
    requires Containers.Valid(c) && c.master.Some?
    requires forall j :: 0 <= j < |keys| ==> keys[j] in c.members.vals
    ensures MeshTile(c, keys).Ok?
    ensures MeshTile(c, keys).value.Tuple? ==>
              forall j :: 0 <= j < |keys| ==>
                MeshTile(c, keys).value.ts[j].desc
                == Descriptor(c.master.value.tshape, Reshaping.Times(c.members.vals[keys[j]].desc.cshape, c.members.vals[keys[j]].desc.cshape))
    ensures MeshTile(c, keys).value.Lone? ==> MeshTile(c, keys).value.t.desc.tshape == c.master.value.tshape
    ensures MeshTile(c, keys).value.Lone? ==>
              (exists j: nat :: StopsAt(c, keys, 0, j) && MeshTile(c, keys).value.t == c.members.vals[keys[j]])
              || (|keys| == 1 && c.members.vals[keys[0]].desc.tshape != c.master.value.tshape
                  && MeshTile(c, keys).value.t
                     == TablArray(Descriptor(c.master.value.tshape, Reshaping.Times(c.members.vals[keys[0]].desc.cshape, c.members.vals[keys[0]].desc.cshape)), "table"))
  {
    MeshFromFills(AsWritten, c, keys, 0, []);
    MeshFromLone(AsWritten, c, keys, 0, []);
  }

  /** With the corrected tile every returned TablArray has the master's
      tabular shape, and each tile keeps its member's cellular shape. A single
      TablArray is either the untiled member at which the walk stops, or the
      tile of the one key asked for. */
  lemma {:induction false} MeshTileIntendedFills(c: Containers.Container, keys: seq<string>)
    requires Containers.Valid(c) && c.master.Some?
    requires forall j :: 0 <= j < |keys| ==> keys[j] in c.members.vals
    ensures MeshTileIntended(c, keys).Ok?
    ensures MeshTileIntended(c, keys).value.Tuple? ==>
              forall j :: 0 <= j < |keys| ==>
                MeshTileIntended(c, keys).value.ts[j].desc == Descriptor(c.master.value.tshape, c.members.vals[keys[j]].desc.cshape)
    ensures MeshTileIntended(c, keys).value.Lone? ==> MeshTileIntended(c, keys).value.t.desc.tshape == c.master.value.tshape
    ensures MeshTileIntended(c, keys).value.Lone? ==>
              (exists j: nat :: StopsAt(c, keys, 0, j) && MeshTileIntended(c, keys).value.t == c.members.vals[keys[j]])
              || (|keys| == 1 && c.members.vals[keys[0]].desc.tshape != c.master.value.tshape
                  && MeshTileIntended(c, keys).value.t
                     == TablArray(Descriptor(c.master.value.tshape, c.members.vals[keys[0]].desc.cshape), "table"))
  {
    MeshFromFills(Intended, c, keys, 0, []);
    MeshFromLone(Intended, c, keys, 0, []);
  }

  /** The first key whose member already has the master tshape ends `meshtile`:
      that member comes back untiled, even when more keys were asked for. */
  lemma {:induction false} MeshTileStopsAtFull(k: Tiling, c: Containers.Container, keys: seq<string>, i: nat, acc: seq<TablArray>, j: nat)
    requires Containers.Valid(c) && c.master.Some?
    requires i <= j < |keys| && |acc| == i
    requires forall k' :: i <= k' <= j ==> keys[k'] in c.members.vals
    requires forall k' :: i <= k' < j ==> c.members.vals[keys[k']].desc.tshape != c.master.value.tshape
    requires c.members.vals[keys[j]].desc.tshape == c.master.value.tshape
    ensures MeshFrom(k, c, keys, i, acc) == Ok(Lone(c.members.vals[keys[j]]))
    decreases j - i
  {
    if i < j {
      var tiled := MeshStep(k, c, keys, i, acc);
      MeshTileStopsAtFull(k, c, keys, i + 1, acc + [tiled], j);
    }
  }

  /** A member of tshape (2) and cshape (2) under a master of tshape (3, 2)
      meshes, as written, to tshape (3, 2) and cshape (4); the corrected tile
      gives cshape (2). */
  lemma {:induction false} MeshTileExample(c: Containers.Container)
    requires c.master == Some(Descriptor([3, 2], [2]))
    requires Get(c.members, "b") == Ok(TablArray(Descriptor([2], [2]), "bcast"))
    ensures MeshTile(c, ["b"]) == Ok(Lone(TablArray(Descriptor([3, 2], [4]), "table")))
    ensures MeshTileIntended(c, ["b"]) == Ok(Lone(TablArray(Descriptor([3, 2], [2]), "table")))
  {
    var b := TablArray(Descriptor([2], [2]), "bcast");
    assert FitsShape([2], [3, 2]) by {
      assert FromRight([2], 0) == FromRight([3, 2], 0);
    }
    MeshTileShape(AsWritten, [3, 2], b);
    MeshTileShape(Intended, [3, 2], b);
    assert Reshaping.Times([2], [2]) == [4];
  }

  // ---------------------------------------------------------------- _survey_view

  /** The tags in the order `_survey_view` indexes its counts. */
  const SurveyOrder: seq<string> := ["table", "bcast", "cell", "array"]

  /** How many of the values are TablArrays tagged `tag`. */
  function Occurrences(vals: seq<Value>, tag: string): nat {
    if |vals| == 0 then 0
    else Occurrences(vals[..|vals| - 1], tag)
         + (if vals[|vals| - 1].Tab? && vals[|vals| - 1].ta.view == tag then 1 else 0)
  }

  /** Every TablArray among the values carries one of the four tags (otherwise
      the count lookup raises KeyError). */
  ghost predicate AllTagged(vals: seq<Value>) {
    forall i :: 0 <= i < |vals| && vals[i].Tab? ==> vals[i].ta.view in SurveyOrder
  }

  /** `_survey_view(args, kwargs)` (with the keyword arguments' values in
      order): the counts of the four tags among the TablArrays, then the tag
      at the last position of the counts' argsort.  Ties are resolved towards
      the later tag here; the returned tag always has a maximal count. */
  method SurveyView(args: seq<Value>, kwargs: seq<Value>) returns (r: Result<string>)
    ensures r.Ok? <==> AllTagged(args + kwargs)
    ensures r.Err? ==> r.error == KeyError
    ensures r.Ok? ==> r.value in SurveyOrder
    ensures r.Ok? ==> forall j :: 0 <= j < 4 ==>
              Occurrences(args + kwargs, r.value) >= Occurrences(args + kwargs, SurveyOrder[j])
  {
    var vals := args + kwargs;
    var counts: seq<nat> := [0, 0, 0, 0];
    var n := 0;
    while n < |vals|
      invariant 0 <= n <= |vals|
      invariant |counts| == 4
      invariant AllTagged(vals[..n])
      invariant forall j :: 0 <= j < 4 ==> counts[j] == Occurrences(vals[..n], SurveyOrder[j])
    {
      assert vals[..n + 1][..n] == vals[..n];
      var v := vals[n];
      if v.Tab? {
        var j := IndexOfTag(v.ta.view);
        if j < 0 {
          assert !AllTagged(vals) by {
            assert vals[n].Tab? && vals[n].ta.view !in SurveyOrder;
          }
          return Err(KeyError);
        }
        counts := counts[j := counts[j] + 1];
      }
      n := n + 1;
    }
    assert vals[..n] == vals;
    var best := 0;
    var k := 1;
    while k < 4
      invariant 1 <= k <= 4 && 0 <= best < k
      invariant forall j :: 0 <= j < k ==> counts[best] >= counts[j]
    {
      if counts[k] >= counts[best] {
        best := k;
      }
      k := k + 1;
    }
    r := Ok(SurveyOrder[best]);
  }

  /** The position of a tag in `SurveyOrder`, or -1. */
  function IndexOfTag(tag: string): (j: int)
    ensures -1 <= j < 4
    ensures j >= 0 ==> SurveyOrder[j] == tag
    ensures j < 0 ==> tag !in SurveyOrder
  {
    if tag == "table" then 0
    else if tag == "bcast" then 1
    else if tag == "cell" then 2
    else if tag == "array" then 3
    else -1
  }
}

=== FILE: tablestr.dfy ===
/** The older tabular printer of `tablestr.py`.  A dict of equally long
    columns prints as a header line, an underline, then one block of lines per
    row: the row number on the block's first line, and every cell split at its
    newlines, one cell line per printed line.  The renderings of the values
    themselves (`'%d'`, `'%0.4g'`, `'%s'`) are carried as text. */
module TableStr {
  import opened Common
  import opened Text
  import opened OrderedMaps

  // ------------------------------------------------------------ TableCell

  /** The lines of a rendered cell (`self._str.split('\n')`). */
  function CellLines(text: string): seq<string> {
    Split(text, "\n")
  }

  /** `TableCell.nlines`: one more than the number of newlines. */
  function NLines(text: string): (r: nat)
    ensures r == Count(text, '\n') + 1
    ensures r == |CellLines(text)|
  {
    SplitCount(text, '\n');
    |CellLines(text)|
  }

  /** `TableCell.width`: the longest line, but never less than six. */
  function CellWidth(text: string): (r: nat)
    ensures r >= 6
    ensures forall l :: 0 <= l < |CellLines(text)| ==> |CellLines(text)[l]| <= r
    ensures r == 6 || exists l :: 0 <= l < |CellLines(text)| && |CellLines(text)[l]| == r
  {
    Max(6, MaxLen(CellLines(text)))
  }

  /** `TableCell.str_cell(line)`: line `line` of the cell, '' past its end. */
  function StrCell(text: string, line: nat): (r: string)
    ensures line < NLines(text) ==> r == CellLines(text)[line]
    ensures line >= NLines(text) ==> r == ""
    ensures '\n' !in r
    ensures |r| <= CellWidth(text)
  {
    var lines := CellLines(text);
    SplitPiecesFree(text, '\n');
    if line < |lines| then lines[line] else ""
  }

  /** The cell's lines, joined back with newlines, are the cell's text. */
  lemma {:induction false} StrCellRebuild(text: string)
    ensures Join(seq(NLines(text), l requires 0 <= l => StrCell(text, l)), "\n") == text
  {
    assert seq(NLines(text), l requires 0 <= l => StrCell(text, l)) == CellLines(text);
    JoinSplit(text, "\n");
  }

  // ------------------------------------------------------------ the table

  /** A rendering by `TableCell._str_cell0`: the text, or `None` when the
      `%`-formatting raises TypeError (`'%0.4g'` applied to a string, which
      numpy counts as a scalar, or `'%s'` applied to a tuple). */
  type Rendering = Option<string>

  /** What `value[line]` does to a value that is not a numpy array: a sequence
      (list, tuple, str) gives its items, a Python number is not subscriptable
      (TypeError), and a numpy scalar refuses the index (IndexError). */
  datatype Indexing = Items(items: seq<Rendering>) | NotSubscriptable | NumpyScalar

  /** What the printer needs of a stored value: a non-array object (of shape
      `()`) by its rendering and its indexing, a zero-dimensional array by its
      rendering, and an array of positive rank by its rendering and the
      renderings of `value[i]` along its first axis. */
  datatype Val =
    | Obj(text: Rendering, index: Indexing)
    | Array0(shown: string)
    | Array(shown: string, rows: seq<Rendering>)

  /** The value rendered whole: arrays always render with `'%s'`. */
  function Render(v: Val): Rendering {
    match v
    case Obj(text, _) => text
    case Array0(s) => Some(s)
    case Array(s, _) => Some(s)
  }

  /** `_isscalar` and `_length`. */
  datatype Layout = Layout(isscalar: bool, length: nat)

  /** `__attrs_post_init__`: the first value decides.  A value of shape `()`
      makes a one-row scalar table, an array gives its length; an empty dict
      fails with an IndexError when its first key is taken. */
  function Detect(t: OMap<string, Val>): (r: Result<Layout>)
    requires t.Valid()
    ensures r.Err? <==> |t.keys| == 0
    ensures r.Err? ==> r.error == IndexError
    ensures r.Ok? ==> (r.value.isscalar <==> !t.vals[t.keys[0]].Array?)
    ensures r.Ok? ==> r.value.length == if r.value.isscalar then 1 else |t.vals[t.keys[0]].rows|
  {
    if |t.keys| == 0 then Err(IndexError)
    else
      var v := t.vals[t.keys[0]];
      match v
      case Array(_, rows) => Ok(Layout(false, |rows|))
      case _ => Ok(Layout(true, 1))
  }

  /** `get_header`: without a key filter every key in order and nothing
      reported as excluded; with one, the requested keys the table has, in
      request order, and an (always empty) excluded list. */
  function GetHeader(t: OMap<string, Val>, headerkeys: Option<seq<string>>): (r: (seq<string>, Option<seq<string>>))
    ensures headerkeys.None? ==> r == (t.keys, None)
    ensures headerkeys.Some? ==> r.1 == Some([])
    ensures headerkeys.Some? ==> forall k :: k in r.0 <==> k in headerkeys.value && k in t.vals
  {
    match headerkeys
    case None => (t.keys, None)
    case Some(ks) =>
      var header := Keep(ks, k => k in t.vals);
      forall k | k in ks && k in t.vals ensures k in header {
        KeepCounts(ks, k => k in t.vals, k);
      }
      (header, Some([]))
  }

  /** How often each key occurs among the kept ones: as often as requested
      when the table has it, never otherwise. */
  lemma {:induction false} KeepCounts(xs: seq<string>, p: string -> bool, x: string)
    ensures multiset(Keep(xs, p))[x] == if p(x) then multiset(xs)[x] else 0
    decreases |xs|
  {
    if |xs| > 0 {
      var init := xs[..|xs| - 1];
      KeepCounts(init, p, x);
      assert xs == init + [xs[|xs| - 1]];
    }
  }

  /** Filtering the concatenation of two requests is filtering each in turn. */
  lemma {:induction false} KeepAppend(a: seq<string>, b: seq<string>, p: string -> bool)
    ensures Keep(a + b, p) == Keep(a, p) + Keep(b, p)
    decreases |b|
  {
    if |b| > 0 {
      var b0 := b[..|b| - 1];
      KeepAppend(a, b0, p);
      assert a + b == (a + b0) + [b[|b| - 1]];
    } else {
      assert a + b == a;
    }
  }

  /** The filtered header keeps request order and multiplicity: splitting the
      request splits the header, each table key appears as often as it was
      requested, and no other key appears. */
  lemma {:induction false} HeaderInRequestOrder(t: OMap<string, Val>, a: seq<string>, b: seq<string>, k: string)
    ensures GetHeader(t, Some(a + b)).0 == GetHeader(t, Some(a)).0 + GetHeader(t, Some(b)).0
    ensures GetHeader(t, Some([k])).0 == if k in t.vals then [k] else []
    ensures multiset(GetHeader(t, Some(a)).0)[k] == if k in t.vals then multiset(a)[k] else 0
  {
    KeepAppend(a, b, k => k in t.vals);
    KeepCounts(a, k => k in t.vals, k);
    assert Keep([k], k => k in t.vals) == Keep([], k => k in t.vals) + (if k in t.vals then [k] else []);
  }

  /** Whether `value[line]` exists: a row of an array, or an item of a
      sequence. */
  predicate Indexes(v: Val, line: nat) {
    || (v.Array? && line < |v.rows|)
    || (v.Obj? && v.index.Items? && line < |v.index.items|)
  }

  /** `get_row(header, line)` for one column: the whole value when the table
      is scalar, otherwise `value[line]`.  Indexing past the end of an array
      or a sequence, a zero-dimensional array or a numpy scalar is an
      IndexError; indexing a Python number a TypeError. */
  function Pick(v: Val, isscalar: bool, line: nat): (r: Result<Rendering>)
    ensures isscalar ==> r == Ok(Render(v))
    ensures !isscalar ==> (r.Ok? <==> Indexes(v, line))
    ensures !isscalar && r.Ok? ==> r.value == if v.Array? then v.rows[line] else v.index.items[line]
    ensures r.Err? ==> r.error == (if v.Obj? && v.index.NotSubscriptable? then TypeError else IndexError)
  {
    if isscalar then Ok(Render(v))
    else
      match v
      case Obj(_, Items(items)) => if line < |items| then Ok(items[line]) else Err(IndexError)
      case Obj(_, NotSubscriptable) => Err(TypeError)
      case Obj(_, NumpyScalar) => Err(IndexError)
      case Array0(_) => Err(IndexError)
      case Array(_, rows) => if line < |rows| then Ok(rows[line]) else Err(IndexError)
  }

  /** The value of column `key` at `line`, as `get_row` picks it. */
  function Picked(t: OMap<string, Val>, key: string, isscalar: bool, line: nat): Result<Rendering> {
    match Get(t, key)
    case Err(e) => Err(e)
    case Ok(v) => Pick(v, isscalar, line)
  }

  /** The cell at column `key` and `line`, picked and rendered: the picking
      error, or the TypeError of a rendering that fails. */
  function CellAt(t: OMap<string, Val>, key: string, isscalar: bool, line: nat): (r: Result<string>)
    ensures Picked(t, key, isscalar, line).Err? ==> r == Err(Picked(t, key, isscalar, line).error)
    ensures Picked(t, key, isscalar, line).Ok? ==>
              r == match Picked(t, key, isscalar, line).value
                   case Some(s) => Ok(s)
                   case None => Err(TypeError)
  {
    match Picked(t, key, isscalar, line)
    case Err(e) => Err(e)
    case Ok(None) => Err(TypeError)
    case Ok(Some(s)) => Ok(s)
  }

  /** `get_row(header, line)`: one picked value per header key, the first
      failing column raising. */
  function GetRow(t: OMap<string, Val>, isscalar: bool, header: seq<string>, line: nat): (r: Result<seq<Rendering>>)
    ensures r.Ok? <==> forall j :: 0 <= j < |header| ==> Picked(t, header[j], isscalar, line).Ok?
    ensures r.Ok? ==> |r.value| == |header|
    ensures r.Ok? ==> forall j :: 0 <= j < |header| ==> r.value[j] == Picked(t, header[j], isscalar, line).value
    ensures r.Err? ==> exists j :: 0 <= j < |header| && Picked(t, header[j], isscalar, line) == Err(r.error)
                                   && forall j' :: 0 <= j' < j ==> Picked(t, header[j'], isscalar, line).Ok?
  {
    var cells := seq(|header|, j requires 0 <= j < |header| => Picked(t, header[j], isscalar, line));
    assert forall j :: 0 <= j < |header| ==> cells[j] == Picked(t, header[j], isscalar, line);
    Collect(cells)
  }

  /** The rendered cells of a row: `get_row` first, so any column's picking
      error comes before any rendering error; then `TableCell` on each cell
      in header order, a failing rendering raising TypeError. */
  function RowCells(t: OMap<string, Val>, isscalar: bool, header: seq<string>, line: nat): (r: Result<seq<string>>)
    ensures GetRow(t, isscalar, header, line).Err? ==> r == Err(GetRow(t, isscalar, header, line).error)
    ensures GetRow(t, isscalar, header, line).Ok? && r.Err? ==> r.error == TypeError
    ensures r.Ok? <==> forall j :: 0 <= j < |header| ==> CellAt(t, header[j], isscalar, line).Ok?
    ensures r.Ok? ==> |r.value| == |header|
    ensures r.Ok? ==> forall j :: 0 <= j < |header| ==> r.value[j] == CellAt(t, header[j], isscalar, line).value
    ensures r.Err? ==> exists j :: 0 <= j < |header| && CellAt(t, header[j], isscalar, line) == Err(r.error)
  {
    match GetRow(t, isscalar, header, line)
    case Err(e) =>
      ghost var j :| 0 <= j < |header| && Picked(t, header[j], isscalar, line) == Err(e);
      assert CellAt(t, header[j], isscalar, line) == Err(e);
      Err(e)
    case Ok(picked) =>
      var rendered := seq(|picked|, j requires 0 <= j < |picked| =>
                          match picked[j] case Some(s) => Ok(s) case None => Err(TypeError));
      assert forall j :: 0 <= j < |header| ==> rendered[j] == CellAt(t, header[j], isscalar, line);
      Collect(rendered)
  }

  /** A list column of a table laid out by an array prints its items row by
      row; a numpy-scalar column raises IndexError, a Python-number column
      TypeError, and a string value of a scalar table fails its `'%0.4g'`
      rendering with TypeError. */
  lemma {:induction false} PickExamples()
    ensures Pick(Obj(Some("[10, 20, 30]"), Items([Some("10"), Some("20"), Some("30")])), false, 1) == Ok(Some("20"))
    ensures Pick(Obj(Some("7"), NumpyScalar), false, 1) == Err(IndexError)
    ensures Pick(Obj(Some("7"), NotSubscriptable), false, 1) == Err(TypeError)
    ensures Pick(Obj(None, Items([Some("b")])), true, 0) == Ok(None)
  {
  }

  // ------------------------------------------------------------ get_format

  /** Rows scanned for the layout: `min(20, length)`. */
  function ScanCount(length: nat): (r: nat)
    ensures r <= 20 && r <= length
    ensures r == 20 || r == length
  {
    if length < 20 then length else 20
  }

  /** The first `ScanCount(length)` rows, the first failing one raising. */
  function Scan(t: OMap<string, Val>, layout: Layout, header: seq<string>): (r: Result<seq<seq<string>>>)
    ensures r.Ok? ==> |r.value| == ScanCount(layout.length)
    ensures r.Ok? ==> forall i :: 0 <= i < |r.value| ==> RowCells(t, layout.isscalar, header, i) == Ok(r.value[i])
    ensures r.Ok? ==> forall i :: 0 <= i < |r.value| ==> |r.value[i]| == |header|
    ensures r.Err? ==> exists i :: 0 <= i < ScanCount(layout.length) && RowCells(t, layout.isscalar, header, i) == Err(r.error)
  {
    var n := ScanCount(layout.length);
    var rows := seq(n, i requires 0 <= i < n => RowCells(t, layout.isscalar, header, i));
    assert forall i :: 0 <= i < n ==> rows[i] == RowCells(t, layout.isscalar, header, i);
    Collect(rows)
  }

  /** `widths.max(axis=0)[j]`: the widest cell of column `j` (0 for no rows). */
  function ColumnWidth(rows: seq<seq<string>>, j: nat): (r: nat)
    requires forall i :: 0 <= i < |rows| ==> j < |rows[i]|
    ensures forall i :: 0 <= i < |rows| ==> CellWidth(rows[i][j]) <= r
    ensures |rows| > 0 ==> exists i :: 0 <= i < |rows| && CellWidth(rows[i][j]) == r
    decreases |rows|
  {
    if |rows| == 0 then 0
    else
      var rest := ColumnWidth(rows[1..], j);
      assert forall i :: 1 <= i < |rows| ==> rows[i] == rows[1..][i - 1];
      Max(CellWidth(rows[0][j]), rest)
  }

  /** The widest cell of each of the first `ncol` columns. */
  function ColumnWidths(rows: seq<seq<string>>, ncol: nat): (r: seq<nat>)
    requires forall i :: 0 <= i < |rows| ==> |rows[i]| == ncol
    ensures |r| == ncol && forall j :: 0 <= j < ncol ==> r[j] == ColumnWidth(rows, j)
  {
    seq(ncol, j requires 0 <= j < ncol => ColumnWidth(rows, j))
  }

  /** The tallest cell of one row (0 for none). */
  function TallestIn(row: seq<string>): (r: nat)
    ensures forall j :: 0 <= j < |row| ==> NLines(row[j]) <= r
    ensures |row| > 0 ==> exists j :: 0 <= j < |row| && NLines(row[j]) == r
    decreases |row|
  {
    if |row| == 0 then 0
    else
      var rest := TallestIn(row[1..]);
      assert forall j :: 1 <= j < |row| ==> row[j] == row[1..][j - 1];
      Max(NLines(row[0]), rest)
  }

  /** `nlines.max()`: the tallest cell of the scanned rows. */
  function Tallest(rows: seq<seq<string>>): (r: nat)
    ensures forall i :: 0 <= i < |rows| ==> TallestIn(rows[i]) <= r
    ensures |rows| > 0 ==> exists i :: 0 <= i < |rows| && TallestIn(rows[i]) == r
    decreases |rows|
  {
    if |rows| == 0 then 0
    else
      var rest := Tallest(rows[1..]);
      assert forall i :: 1 <= i < |rows| ==> rows[i] == rows[1..][i - 1];
      Max(TallestIn(rows[0]), rest)
  }

  /** Column widths and the number of lines every row prints. */
  datatype Format = Format(widths: seq<nat>, nline: nat)

  /** `get_format`: scan the first rows (any failing row raising), then take
      column-wise maxima of the cell widths and the overall maximum of the
      line counts; numpy refuses both maxima over an empty scan (no rows, or
      no columns) with a ValueError. */
  function GetFormat(t: OMap<string, Val>, layout: Layout, header: seq<string>): (r: Result<Format>)
    ensures Scan(t, layout, header).Err? ==> r == Err(Scan(t, layout, header).error)
    ensures Scan(t, layout, header).Ok? && (ScanCount(layout.length) == 0 || |header| == 0) ==> r == Err(ValueError)
    ensures r.Ok? ==> Scan(t, layout, header).Ok? && ScanCount(layout.length) > 0 && |header| > 0
    ensures r.Ok? ==> |r.value.widths| == |header| && r.value.nline >= 1
  {
    match Scan(t, layout, header)
    case Err(e) => Err(e)
    case Ok(rows) =>
      if |rows| == 0 || |header| == 0 then Err(ValueError)
      else
        assert NLines(rows[0][0]) <= TallestIn(rows[0]) <= Tallest(rows);
        Ok(Format(ColumnWidths(rows, |header|), Tallest(rows)))
  }

  /** Scanned row `i` holds, in column `j`, the cell the table has there. */
  lemma {:induction false} ScannedCell(t: OMap<string, Val>, layout: Layout, header: seq<string>, i: nat, j: nat)
    requires Scan(t, layout, header).Ok? && i < ScanCount(layout.length) && j < |header|
    ensures |Scan(t, layout, header).value[i]| == |header|
    ensures CellAt(t, header[j], layout.isscalar, i).Ok?
    ensures Scan(t, layout, header).value[i][j] == CellAt(t, header[j], layout.isscalar, i).value
  {
    assert RowCells(t, layout.isscalar, header, i) == Ok(Scan(t, layout, header).value[i]);
  }

  /** A successful format is read off the scanned rows: column `j` gets
      `ColumnWidth(rows, j)` and the line count is `Tallest(rows)`. */
  lemma {:induction false} FormatFromScan(t: OMap<string, Val>, layout: Layout, header: seq<string>, f: Format) returns (rows: seq<seq<string>>)
    requires GetFormat(t, layout, header) == Ok(f)
    ensures Scan(t, layout, header) == Ok(rows)
    ensures |rows| == ScanCount(layout.length) && |rows| > 0 && |f.widths| == |header|
    ensures forall i :: 0 <= i < |rows| ==> |rows[i]| == |header|
    ensures forall j :: 0 <= j < |header| ==> f.widths[j] == ColumnWidth(rows, j)
    ensures f.nline == Tallest(rows)
  {
    rows := Scan(t, layout, header).value;
  }

  /** Every scanned cell fits its column's width and the line count. */
  lemma {:induction false} ScannedCellFits(t: OMap<string, Val>, layout: Layout, header: seq<string>, i: nat, j: nat)
    requires GetFormat(t, layout, header).Ok? && i < ScanCount(layout.length) && j < |header|
    ensures CellAt(t, header[j], layout.isscalar, i).Ok?
    ensures CellWidth(CellAt(t, header[j], layout.isscalar, i).value) <= GetFormat(t, layout, header).value.widths[j]
    ensures NLines(CellAt(t, header[j], layout.isscalar, i).value) <= GetFormat(t, layout, header).value.nline
  {
    var f := GetFormat(t, layout, header).value;
    var rows := FormatFromScan(t, layout, header, f);
    ScannedCell(t, layout, header, i, j);
    CellInScan(rows, i, j);
  }

  /** A cell of the scanned rows is no wider than its column's maximum and no
      taller than the tallest cell. */
  lemma {:induction false} CellInScan(rows: seq<seq<string>>, i: nat, j: nat)
    requires forall i' :: 0 <= i' < |rows| ==> j < |rows[i']|
    requires i < |rows|
    ensures CellWidth(rows[i][j]) <= ColumnWidth(rows, j)
    ensures NLines(rows[i][j]) <= Tallest(rows)
  {
    assert NLines(rows[i][j]) <= TallestIn(rows[i]);
  }

  /** The widths are the column-wise maxima over the scanned rows only, and
      the line count the tallest scanned cell: each is reached by a scanned
      cell (and every scanned cell fits, by `ScannedCellFits`). */
  lemma {:induction false} FormatIsScanMaximum(t: OMap<string, Val>, layout: Layout, header: seq<string>, j: nat)
    requires GetFormat(t, layout, header).Ok? && j < |header|
    ensures exists i :: 0 <= i < ScanCount(layout.length) &&
              CellAt(t, header[j], layout.isscalar, i).Ok? &&
              CellWidth(CellAt(t, header[j], layout.isscalar, i).value) == GetFormat(t, layout, header).value.widths[j]
    ensures exists i, j' :: 0 <= i < ScanCount(layout.length) && 0 <= j' < |header| &&
              CellAt(t, header[j'], layout.isscalar, i).Ok? &&
              NLines(CellAt(t, header[j'], layout.isscalar, i).value) == GetFormat(t, layout, header).value.nline
  {
    var f := GetFormat(t, layout, header).value;
    var rows := FormatFromScan(t, layout, header, f);
    var i, i2, j2 := ScanMaxima(rows, j);
    ScannedCell(t, layout, header, i, j);
    ScannedCell(t, layout, header, i2, j2);
  }

  /** The cells that reach a column's maximum width and the tallest cell. */
  lemma {:induction false} ScanMaxima(rows: seq<seq<string>>, j: nat) returns (i: nat, i2: nat, j2: nat)
    requires forall i' :: 0 <= i' < |rows| ==> j < |rows[i']|
    requires |rows| > 0
    ensures i < |rows| && CellWidth(rows[i][j]) == ColumnWidth(rows, j)
    ensures i2 < |rows| && j2 < |rows[i2]| && NLines(rows[i2][j2]) == Tallest(rows)
  {
    i :| 0 <= i < |rows| && CellWidth(rows[i][j]) == ColumnWidth(rows, j);
    i2 :| 0 <= i2 < |rows| && TallestIn(rows[i2]) == Tallest(rows);
    j2 :| 0 <= j2 < |rows[i2]| && NLines(rows[i2][j2]) == TallestIn(rows[i2]);
  }

  // ------------------------------------------------------------ str.format

  /** `'{:<5}'.format(s)`: left-aligned in at least five characters. */
  function Left5(s: string): (r: string)
    ensures |r| == Max(5, |s|)
    ensures r[..|s|] == s
    ensures forall i :: |s| <= i < |r| ==> r[i] == ' '
  {
    s + Spaces(5 - |s|)
  }

  /** Padding `'{:^w}'` adds around `s`. */
  function Pad(s: string, w: nat): nat {
    if |s| < w then w - |s| else 0
  }

  /** `'{:^w}'.format(s)`: centred in at least `w` characters, an odd space
      going to the right; `s` sits at `Pad(s, w) / 2` and is recovered from
      there. */
  function Centre(s: string, w: nat): (r: string)
    ensures |r| == Max(w, |s|)
    ensures r[Pad(s, w) / 2 .. Pad(s, w) / 2 + |s|] == s
    ensures forall i :: 0 <= i < |r| && !(Pad(s, w) / 2 <= i < Pad(s, w) / 2 + |s|) ==> r[i] == ' '
    ensures Pad(s, w) / 2 <= |r| - (Pad(s, w) / 2 + |s|) <= Pad(s, w) / 2 + 1
  {
    var left := Pad(s, w) / 2;
    Spaces(left) + s + Spaces(Pad(s, w) - left)
  }

  /** One column of `my_format`, `'|{:^w}'`: a bar, then the cell centred. */
  function Column(cell: string, w: nat): (r: string)
    ensures |r| == 1 + Max(w, |cell|)
    ensures r[0] == '|' && r[1..] == Centre(cell, w)
  {
    "|" + Centre(cell, w)
  }

  /** The columns of `my_format`, one per width. */
  function Columns(cells: seq<string>, widths: seq<nat>): string
    requires |cells| == |widths|
  {
    if |cells| == 0 then "" else Column(cells[0], widths[0]) + Columns(cells[1..], widths[1..])
  }

  /** `my_format.format(*fields)`: the row label left-aligned (absent for a
      scalar table), then the columns. */
  function FormatLine(lead: Option<string>, cells: seq<string>, widths: seq<nat>): string
    requires |cells| == |widths|
  {
    (if lead.Some? then Left5(lead.value) else "") + Columns(cells, widths)
  }

  /** Every cell no wider than its column. */
  predicate Fit(cells: seq<string>, widths: seq<nat>) {
    |cells| == |widths| && forall j :: 0 <= j < |cells| ==> |cells[j]| <= widths[j]
  }

  /** Where column `j` starts: after a bar and the width of each column
      before it. */
  function ColumnStart(widths: seq<nat>, j: nat): nat
    requires j <= |widths|
  {
    Sum(widths[..j]) + j
  }

  /** Where column `j` ends: after its own bar and width. */
  function ColumnEnd(widths: seq<nat>, j: nat): nat
    requires j < |widths|
  {
    ColumnStart(widths, j) + 1 + widths[j]
  }

  /** With every cell fitting its column, the columns take one bar plus the
      width per column, and column `j` spans `ColumnStart..ColumnEnd`: a bar
      followed by the cell centred in its width. */
  lemma {:induction false} ColumnAt(cells: seq<string>, widths: seq<nat>, j: nat)
    requires Fit(cells, widths) && j < |cells|
    ensures |Columns(cells, widths)| == Sum(widths) + |widths|
    ensures ColumnEnd(widths, j) <= |Columns(cells, widths)|
    ensures Columns(cells, widths)[ColumnStart(widths, j)..ColumnEnd(widths, j)] == Column(cells[j], widths[j])
  {
    ColumnsLength(cells, widths);
    ColumnOffset(cells, widths, j);
    ColumnsGlue(cells, widths);
    PickAt(Columns(cells, widths), ColumnPieces(cells, widths), j,
           ColumnStart(widths, j), ColumnEnd(widths, j), Column(cells[j], widths[j]));
  }

  /** The columns before column `j` take one bar plus the width each. */
  lemma {:induction false} ColumnOffset(cells: seq<string>, widths: seq<nat>, j: nat)
    requires Fit(cells, widths) && j < |cells|
    ensures |Concat(ColumnPieces(cells, widths)[..j])| == Sum(widths[..j]) + j
  {
    assert ColumnPieces(cells, widths)[..j] == ColumnPieces(cells[..j], widths[..j]);
    ColumnsGlue(cells[..j], widths[..j]);
    ColumnsLength(cells[..j], widths[..j]);
  }

  /** The piece picked out of a concatenation, with its offset and contents
      given by name. */
  lemma {:induction false} PickAt(s: string, ps: seq<string>, j: nat, off: nat, end: nat, col: string)
    requires s == Concat(ps) && j < |ps| && ps[j] == col && |Concat(ps[..j])| == off && end == off + |col|
    ensures end <= |s| && s[off..end] == col
  {
    ConcatPick(ps, j);
  }

  /** Piece `j` of a concatenation sits right after the earlier pieces. */
  lemma {:induction false} ConcatPick(ps: seq<string>, j: nat)
    requires j < |ps|
    ensures var off := |Concat(ps[..j])|;
            off + |ps[j]| <= |Concat(ps)| && Concat(ps)[off..off + |ps[j]|] == ps[j]
  {
    assert ps == ps[..j] + ([ps[j]] + ps[j + 1..]);
    ConcatAppend(ps[..j], [ps[j]] + ps[j + 1..]);
    ConcatCons(ps[j], ps[j + 1..]);
    SliceMiddle(Concat(ps[..j]), ps[j], Concat(ps[j + 1..]));
  }

  /** The pieces `Columns` glues together: `'|{:^w}'` per cell. */
  function ColumnPieces(cells: seq<string>, widths: seq<nat>): seq<string>
    requires |cells| == |widths|
  {
    seq(|cells|, j requires 0 <= j < |cells| => Column(cells[j], widths[j]))
  }

  lemma {:induction false} ColumnsGlue(cells: seq<string>, widths: seq<nat>)
    requires |cells| == |widths|
    ensures Columns(cells, widths) == Concat(ColumnPieces(cells, widths))
    decreases |cells|
  {
    if |cells| > 0 {
      var ps := ColumnPieces(cells, widths);
      ColumnsGlue(cells[1..], widths[1..]);
      assert ps[1..] == ColumnPieces(cells[1..], widths[1..]);
      calc {
        Concat(ps);
        ps[0] + Concat(ps[1..]);
        Column(cells[0], widths[0]) + Columns(cells[1..], widths[1..]);
      }
    }
  }

  lemma {:induction false} ConcatAppend(a: seq<string>, b: seq<string>)
    ensures Concat(a + b) == Concat(a) + Concat(b)
    decreases |a|
  {
    if |a| > 0 {
      ConcatAppend(a[1..], b);
      assert (a + b)[1..] == a[1..] + b;
    } else {
      assert a + b == b;
    }
  }

  lemma {:induction false} SliceMiddle(a: string, p: string, b: string)
    ensures (a + (p + b))[|a|..|a| + |p|] == p
  {
    assert (a + (p + b))[|a|..|a| + |p|] == (p + b)[..|p|];
  }

  /** A slice of `a + b` lying within `a`, or within `b`. */
  lemma {:induction false} SliceOfAppend(a: string, b: string, i: nat, n: nat)
    requires i + n <= |a| || (|a| <= i && i + n <= |a| + |b|)
    ensures i + n <= |a| ==> (a + b)[i..i + n] == a[i..i + n]
    ensures |a| <= i && i + n <= |a| + |b| ==> (a + b)[i..i + n] == b[i - |a|..i - |a| + n]
  {
  }

  lemma {:induction false} ColumnsLength(cells: seq<string>, widths: seq<nat>)
    requires Fit(cells, widths)
    ensures |Columns(cells, widths)| == Sum(widths) + |widths|
    decreases |cells|
  {
    if |cells| > 0 {
      ColumnsLength(cells[1..], widths[1..]);
    }
  }

  lemma {:induction false} SumCons(x: nat, xs: seq<nat>)
    ensures Sum([x] + xs) == x + Sum(xs)
  {
    assert ([x] + xs)[1..] == xs;
  }

  // ------------------------------------------------------------ __call__

  /** The rows printed: all of them, or for more than sixty the first thirty,
      an elision marker (`None`) and the last thirty. */
  function RowPlan(length: nat): (r: seq<Option<nat>>)
    ensures |r| == if length > 60 then 61 else length
  {
    var rows := seq(length, i => Some(i));
    if length > 60 then rows[..30] + [None] + rows[length - 30..] else rows
  }

  /** Which rows are printed: a row is shown exactly when the table has at
      most sixty rows or it is among the first or the last thirty, the marker
      appears exactly when rows are elided, and rows are printed in
      increasing order. */
  lemma {:induction false} RowPlanShows(length: nat, row: nat, a: nat, b: nat)
    ensures Some(row) in RowPlan(length) <==> row < length && (length <= 60 || row < 30 || length - 30 <= row)
    ensures None in RowPlan(length) <==> length > 60
    ensures a < b < |RowPlan(length)| && RowPlan(length)[a].Some? && RowPlan(length)[b].Some? ==>
              RowPlan(length)[a].value < RowPlan(length)[b].value
    ensures length > 60 ==> RowPlan(length)[30] == None
  {
    var p := RowPlan(length);
    if length > 60 {
      assert forall k :: 0 <= k < 30 ==> p[k] == Some(k);
      assert forall k :: 31 <= k < 61 ==> p[k] == Some(length - 61 + k);
      if row < length && (row < 30 || length - 30 <= row) {
        if row < 30 {
          assert p[row] == Some(row);
        } else {
          assert p[row - length + 61] == Some(row);
        }
      }
      assert p[30] == None;
    } else {
      if row < length {
        assert p[row] == Some(row);
      }
    }
  }

  /** `'Excluded: %s\n' % excluded`, printed only when a key filter was given. */
  function Preamble(excluded: Option<seq<string>>): seq<string> {
    if excluded.Some? then ["Excluded: []"] else []
  }

  function Lead(isscalar: bool, name: string): Option<string> {
    if isscalar then None else Some(name)
  }

  function Rules(widths: seq<nat>): (r: seq<string>)
    ensures Fit(r, widths)
  {
    seq(|widths|, j requires 0 <= j < |widths| => seq(widths[j], _ => '='))
  }

  /** The cells of one printed line of a row: line `l` of every cell. */
  function LineCells(cells: seq<string>, l: nat): (r: seq<string>)
    ensures |r| == |cells|
    ensures forall j :: 0 <= j < |cells| ==> r[j] == StrCell(cells[j], l)
  {
    seq(|cells|, j requires 0 <= j < |cells| => StrCell(cells[j], l))
  }

  /** The lines one entry of the plan prints: the marker line of `'...'`
      fields, or `nline` lines of the row, its number on the first only. */
  function Block(t: OMap<string, Val>, layout: Layout, header: seq<string>, f: Format, entry: Option<nat>): (r: Result<seq<string>>)
    requires |f.widths| == |header|
    ensures entry.None? ==> r.Ok? && |r.value| == 1
    ensures entry.Some? ==> (r.Ok? <==> RowCells(t, layout.isscalar, header, entry.value).Ok?)
    ensures entry.Some? && r.Err? ==> r.error == RowCells(t, layout.isscalar, header, entry.value).error
    ensures entry.Some? && r.Ok? ==> |r.value| == f.nline
  {
    match entry
    case None =>
      Ok([FormatLine(Lead(layout.isscalar, "..."), seq(|header|, _ => "..."), f.widths)])
    case Some(row) =>
      match RowCells(t, layout.isscalar, header, row)
      case Err(e) => Err(e)
      case Ok(cells) =>
        Ok(seq(f.nline, l requires 0 <= l < f.nline =>
          FormatLine(Lead(layout.isscalar, if l == 0 then IntStr(row) else ""), LineCells(cells, l), f.widths)))
  }

  function Flatten(blocks: seq<seq<string>>): seq<string> {
    if |blocks| == 0 then [] else blocks[0] + Flatten(blocks[1..])
  }

  /** The blocks of the planned rows, the first failing row raising. */
  function Body(t: OMap<string, Val>, layout: Layout, header: seq<string>, f: Format): (r: Result<seq<seq<string>>>)
    requires |f.widths| == |header|
    ensures r.Ok? ==> |r.value| == |RowPlan(layout.length)|
    ensures r.Ok? ==> forall k :: 0 <= k < |r.value| ==> Block(t, layout, header, f, RowPlan(layout.length)[k]) == Ok(r.value[k])
    ensures r.Err? ==> exists k :: 0 <= k < |RowPlan(layout.length)| && Block(t, layout, header, f, RowPlan(layout.length)[k]) == Err(r.error)
  {
    var plan := RowPlan(layout.length);
    var blocks := seq(|plan|, k requires 0 <= k < |plan| => Block(t, layout, header, f, plan[k]));
    assert forall k :: 0 <= k < |plan| ==> blocks[k] == Block(t, layout, header, f, plan[k]);
    Collect(blocks)
  }

  /** The header line (an empty label field first unless scalar) and the
      underline (`'====='` under the label, `'='` across each column). */
  function Heading(layout: Layout, header: seq<string>, f: Format): seq<string>
    requires |f.widths| == |header|
  {
    [FormatLine(Lead(layout.isscalar, ""), header, f.widths),
     FormatLine(Lead(layout.isscalar, "====="), Rules(f.widths), f.widths)]
  }

  /** The printed lines of `TableStr(table, headerkeys=...)()`, before each is
      closed by a newline. */
  function TableLines(t: OMap<string, Val>, headerkeys: Option<seq<string>>): (r: Result<seq<string>>)
    requires t.Valid()
    ensures |t.keys| == 0 ==> r == Err(IndexError)
  {
    match Detect(t)
    case Err(e) => Err(e)
    case Ok(layout) =>
      var (header, excluded) := GetHeader(t, headerkeys);
      match GetFormat(t, layout, header)
      case Err(e) => Err(e)
      case Ok(f) =>
        match Body(t, layout, header, f)
        case Err(e) => Err(e)
        case Ok(bs) => Ok(Preamble(excluded) + Heading(layout, header, f) + Flatten(bs))
  }

  /** `TableStr(table, headerkeys=...)()`: every printed line followed by a
      newline. */
  function TableString(t: OMap<string, Val>, headerkeys: Option<seq<string>>): (r: Result<string>)
    requires t.Valid()
    ensures r.Ok? <==> TableLines(t, headerkeys).Ok?
    ensures r.Err? ==> r.error == TableLines(t, headerkeys).error
  {
    match TableLines(t, headerkeys)
    case Err(e) => Err(e)
    case Ok(lines) => Ok(Terminated(lines))
  }

  // ------------------------------------------------------------ lemmas

  lemma {:induction false} FlattenAppend(a: seq<seq<string>>, b: seq<seq<string>>)
    ensures Flatten(a + b) == Flatten(a) + Flatten(b)
    decreases |a|
  {
    if |a| > 0 {
      FlattenAppend(a[1..], b);
      assert (a + b)[1..] == a[1..] + b;
    } else {
      assert a + b == b;
    }
  }

  lemma {:induction false} FlattenConst(bs: seq<seq<string>>, n: nat)
    requires forall k :: 0 <= k < |bs| ==> |bs[k]| == n
    ensures |Flatten(bs)| == n * |bs|
    decreases |bs|
  {
    if |bs| > 0 {
      FlattenConst(bs[1..], n);
    }
  }

  /** Line `l` of block `k` sits at `at`, after the lines of the blocks
      before it. */
  lemma {:induction false} FlattenAt(bs: seq<seq<string>>, k: nat, l: nat, at: nat)
    requires k < |bs| && l < |bs[k]| && at == |Flatten(bs[..k])| + l
    ensures at < |Flatten(bs)| && Flatten(bs)[at] == bs[k][l]
  {
    assert bs == bs[..k] + ([bs[k]] + bs[k + 1..]);
    FlattenAppend(bs[..k], [bs[k]] + bs[k + 1..]);
    FlattenAppend([bs[k]], bs[k + 1..]);
    assert Flatten([bs[k]]) == bs[k] + Flatten([]);
  }

  /** Every key of the header is a key of the table. */
  lemma {:induction false} HeaderInTable(t: OMap<string, Val>, headerkeys: Option<seq<string>>)
    requires t.Valid()
    ensures forall j :: 0 <= j < |GetHeader(t, headerkeys).0| ==> GetHeader(t, headerkeys).0[j] in t.vals
  {
    var header := GetHeader(t, headerkeys).0;
    forall j | 0 <= j < |header| ensures header[j] in t.vals {
      assert header[j] in header;
    }
  }

  /** A row of table keys fails only by indexing (IndexError, or TypeError
      for a Python number) or by a rendering (TypeError). */
  lemma {:induction false} RowErrors(t: OMap<string, Val>, isscalar: bool, header: seq<string>, line: nat)
    requires forall j :: 0 <= j < |header| ==> header[j] in t.vals
    ensures RowCells(t, isscalar, header, line).Err? ==>
              RowCells(t, isscalar, header, line).error in {IndexError, TypeError}
  {
  }

  /** The parts `TableLines` is made of, when it succeeds. */
  lemma {:induction false} Unfold(t: OMap<string, Val>, headerkeys: Option<seq<string>>)
      returns (layout: Layout, header: seq<string>, f: Format, bs: seq<seq<string>>)
    requires t.Valid() && TableLines(t, headerkeys).Ok?
    ensures Detect(t) == Ok(layout) && header == GetHeader(t, headerkeys).0
    ensures GetFormat(t, layout, header) == Ok(f) && |f.widths| == |header|
    ensures Body(t, layout, header, f) == Ok(bs)
    ensures TableLines(t, headerkeys).value == Preamble(GetHeader(t, headerkeys).1) + Heading(layout, header, f) + Flatten(bs)
  {
    layout := Detect(t).value;
    header := GetHeader(t, headerkeys).0;
    f := GetFormat(t, layout, header).value;
    bs := Body(t, layout, header, f).value;
  }

  /** Scanning rows of table keys fails only as a row does. */
  lemma {:induction false} ScanErrors(t: OMap<string, Val>, layout: Layout, header: seq<string>)
    requires forall j :: 0 <= j < |header| ==> header[j] in t.vals
    ensures Scan(t, layout, header).Err? ==> Scan(t, layout, header).error in {IndexError, TypeError}
  {
    var s := Scan(t, layout, header);
    if s.Err? {
      var i :| 0 <= i < ScanCount(layout.length) && RowCells(t, layout.isscalar, header, i) == Err(s.error);
      RowErrors(t, layout.isscalar, header, i);
    }
  }

  /** Printing the planned rows of table keys fails only as a row does. */
  lemma {:induction false} BodyErrors(t: OMap<string, Val>, layout: Layout, header: seq<string>, f: Format)
    requires |f.widths| == |header|
    requires forall j :: 0 <= j < |header| ==> header[j] in t.vals
    ensures Body(t, layout, header, f).Err? ==> Body(t, layout, header, f).error in {IndexError, TypeError}
  {
    var c := Body(t, layout, header, f);
    if c.Err? {
      var plan := RowPlan(layout.length);
      var k :| 0 <= k < |plan| && Block(t, layout, header, f, plan[k]) == Err(c.error);
      RowErrors(t, layout.isscalar, header, plan[k].value);
    }
  }

  /** The printer fails only with the IndexError of an empty dict, of a
      short column or of a column that cannot be indexed, the TypeError of
      indexing a Python number or of a failing rendering, or numpy's
      ValueError for an empty scan. */
  lemma {:induction false} TableLinesErrors(t: OMap<string, Val>, headerkeys: Option<seq<string>>)
    requires t.Valid()
    ensures TableLines(t, headerkeys).Err? ==> TableLines(t, headerkeys).error in {IndexError, TypeError, ValueError}
  {
    if |t.keys| > 0 {
      var layout := Detect(t).value;
      var header := GetHeader(t, headerkeys).0;
      HeaderInTable(t, headerkeys);
      ScanErrors(t, layout, header);
      if GetFormat(t, layout, header).Ok? {
        BodyErrors(t, layout, header, GetFormat(t, layout, header).value);
      }
    }
  }

  /** A printed table has a column and a row; a key filter that matches no
      key of a non-empty dict makes numpy's maximum fail with a ValueError. */
  lemma {:induction false} TableLinesNeedColumns(t: OMap<string, Val>, headerkeys: Option<seq<string>>)
    requires t.Valid()
    ensures TableLines(t, headerkeys).Ok? ==> |GetHeader(t, headerkeys).0| > 0 && Detect(t).value.length > 0
    ensures |t.keys| > 0 && |GetHeader(t, headerkeys).0| == 0 ==> TableLines(t, headerkeys) == Err(ValueError)
  {
    if |t.keys| > 0 {
      var layout := Detect(t).value;
      var header := GetHeader(t, headerkeys).0;
      if |header| == 0 {
        forall i | 0 <= i < ScanCount(layout.length) ensures RowCells(t, layout.isscalar, header, i) == Ok([]) {
        }
        assert Scan(t, layout, header).Ok?;
      }
    }
  }

  /** Each planned entry's block has its size: one marker line, or `n`
      lines per row. */
  predicate Sized(length: nat, bs: seq<seq<string>>, n: nat) {
    && |bs| == |RowPlan(length)|
    && forall k :: 0 <= k < |bs| ==> |bs[k]| == if RowPlan(length)[k].None? then 1 else n
  }

  lemma {:induction false} BodySized(t: OMap<string, Val>, layout: Layout, header: seq<string>, f: Format)
    requires |f.widths| == |header| && Body(t, layout, header, f).Ok?
    ensures Sized(layout.length, Body(t, layout, header, f).value, f.nline)
  {
    var bs := Body(t, layout, header, f).value;
    forall k | 0 <= k < |bs| ensures |bs[k]| == if RowPlan(layout.length)[k].None? then 1 else f.nline {
      assert Block(t, layout, header, f, RowPlan(layout.length)[k]) == Ok(bs[k]);
    }
  }

  /** Entry `k` of the plan, spelled out. */
  lemma {:induction false} PlanEntry(length: nat, k: nat)
    requires k < |RowPlan(length)|
    ensures RowPlan(length)[k] ==
              if length <= 60 || k < 30 then Some(k) else if k == 30 then None else Some(length - 61 + k)
  {
  }

  /** Blocks `lo..hi` of the plan are all rows. */
  lemma {:induction false} RowsSized(length: nat, bs: seq<seq<string>>, n: nat, lo: nat, m: nat)
    requires Sized(length, bs, n) && lo + m <= |bs|
    requires length <= 60 || lo + m <= 30 || 31 <= lo
    ensures |Flatten(bs[lo..lo + m])| == n * m
  {
    var s := bs[lo..lo + m];
    forall k | 0 <= k < |s| ensures |s[k]| == n {
      PlanEntry(length, lo + k);
    }
    FlattenConst(s, n);
  }

  /** The body has `length * n` lines, or `60 * n + 1` when elided. */
  lemma {:induction false} PlanLength(length: nat, bs: seq<seq<string>>, n: nat)
    requires Sized(length, bs, n)
    ensures |Flatten(bs)| == if length > 60 then 60 * n + 1 else length * n
  {
    if length > 60 {
      var a, m, b := bs[..30], bs[30..31], bs[31..];
      assert bs == a + m + b;
      FlattenAppend(a + m, b);
      FlattenAppend(a, m);
      assert bs[0..0 + 30] == a && bs[31..31 + 30] == b;
      RowsSized(length, bs, n, 0, 30);
      RowsSized(length, bs, n, 31, 30);
      PlanEntry(length, 30);
      assert Flatten(m) == bs[30] + Flatten([]);
    } else {
      assert bs[0..0 + |bs|] == bs;
      RowsSized(length, bs, n, 0, |bs|);
    }
  }

  /** The position of a shown row in the plan. */
  function PlanIndex(length: nat, row: nat): nat
    requires length <= 60 || row < 30 || length - 30 <= row
  {
    if length <= 60 || row < 30 then row else row + 61 - length
  }

  /** Line `l` of a shown row's block sits at `BodyLine` in the body. */
  lemma {:induction false} PlanAt(length: nat, bs: seq<seq<string>>, n: nat, row: nat, l: nat)
    requires Sized(length, bs, n)
    requires row < length && (length <= 60 || row < 30 || length - 30 <= row) && l < n
    ensures PlanIndex(length, row) < |bs| && RowPlan(length)[PlanIndex(length, row)] == Some(row)
    ensures BodyLine(length, row, n, l) < |Flatten(bs)|
    ensures Flatten(bs)[BodyLine(length, row, n, l)] == bs[PlanIndex(length, row)][l]
  {
    var k := PlanIndex(length, row);
    PlanEntry(length, k);
    PlanOffset(length, bs, n, row);
    FlattenAt(bs, k, l, BodyLine(length, row, n, l));
  }

  /** The blocks before a shown row's take `RowOffset` lines. */
  lemma {:induction false} PlanOffset(length: nat, bs: seq<seq<string>>, n: nat, row: nat)
    requires Sized(length, bs, n)
    requires row < length && (length <= 60 || row < 30 || length - 30 <= row)
    ensures PlanIndex(length, row) <= |bs|
    ensures |Flatten(bs[..PlanIndex(length, row)])| == RowOffset(length, row, n)
  {
    var k := PlanIndex(length, row);
    if length <= 60 || row < 30 {
      assert bs[0..0 + row] == bs[..k];
      RowsSized(length, bs, n, 0, row);
    } else {
      var before: nat := row - (length - 30);
      var a, m, b := bs[..30], bs[30..31], bs[31..31 + before];
      assert bs[..k] == a + m + b;
      FlattenAppend(a + m, b);
      FlattenAppend(a, m);
      assert bs[0..0 + 30] == a;
      RowsSized(length, bs, n, 0, 30);
      RowsSized(length, bs, n, 31, before);
      PlanEntry(length, 30);
      assert Flatten(m) == bs[30] + Flatten([]);
    }
  }

  /** The output has, after the optional excluded line, the header line and
      the underline, `nline` lines per printed row and one marker line when
      rows are elided: `length * nline` body lines for up to sixty rows, and
      `60 * nline + 1` beyond. */
  lemma {:induction false} TableLinesCount(t: OMap<string, Val>, headerkeys: Option<seq<string>>)
    requires t.Valid() && TableLines(t, headerkeys).Ok?
    ensures var length := Detect(t).value.length;
            var n := GetFormat(t, Detect(t).value, GetHeader(t, headerkeys).0).value.nline;
            |TableLines(t, headerkeys).value| ==
              |Preamble(GetHeader(t, headerkeys).1)| + 2 + (if length > 60 then 60 * n + 1 else length * n)
  {
    var layout, header, f, bs := Unfold(t, headerkeys);
    BodySized(t, layout, header, f);
    PlanLength(layout.length, bs, f.nline);
  }

  /** Where row `row` prints within the body: after the full blocks of the
      rows before it, and after the marker line when it is among the last
      thirty of an elided table. */
  function RowOffset(length: nat, row: nat, n: nat): nat
    requires length <= 60 || row < 30 || length - 30 <= row
  {
    if length <= 60 || row < 30 then n * row
    else
      var before: nat := row - (length - 30);
      n * 30 + 1 + n * before
  }

  /** Where line `l` of row `row` prints within the body. */
  function BodyLine(length: nat, row: nat, n: nat, l: nat): nat
    requires length <= 60 || row < 30 || length - 30 <= row
  {
    RowOffset(length, row, n) + l
  }

  /** Line `l` of a printed row, at `BodyLine` in the body (which
      `Unfold` places after the excluded line and the two heading lines):
      its number on the first line only (left in five characters, absent for
      a scalar table), then line `l` of each of its cells, '' for cells with
      fewer lines, centred in its column. */
  lemma {:induction false} RowLineAt(t: OMap<string, Val>, layout: Layout, header: seq<string>, f: Format, bs: seq<seq<string>>, row: nat, l: nat)
    requires |f.widths| == |header| && Body(t, layout, header, f) == Ok(bs)
    requires row < layout.length && (layout.length <= 60 || row < 30 || layout.length - 30 <= row)
    requires l < f.nline
    ensures RowCells(t, layout.isscalar, header, row).Ok?
    ensures BodyLine(layout.length, row, f.nline, l) < |Flatten(bs)|
    ensures Flatten(bs)[BodyLine(layout.length, row, f.nline, l)] ==
              FormatLine(Lead(layout.isscalar, if l == 0 then IntStr(row) else ""),
                         LineCells(RowCells(t, layout.isscalar, header, row).value, l), f.widths)
  {
    BodySized(t, layout, header, f);
    PlanAt(layout.length, bs, f.nline, row, l);
    var k := PlanIndex(layout.length, row);
    assert Block(t, layout, header, f, Some(row)) == Ok(bs[k]);
    BlockLine(t, layout, header, f, row, l);
  }

  lemma {:induction false} BlockLine(t: OMap<string, Val>, layout: Layout, header: seq<string>, f: Format, row: nat, l: nat)
    requires |f.widths| == |header| && Block(t, layout, header, f, Some(row)).Ok? && l < f.nline
    ensures RowCells(t, layout.isscalar, header, row).Ok?
    ensures Block(t, layout, header, f, Some(row)).value[l] ==
              FormatLine(Lead(layout.isscalar, if l == 0 then IntStr(row) else ""),
                         LineCells(RowCells(t, layout.isscalar, header, row).value, l), f.widths)
  {
  }

  lemma {:induction false} FormatLineLength(lead: Option<string>, cells: seq<string>, widths: seq<nat>)
    requires Fit(cells, widths)
    ensures |FormatLine(lead, cells, widths)| ==
              (if lead.Some? then Max(5, |lead.value|) else 0) + Sum(widths) + |widths|
  {
    ColumnsLength(cells, widths);
  }

  lemma {:induction false} ShortNumber(row: nat)
    requires row < 100
    ensures |IntStr(row)| <= 2
  {
    if row >= 10 {
      assert IntStr(row) == Digits(row / 10) + ["0123456789"[row % 10]];
    }
  }

  lemma {:induction false} ScannedRowFits(t: OMap<string, Val>, layout: Layout, header: seq<string>, f: Format, row: nat, l: nat)
    requires GetFormat(t, layout, header) == Ok(f)
    requires row < ScanCount(layout.length)
    ensures RowCells(t, layout.isscalar, header, row).Ok?
    ensures Fit(LineCells(RowCells(t, layout.isscalar, header, row).value, l), f.widths)
  {
    var rows := FormatFromScan(t, layout, header, f);
    assert RowCells(t, layout.isscalar, header, row) == Ok(rows[row]);
    RowFits(rows, row, l, f.widths);
  }

  /** Every line of a scanned row fits the column widths of the scan. */
  lemma {:induction false} RowFits(rows: seq<seq<string>>, row: nat, l: nat, widths: seq<nat>)
    requires forall i :: 0 <= i < |rows| ==> |rows[i]| == |widths|
    requires forall j :: 0 <= j < |widths| ==> widths[j] == ColumnWidth(rows, j)
    requires row < |rows|
    ensures Fit(LineCells(rows[row], l), widths)
  {
    forall j | 0 <= j < |widths| ensures |StrCell(rows[row][j], l)| <= widths[j] {
      CellInScan(rows, row, j);
    }
  }

  /** A line whose cells fit their columns is as wide as the underline: the
      label field takes five characters (a row number below 100 fits it),
      then a bar and the width per column. */
  lemma {:induction false} LineAligned(isscalar: bool, row: nat, l: nat, cells: seq<string>, widths: seq<nat>)
    requires row < 100 && Fit(LineCells(cells, l), widths)
    ensures |FormatLine(Lead(isscalar, if l == 0 then IntStr(row) else ""), LineCells(cells, l), widths)|
            == |FormatLine(Lead(isscalar, "====="), Rules(widths), widths)|
            == (if isscalar then 0 else 5) + Sum(widths) + |widths|
  {
    ShortNumber(row);
    FormatLineLength(Lead(isscalar, if l == 0 then IntStr(row) else ""), LineCells(cells, l), widths);
    FormatLineLength(Lead(isscalar, "====="), Rules(widths), widths);
  }

  /** The lines of a scanned row are exactly as wide as the underline: every
      cell line fits the width its column got from the scan, and the row
      number fits the five-character label field. */
  lemma {:induction false} ScannedRowAligned(t: OMap<string, Val>, layout: Layout, header: seq<string>, f: Format, row: nat, l: nat)
    requires GetFormat(t, layout, header) == Ok(f)
    requires row < ScanCount(layout.length) && l < f.nline
    ensures RowCells(t, layout.isscalar, header, row).Ok?
    ensures |FormatLine(Lead(layout.isscalar, if l == 0 then IntStr(row) else ""),
                        LineCells(RowCells(t, layout.isscalar, header, row).value, l), f.widths)|
            == |Heading(layout, header, f)[1]|
            == (if layout.isscalar then 0 else 5) + Sum(f.widths) + |f.widths|
  {
    ScannedRowFits(t, layout, header, f, row, l);
    LineAligned(layout.isscalar, row, l, RowCells(t, layout.isscalar, header, row).value, f.widths);
  }
}

=== FILE: tabstr.dfy ===
/** The cell-level string helpers of `tablarray/_tabstr.py`: `count_str`, the
    three-candidate string objects and their line lookup, the handler dispatch
    of `cell2str`, and `tabular_2str_flat`, which lays a table out as a grid of
    those objects.  The numeric renderings themselves (`%d`, `%0.4g`, `%0.3f`,
    numpy's printing) are inputs: each object carries its three raw
    renderings. */
module TabStr {
  import opened Common
  import opened Text

  /** `count_str(s)`: the widest line and the number of `\n`-separated lines. */
  function CountStr(s: string): (r: (nat, nat))
    ensures r.1 == Count(s, '\n') + 1
    ensures r.1 == |Split(s, "\n")|
    ensures forall j :: 0 <= j < |Split(s, "\n")| ==> |Split(s, "\n")[j]| <= r.0
    ensures exists j :: 0 <= j < |Split(s, "\n")| && |Split(s, "\n")[j]| == r.0
  {
    var lines := Split(s, "\n");
    SplitCount(s, '\n');
    (MaxLen(lines), |lines|)
  }

  /** Three candidate renderings, from the least to the most precise. */
  type Forms = s: seq<string> | |s| == 3 witness ["", "", ""]

  /** An `_obj2str` object: its three strings (the `rows`/`cols` counts are
      derived from them by `Width` and `NLines`). */
  datatype CellStr = CellStr(strings: Forms)

  /** `rows[k]`: the widest line of candidate `k`. */
  function Width(c: CellStr, k: nat): nat
    requires k < 3
  {
    CountStr(c.strings[k]).0
  }

  /** `cols[k]`: the line count of candidate `k`. */
  function NLines(c: CellStr, k: nat): nat
    requires k < 3
  {
    CountStr(c.strings[k]).1
  }

  /** The argument of `obj[...]`: a `(precision, line)` pair or a bare line. */
  datatype Key = Pair(precision: int, line: int) | Bare(line: int)

  /** `obj[(p, j)]`: line `j` of candidate `p`, or `''` once `j` is past the
      last line; a bare `j` reads candidate 1.  Python indexing applies, so
      negative positions count from the end and far-out ones raise. */
  function GetItem(c: CellStr, key: Key): (r: Result<string>)
    ensures r.Err? ==> r.error == IndexError
    ensures r.Ok? ==> '\n' !in r.value
  {
    var (p, j) := match key case Pair(p, j) => (p, j) case Bare(j) => (1, j);
    match PyAt(c.strings, p)
    case Err(e) => Err(e)
    case Ok(s) =>
      var lines := Split(s, "\n");
      SplitPiecesFree(s, '\n');
      if j >= |lines| then Ok("") else PyAt(lines, j)
  }

  /** Line `l` of candidate `p`: never fails, fits in the candidate's width,
      and is empty past the last line. */
  function LineOf(c: CellStr, p: nat, l: nat): (r: string)
    requires p < 3
    ensures GetItem(c, Pair(p, l)) == Ok(r)
    ensures |r| <= Width(c, p)
    ensures '\n' !in r
    ensures l >= NLines(c, p) ==> r == ""
  {
    var lines := Split(c.strings[p], "\n");
    if l >= |lines| then "" else lines[l]
  }

  /** A bare line number reads the middle candidate. */
  lemma {:induction false} BareIsMiddle(c: CellStr, j: int)
    ensures GetItem(c, Bare(j)) == GetItem(c, Pair(1, j))
  {
  }

  /** The lines of a candidate, read one by one, give the candidate back. */
  lemma {:induction false} LinesRebuild(c: CellStr, p: nat)
    requires p < 3
    ensures Join(seq(NLines(c, p), l requires 0 <= l < NLines(c, p) => LineOf(c, p, l)), "\n") == c.strings[p]
  {
    var lines := Split(c.strings[p], "\n");
    assert seq(NLines(c, p), l requires 0 <= l < NLines(c, p) => LineOf(c, p, l)) == lines;
    JoinSplit(c.strings[p], "\n");
  }

  // ---------------------------------------------------------------- ordering

  /** The three positions 0, 1, 2, each once. */
  predicate IsPerm3(r: seq<nat>) {
    |r| == 3 && r[0] < 3 && r[1] < 3 && r[2] < 3 && r[0] != r[1] && r[0] != r[2] && r[1] != r[2]
  }

  /** Position `a` sorts before position `b`: shorter, or as long and earlier. */
  predicate Before(l: seq<nat>, a: nat, b: nat)
    requires a < |l| && b < |l|
  {
    l[a] < l[b] || (l[a] == l[b] && a < b)
  }

  /** `np.argsort` of three lengths (numpy sorts so short an array by
      insertion, so equal lengths keep their order). */
  function Argsort3(l: seq<nat>): (r: seq<nat>)
    requires |l| == 3
    ensures IsPerm3(r)
    ensures Before(l, r[0], r[1]) && Before(l, r[1], r[2])
  {
    if l[0] <= l[1] then
      if l[1] <= l[2] then [0, 1, 2] else if l[0] <= l[2] then [0, 2, 1] else [2, 0, 1]
    else
      if l[0] <= l[2] then [1, 0, 2] else if l[1] <= l[2] then [1, 2, 0] else [2, 1, 0]
  }

  /** The int and float handlers' candidates, stored in argsort order of their
      lengths. */
  function Ordered(raw: Forms): (r: Forms)
    ensures |r[0]| <= |r[1]| <= |r[2]|
  {
    var sort := Argsort3([|raw[0]|, |raw[1]|, |raw[2]|]);
    [raw[sort[0]], raw[sort[1]], raw[sort[2]]]
  }

  /** Reading three strings through a rearrangement of their positions
      keeps the same multiset. */
  lemma {:induction false} PermMultiset<T>(raw: seq<T>, p: seq<nat>)
    requires |raw| == 3 && IsPerm3(p)
    ensures multiset([raw[p[0]], raw[p[1]], raw[p[2]]]) == multiset(raw)
  {
    var a, b, c := raw[0], raw[1], raw[2];
    var q := [raw[p[0]], raw[p[1]], raw[p[2]]];
    assert raw == [a, b, c];
    if p[0] == 0 && p[1] == 1 {
      assert q == [a, b, c];
    } else if p[0] == 0 {
      assert q == [a, c, b];
      SwapLast(a, b, c);
    } else if p[0] == 1 && p[1] == 0 {
      assert q == [b, a, c];
      SwapFirst(a, b, c);
    } else if p[0] == 1 {
      assert q == [b, c, a];
      RotateLeft(a, b, c);
    } else if p[1] == 0 {
      assert q == [c, a, b];
      RotateRight(a, b, c);
    } else {
      assert q == [c, b, a];
      Reverse(a, b, c);
    }
  }

  lemma {:induction false} SwapFirst<T>(a: T, b: T, c: T)
    ensures multiset([b, a, c]) == multiset([a, b, c])
  {
  }

  lemma {:induction false} SwapLast<T>(a: T, b: T, c: T)
    ensures multiset([a, c, b]) == multiset([a, b, c])
  {
  }

  lemma {:induction false} RotateLeft<T>(a: T, b: T, c: T)
    ensures multiset([b, c, a]) == multiset([a, b, c])
  {
  }

  lemma {:induction false} RotateRight<T>(a: T, b: T, c: T)
    ensures multiset([c, a, b]) == multiset([a, b, c])
  {
  }

  lemma {:induction false} Reverse<T>(a: T, b: T, c: T)
    ensures multiset([c, b, a]) == multiset([a, b, c])
  {
  }

  /** The stored candidates are the raw ones rearranged, shortest first. */
  lemma {:induction false} OrderedPermutes(raw: Forms)
    ensures multiset(Ordered(raw)) == multiset(raw)
    ensures |Ordered(raw)[0]| <= |Ordered(raw)[1]| <= |Ordered(raw)[2]|
  {
    var sort := Argsort3([|raw[0]|, |raw[1]|, |raw[2]|]);
    PermMultiset(raw, sort);
  }

  /** Sorting candidates that are already in length order changes nothing. */
  lemma {:induction false} OrderedKeepsSorted(raw: Forms)
    requires |raw[0]| <= |raw[1]| <= |raw[2]|
    ensures Ordered(raw) == raw
  {
    assert raw == [raw[0], raw[1], raw[2]];
  }

  // ---------------------------------------------------------------- dispatch

  /** The Python objects a cell can hold, each with what its handler needs:
      the three raw renderings for numbers and arrays, the text of a string or
      of a TablArray.  `PyScalar` is any other numpy scalar, bools included. */
  datatype Obj =
    | PyNone
    | PyStr(s: string)
    | PyInt(raw: Forms)
    | PyFloat(raw: Forms)
    | PyScalar(raw: Forms)
    | PyNdArray(raw: Forms)
    | PyTablArray(text: string)
    | PyOther

  datatype Handler = NoneH | StrH | IntH | FloatH | NdArrayH | TablArrayH

  /** The order in which `cell2str` tries the handlers. */
  const HandlerOrder: seq<Handler> := [NoneH, StrH, IntH, FloatH, NdArrayH, TablArrayH]

  /** `np.isscalar`. */
  predicate IsScalar(o: Obj) {
    o.PyStr? || o.PyInt? || o.PyFloat? || o.PyScalar?
  }

  /** Each handler's `is_handler`; the float handler also claims every numpy
      scalar. */
  predicate IsHandler(h: Handler, o: Obj) {
    match h
    case NoneH => o.PyNone?
    case StrH => o.PyStr?
    case IntH => o.PyInt?
    case FloatH => o.PyFloat? || IsScalar(o)
    case NdArrayH => o.PyNdArray?
    case TablArrayH => o.PyTablArray?
  }

  function FirstHandler(hs: seq<Handler>, o: Obj): (r: Option<nat>)
    ensures r.Some? ==> r.value < |hs| && IsHandler(hs[r.value], o)
    ensures r.Some? ==> forall i :: 0 <= i < r.value ==> !IsHandler(hs[i], o)
    ensures r.None? ==> forall i :: 0 <= i < |hs| ==> !IsHandler(hs[i], o)
  {
    if |hs| == 0 then None
    else if IsHandler(hs[0], o) then Some(0)
    else match FirstHandler(hs[1..], o)
      case None => None
      case Some(i) => Some(i + 1)
  }

  /** A handler's position in `HandlerOrder`. */
  function Rank(h: Handler): (r: nat)
    ensures r < |HandlerOrder| && HandlerOrder[r] == h
  {
    match h
    case NoneH => 0
    case StrH => 1
    case IntH => 2
    case FloatH => 3
    case NdArrayH => 4
    case TablArrayH => 5
  }

  /** The handler each kind of object is meant for. */
  function Intended(o: Obj): Handler
    requires !o.PyOther?
  {
    match o
    case PyNone => NoneH
    case PyStr(_) => StrH
    case PyInt(_) => IntH
    case PyFloat(_) => FloatH
    case PyScalar(_) => FloatH
    case PyNdArray(_) => NdArrayH
    case PyTablArray(_) => TablArrayH
  }

  /** The first handler in `HandlerOrder` that claims the object; a TypeError
      when none does. */
  function Dispatch(o: Obj): (r: Result<Handler>)
    ensures r.Err? <==> forall h :: !IsHandler(h, o)
    ensures r.Ok? ==> IsHandler(r.value, o)
    ensures r.Ok? ==> forall i :: 0 <= i < Rank(r.value) ==> !IsHandler(HandlerOrder[i], o)
    ensures r.Err? ==> r.error == TypeError
  {
    match FirstHandler(HandlerOrder, o)
    case None =>
      forall h ensures !IsHandler(h, o) {
        assert HandlerOrder[Rank(h)] == h;
      }
      Err(TypeError)
    case Some(i) => Ok(HandlerOrder[i])
  }

  /** Only an object of no known kind finds no handler; every other object
      goes to the handler meant for it, so a bool or other numpy scalar is
      rendered as a float. */
  lemma {:induction false} DispatchIntended(o: Obj)
    ensures Dispatch(o).Err? <==> o.PyOther?
    ensures !o.PyOther? ==> Dispatch(o) == Ok(Intended(o))
  {
    if !o.PyOther? {
      var h := Intended(o);
      assert IsHandler(h, o);
      var r := Dispatch(o).value;
      assert IsHandler(HandlerOrder[Rank(r)], o);
      forall i | 0 <= i < Rank(h) ensures !IsHandler(HandlerOrder[i], o) {
        assert HandlerOrder[i] in {NoneH, StrH, IntH, FloatH, NdArrayH, TablArrayH};
      }
    } else {
      forall h ensures !IsHandler(h, o) {
      }
    }
  }

  function Same(s: string): CellStr {
    CellStr([s, s, s])
  }

  /** The strings each handler's constructor stores. */
  function Render(h: Handler, o: Obj): (r: CellStr)
    requires Dispatch(o) == Ok(h)
  {
    DispatchIntended(o);
    match h
    case NoneH => Same("")
    case StrH => Same(o.s)
    case IntH => CellStr(Ordered(o.raw))
    case FloatH => CellStr(Ordered(o.raw))
    case NdArrayH => CellStr(o.raw)
    case TablArrayH => Same(o.text)
  }

  /** `cell2str(obj)`. */
  function Cell2Str(o: Obj): (r: Result<CellStr>)
    ensures r.Err? <==> o.PyOther?
    ensures r.Err? ==> r.error == TypeError
  {
    DispatchIntended(o);
    match Dispatch(o)
    case Err(e) => Err(e)
    case Ok(h) => Ok(Render(h, o))
  }

  /** What each kind of object shows: nothing for `None`, the same text three
      times for a string or a TablArray, the raw renderings rearranged
      shortest first for a number, and the three print settings for an
      array. */
  lemma {:induction false} Cell2StrKinds(o: Obj)
    ensures o.PyNone? ==> Cell2Str(o) == Ok(Same(""))
    ensures o.PyStr? ==> Cell2Str(o) == Ok(Same(o.s))
    ensures o.PyTablArray? ==> Cell2Str(o) == Ok(Same(o.text))
    ensures o.PyInt? || o.PyFloat? || o.PyScalar? ==>
              Cell2Str(o).Ok? && multiset(Cell2Str(o).value.strings) == multiset(o.raw) &&
              |Cell2Str(o).value.strings[0]| <= |Cell2Str(o).value.strings[1]| <= |Cell2Str(o).value.strings[2]|
    ensures o.PyNdArray? ==> Cell2Str(o) == Ok(CellStr(o.raw))
  {
    DispatchIntended(o);
    if o.PyInt? || o.PyFloat? || o.PyScalar? {
      OrderedPermutes(o.raw);
    }
  }

  // ---------------------------------------------------------------- the grid

  /** An index of `indices`: a plain int or a tuple. */
  datatype Index = Flat(i: int) | Multi(t: seq<int>)

  /** A member as seen by the layout: its rank and the cells that indexing
      reaches (any other index raises inside the `try`). */
  datatype Member = Member(ndim: nat, cells: map<seq<int>, Obj>)

  /** The indexable `table`: its `view` attribute when it has one. */
  datatype Table = Table(view: Option<string>, members: map<string, Member>)

  function Positions(idx: Index): seq<int> {
    match idx
    case Flat(i) => [i]
    case Multi(t) => t
  }

  /** `table[key][idx]` inside the `try`: any failure reads as `None`. */
  function Lookup(table: Table, key: string, idx: Index): Obj {
    if key in table.members && Positions(idx) in table.members[key].cells then
      table.members[key].cells[Positions(idx)]
    else PyNone
  }

  predicate AllZero(s: seq<int>) {
    forall i :: 0 <= i < |s| ==> s[i] == 0
  }

  /** `index[-ndim:]`, unwrapped when a single entry remains. */
  function Kept(t: seq<int>, ndim: nat): Index {
    var kept := PyDrop(t, -(ndim as int));
    if |kept| == 1 then Flat(kept[0]) else Multi(kept)
  }

  /** The value shown for `key` at `index`.  For a tuple index on a table or
      cell view the member's `ndim` is read outside the `try` (a missing key
      is a KeyError); an index longer than the member keeps its last `ndim`
      entries when the dropped leading ones are all 0, else shows nothing. */
  function CellValue(table: Table, key: string, index: Index): (r: Result<Obj>)
    ensures r.Err? <==> index.Multi? && table.view in {Some("table"), Some("cell")} && key !in table.members
    ensures r.Err? ==> r.error == KeyError
    ensures key !in table.members && r.Ok? ==> r.value == PyNone
  {
    if index.Multi? && table.view.Some? && (table.view.value == "table" || table.view.value == "cell") then
      if key !in table.members then Err(KeyError)
      else
        var ndim := table.members[key].ndim;
        var t := index.t;
        if |t| > ndim then
          var dropped := PyTake(t, |t| - ndim);
          if AllZero(dropped) then Ok(Lookup(table, key, Kept(t, ndim))) else Ok(PyNone)
        else Ok(Lookup(table, key, index))
    else Ok(Lookup(table, key, index))
  }

  /** `index[:len(index) - ndim]` and `index[-ndim:]` split a long index into
      its dropped and kept parts, the kept part as long as the member's rank;
      an `ndim` of 0 keeps, and drops, the whole index. */
  lemma {:induction false} TrimSplitsIndex(t: seq<int>, ndim: nat)
    requires |t| > ndim
    ensures ndim > 0 ==> PyTake(t, |t| - ndim) + PyDrop(t, -(ndim as int)) == t
    ensures ndim > 0 ==> |PyDrop(t, -(ndim as int))| == ndim
    ensures ndim == 0 ==> PyDrop(t, -(ndim as int)) == t && PyTake(t, |t| - ndim) == t
  {
    if ndim > 0 {
      assert PyTake(t, |t| - ndim) == t[..|t| - ndim];
      assert PyDrop(t, -(ndim as int)) == t[|t| - ndim..];
    }
  }

  /** For a present key and a tuple index longer than the member, on a table or
      cell view: the cell is the member's entry at the last `ndim` positions
      when the leading ones are 0, and empty otherwise. */
  lemma {:induction false} LongIndexRule(table: Table, key: string, t: seq<int>)
    requires table.view in {Some("table"), Some("cell")}
    requires key in table.members && 0 < table.members[key].ndim < |t|
    ensures var n := table.members[key].ndim;
            var kept := t[|t| - n..];
            CellValue(table, key, Multi(t)) ==
              Ok(if AllZero(t[..|t| - n]) then Lookup(table, key, if n == 1 then Flat(kept[0]) else Multi(kept)) else PyNone)
  {
    TrimSplitsIndex(t, table.members[key].ndim);
  }

  /** `str(list(t))`: `[1, 2]`. */
  function ListStr(t: seq<int>): string {
    "[" + Join(seq(|t|, i requires 0 <= i < |t| => IntStr(t[i])), ", ") + "]"
  }

  /** The row label: a tuple shows as its list text, an int through the int
      handler (its three renderings given by `intForms`). */
  function Label(index: Index, intForms: int -> Forms): Obj {
    match index
    case Flat(i) => PyInt(intForms(i))
    case Multi(t) => PyStr(ListStr(t))
  }

  /** The header's cells: each key through the string handler. */
  function HeaderCells(header: seq<string>): (r: seq<Result<CellStr>>)
    ensures |r| == |header| && forall j :: 0 <= j < |header| ==> r[j] == Cell2Str(PyStr(header[j]))
  {
    seq(|header|, j requires 0 <= j < |header| => Cell2Str(PyStr(header[j])))
  }

  function HeaderRow(header: seq<string>): seq<Result<CellStr>> {
    [Cell2Str(PyNone)] + HeaderCells(header)
  }

  function BodyCell(table: Table, key: string, index: Index): Result<CellStr> {
    match CellValue(table, key, index)
    case Err(e) => Err(e)
    case Ok(v) => Cell2Str(v)
  }

  /** One row's cells after its label: one per key. */
  function BodyCells(index: Index, header: seq<string>, table: Table): (r: seq<Result<CellStr>>)
    ensures |r| == |header| && forall j :: 0 <= j < |header| ==> r[j] == BodyCell(table, header[j], index)
  {
    seq(|header|, j requires 0 <= j < |header| => BodyCell(table, header[j], index))
  }

  function BodyRow(index: Index, header: seq<string>, table: Table, intForms: int -> Forms): seq<Result<CellStr>> {
    [Cell2Str(Label(index, intForms))] + BodyCells(index, header, table)
  }

  /** The rows after the header: one per index. */
  function BodyRows(indices: seq<Index>, header: seq<string>, table: Table, intForms: int -> Forms): (r: seq<seq<Result<CellStr>>>)
    ensures |r| == |indices| && forall i :: 0 <= i < |indices| ==> r[i] == BodyRow(indices[i], header, table, intForms)
  {
    seq(|indices|, i requires 0 <= i < |indices| => BodyRow(indices[i], header, table, intForms))
  }

  /** Entry `at` of `[x] + s` is entry `at - 1` of `s`. */
  lemma {:induction false} ConsIndex<T>(x: T, s: seq<T>, k: nat, at: nat)
    requires k < |s| && at == k + 1
    ensures at < |[x] + s| && ([x] + s)[at] == s[k]
  {
  }

  /** Cell `at` of a body row holds the value for key `j`, where `at` is `j + 1`. */
  lemma {:induction false} BodyRowAt(index: Index, header: seq<string>, table: Table, intForms: int -> Forms, j: nat, at: nat)
    requires j < |header| && at == j + 1
    ensures |BodyRow(index, header, table, intForms)| == |header| + 1
    ensures BodyRow(index, header, table, intForms)[at] == BodyCell(table, header[j], index)
  {
    ConsIndex(Cell2Str(Label(index, intForms)), BodyCells(index, header, table), j, at);
  }

  /** Every cell of the layout, before the first failure is looked for. */
  function Grid(indices: seq<Index>, header: seq<string>, table: Table, intForms: int -> Forms): (g: seq<seq<Result<CellStr>>>)
    ensures |g| == |indices| + 1
    ensures forall i :: 0 <= i < |g| ==> |g[i]| == |header| + 1
  {
    [HeaderRow(header)] + BodyRows(indices, header, table, intForms)
  }

  /** Row `at` of the grid is the row of index `i`, where `at` is `i + 1`. */
  lemma {:induction false} GridRowAt(indices: seq<Index>, header: seq<string>, table: Table, intForms: int -> Forms, i: nat, at: nat)
    requires i < |indices| && at == i + 1
    ensures Grid(indices, header, table, intForms)[at] == BodyRow(indices[i], header, table, intForms)
  {
    ConsIndex(HeaderRow(header), BodyRows(indices, header, table, intForms), i, at);
  }

  /** The error a failing cell can raise. */
  lemma {:induction false} GridErrors(indices: seq<Index>, header: seq<string>, table: Table, intForms: int -> Forms, i: nat, j: nat)
    requires i < |indices| + 1 && j < |header| + 1
    ensures var c := Grid(indices, header, table, intForms)[i][j];
            c.Err? ==> c.error == KeyError || c.error == TypeError
  {
    if i == 0 {
      HeaderCellOk(header, j);
      assert Grid(indices, header, table, intForms)[0] == HeaderRow(header);
    } else {
      GridBodyErrors(indices, header, table, intForms, i - 1, i, j);
    }
  }

  lemma {:induction false} GridBodyErrors(indices: seq<Index>, header: seq<string>, table: Table, intForms: int -> Forms, i: nat, at: nat, j: nat)
    requires i < |indices| && at == i + 1 && j < |header| + 1
    ensures var c := Grid(indices, header, table, intForms)[at][j];
            c.Err? ==> c.error == KeyError || c.error == TypeError
  {
    GridRowAt(indices, header, table, intForms, i, at);
    if j > 0 {
      BodyRowAt(indices[i], header, table, intForms, j - 1, j);
    }
  }

  /** `tabular_2str_flat(indices, header, table)`: a header row (an empty
      corner, then the keys) and one row per index (its label, then one cell
      per key), built row by row so the first failing cell's error is the one
      raised. */
  function TabularFlat(indices: seq<Index>, header: seq<string>, table: Table, intForms: int -> Forms): (r: Result<seq<seq<CellStr>>>)
    ensures r.Ok? ==> |r.value| == |indices| + 1
    ensures r.Ok? ==> forall i :: 0 <= i < |r.value| ==> |r.value[i]| == |header| + 1
  {
    CollectRows(Grid(indices, header, table, intForms))
  }

  /** The layout fails only with a KeyError (a key missing under a tuple
      index) or a TypeError (a value no handler claims); otherwise the corner
      is empty, the first row holds the keys, the first column the labels,
      and each other cell shows the value for its key and index. */
  lemma {:induction false} TabularFlatCells(indices: seq<Index>, header: seq<string>, table: Table, intForms: int -> Forms, i: nat, j: nat)
    requires i < |indices| && j < |header|
    ensures var r := TabularFlat(indices, header, table, intForms);
            && (r.Err? ==> r.error == KeyError || r.error == TypeError)
            && (r.Ok? ==> r.value[0][0] == Same(""))
            && (r.Ok? ==> r.value[0][j + 1] == Same(header[j]))
            && (r.Ok? ==> r.value[i + 1][0] == Cell2Str(Label(indices[i], intForms)).value)
            && (r.Ok? ==> BodyCell(table, header[j], indices[i]).Ok? &&
                          r.value[i + 1][j + 1] == BodyCell(table, header[j], indices[i]).value)
            && (BodyCell(table, header[j], indices[i]).Err? ==> r.Err?)
  {
    var g := Grid(indices, header, table, intForms);
    var r := TabularFlat(indices, header, table, intForms);
    if r.Err? {
      ghost var a, b :| 0 <= a < |g| && 0 <= b < |g[a]| && g[a][b] == Err(r.error);
      GridErrors(indices, header, table, intForms, a, b);
    }
    Cell2StrKinds(PyNone);
    Cell2StrKinds(PyStr(header[j]));
    ConsIndex(Cell2Str(PyNone), HeaderCells(header), j, j + 1);
    GridRowAt(indices, header, table, intForms, i, i + 1);
    BodyRowAt(indices[i], header, table, intForms, j, j + 1);
  }

  /** A table whose keys are all present and whose values all have a handler
      lays out without error. */
  lemma {:induction false} TabularFlatSucceeds(indices: seq<Index>, header: seq<string>, table: Table, intForms: int -> Forms)
    requires forall j :: 0 <= j < |header| ==> header[j] in table.members
    requires Known(table)
    ensures TabularFlat(indices, header, table, intForms).Ok?
  {
    var g: seq<seq<Result<CellStr>>> := Grid(indices, header, table, intForms);
    forall a: nat, b: nat | a < |g| && b < |g[a]| ensures g[a][b].Ok? {
      GridCellOk(indices, header, table, intForms, a, b);
    }
  }

  lemma {:induction false} GridCellOk(indices: seq<Index>, header: seq<string>, table: Table, intForms: int -> Forms, a: nat, b: nat)
    requires forall j :: 0 <= j < |header| ==> header[j] in table.members
    requires Known(table)
    requires a < |indices| + 1 && b < |header| + 1
    ensures Grid(indices, header, table, intForms)[a][b].Ok?
  {
    if a == 0 {
      GridHeaderOk(indices, header, table, intForms, b);
    } else {
      GridBodyOk(indices, header, table, intForms, a - 1, a, b);
    }
  }

  lemma {:induction false} GridHeaderOk(indices: seq<Index>, header: seq<string>, table: Table, intForms: int -> Forms, b: nat)
    requires b < |header| + 1
    ensures Grid(indices, header, table, intForms)[0][b].Ok?
  {
    HeaderCellOk(header, b);
    assert Grid(indices, header, table, intForms)[0] == HeaderRow(header);
  }

  lemma {:induction false} GridBodyOk(indices: seq<Index>, header: seq<string>, table: Table, intForms: int -> Forms, i: nat, at: nat, b: nat)
    requires forall j :: 0 <= j < |header| ==> header[j] in table.members
    requires Known(table)
    requires i < |indices| && at == i + 1 && b < |header| + 1
    ensures Grid(indices, header, table, intForms)[at][b].Ok?
  {
    GridRowAt(indices, header, table, intForms, i, at);
    BodyCellOk(indices[i], header, table, intForms, b);
  }

  /** Every value the members hold has a handler. */
  predicate Known(table: Table) {
    forall k, p :: k in table.members && p in table.members[k].cells ==> !table.members[k].cells[p].PyOther?
  }

  lemma {:induction false} HeaderCellOk(header: seq<string>, b: nat)
    requires b < |header| + 1
    ensures HeaderRow(header)[b].Ok?
  {
    if b > 0 {
      ConsIndex(Cell2Str(PyNone), HeaderCells(header), b - 1, b);
    }
  }

  lemma {:induction false} BodyCellOk(index: Index, header: seq<string>, table: Table, intForms: int -> Forms, b: nat)
    requires forall j :: 0 <= j < |header| ==> header[j] in table.members
    requires Known(table)
    requires b < |header| + 1
    ensures BodyRow(index, header, table, intForms)[b].Ok?
  {
    if b > 0 {
      BodyRowAt(index, header, table, intForms, b - 1, b);
      CellValueKnown(table, header[b - 1], index);
    }
  }

  /** A present key of a table whose values all have a handler shows a value
      that has one too. */
  lemma {:induction false} CellValueKnown(table: Table, key: string, index: Index)
    requires key in table.members && Known(table)
    ensures CellValue(table, key, index).Ok? && !CellValue(table, key, index).value.PyOther?
  {
    LookupKnown(table, key, index);
    if index.Multi? {
      LookupKnown(table, key, Kept(index.t, table.members[key].ndim));
    }
  }

  lemma {:induction false} LookupKnown(table: Table, key: string, idx: Index)
    requires Known(table)
    ensures !Lookup(table, key, idx).PyOther?
  {
  }
}

=== FILE: tdimstr.dfy ===
/** `array2str_plus_tdim` of `tdimstr.py`: take numpy's bracketed rendering of
    an array and insert a front and a back `|` on each line, at the point where
    the tabular brackets end, by tracking bracket depth line by line.  The numpy
    rendering itself is an input here; only the line parser is modelled. */
module TdimStr {
  import opened Common
  import opened Text

  /** The brackets a line opens, `len(line.split('[')) - 1` in the source
      (the two agree by `BracketsBySplit`). */
  function Opened(line: string): nat {
    Count(line, '[')
  }

  /** The brackets a line closes, `len(line.split(']')) - 1` in the source. */
  function Closed(line: string): nat {
    Count(line, ']')
  }

  /** Counting by splitting: one more piece than there are brackets. */
  lemma {:induction false} BracketsBySplit(line: string)
    ensures Opened(line) == |Split(line, "[")| - 1
    ensures Closed(line) == |Split(line, "]")| - 1
  {
    SplitCount(line, '[');
    SplitCount(line, ']');
  }

  /** Bracket balance of a piece of text. */
  function Net(s: string): int {
    Count(s, '[') - Count(s, ']')
  }

  /** The barrier branch for a line read at depth `depth`: `line[:tdim] + '|'`,
      then either the rest of the line with `del` spaces and the back `|`
      (the tabular brackets stay open), or the back `|` placed before the last
      `-del` characters (they close on this line). */
  function BarrierLine(line: string, tdim: nat, depth: int): string {
    var del := depth + Opened(line) - Closed(line) - tdim;
    var back := Spaces(del) + "|";
    if del >= 0 then PyTake(line, tdim) + "|" + PyDrop(line, tdim) + back
    else PyTake(line, tdim) + "|" + PySlice(line, tdim, del) + back + PyDrop(line, del)
  }

  /** Whether a non-blank line read at `depth` gets barriers. */
  predicate IsBarrier(line: string, tdim: nat, depth: int) {
    depth + Opened(line) >= tdim
  }

  // ---------------------------------------------------------------- as written

  /** The loop variables: `dim_i`, and `dim_i2` when it has been bound. */
  datatype Scan = Scan(depth: int, last: Option<int>)

  /** One pass of the loop body as written: `dim_i2` is assigned only in the
      barrier branch, yet `dim_i = dim_i2` runs for every non-blank line. */
  function StepAsWritten(s: Scan, line: string, tdim: nat): (r: Result<(string, Scan)>)
    ensures r.Err? ==> r.error == UnboundLocalError
    ensures r.Ok? && |line| == 0 ==> r.value == (line, s)
  {
    if |line| < 1 then Ok((line, s))
    else if IsBarrier(line, tdim, s.depth) then
      var d2 := s.depth + (Opened(line) - Closed(line));
      Ok((BarrierLine(line, tdim, s.depth), Scan(d2, Some(d2))))
    else
      match s.last
      case None => Err(UnboundLocalError)
      case Some(d2) => Ok((line, Scan(d2, s.last)))
  }

  function RunAsWritten(lines: seq<string>, tdim: nat, s: Scan): (r: Result<(seq<string>, Scan)>)
    ensures r.Ok? ==> |r.value.0| == |lines|
    ensures r.Err? ==> r.error == UnboundLocalError
  {
    if |lines| == 0 then Ok(([], s))
    else
      match StepAsWritten(s, lines[0], tdim)
      case Err(e) => Err(e)
      case Ok(step) =>
        match RunAsWritten(lines[1..], tdim, step.1)
        case Err(e) => Err(e)
        case Ok(rest) => Ok(([step.0] + rest.0, rest.1))
  }

  /** `array2str_plus_tdim` as written, on numpy's rendering `text`. */
  function ArrayToStrPlusTdimAsWritten(text: string, tdim: nat): (r: Result<string>)
    ensures r.Err? ==> r.error == UnboundLocalError
    ensures r.Ok? ==> |Split(r.value, "\n")| == |Split(text, "\n")|
  {
    var lines := Split(text, "\n");
    match RunAsWritten(lines, tdim, Scan(0, None))
    case Err(e) => Err(e)
    case Ok(res) =>
      SplitPiecesFree(text, '\n');
      AsWrittenLinesFree(lines, tdim, Scan(0, None));
      SplitJoin(res.0, '\n');
      Ok(Join(res.0, "\n"))
  }

  // ---------------------------------------------------------------- corrected

  /** One line with the depth advanced on every non-blank line. */
  function Step(line: string, tdim: nat, depth: int): (r: (string, int))
    ensures r.1 == depth + Net(line)
  {
    if |line| < 1 then (line, depth)
    else if IsBarrier(line, tdim, depth) then (BarrierLine(line, tdim, depth), depth + Opened(line) - Closed(line))
    else (line, depth + Opened(line) - Closed(line))
  }

  function Run(lines: seq<string>, tdim: nat, depth: int): (r: (seq<string>, int))
    ensures |r.0| == |lines|
  {
    if |lines| == 0 then ([], depth)
    else
      var step := Step(lines[0], tdim, depth);
      var rest := Run(lines[1..], tdim, step.1);
      ([step.0] + rest.0, rest.1)
  }

  /** `array2str_plus_tdim` with the depth kept by every non-blank line.  A
      newline goes only between lines, so the output has as many lines as the
      input. */
  function ArrayToStrPlusTdim(text: string, tdim: nat): (r: string)
    ensures |Split(r, "\n")| == |Split(text, "\n")|
  {
    var lines := Split(text, "\n");
    var outs := Run(lines, tdim, 0).0;
    SplitPiecesFree(text, '\n');
    LinesFree(lines, tdim, 0);
    SplitJoin(outs, '\n');
    Join(outs, "\n")
  }

  // ---------------------------------------------------------------- lemmas

  lemma {:induction false} SliceFree(s: string, i: int, j: int, c: char)
    requires c !in s
    ensures c !in PySlice(s, i, j)
  {
    var a := PyBound(|s|, i);
    var b := PyBound(|s|, j);
    if a < b {
      forall k | 0 <= k < b - a ensures s[a..b][k] != c {
        assert s[a..b][k] == s[a + k];
      }
    }
  }

  lemma {:induction false} SpacesFree(n: int, c: char)
    requires c != ' '
    ensures c !in Spaces(n)
  {
  }

  /** Barriers add only `|` and spaces, so no line gains a newline. */
  lemma {:induction false} BarrierFree(line: string, tdim: nat, depth: int)
    requires '\n' !in line
    ensures '\n' !in BarrierLine(line, tdim, depth)
  {
    var del := depth + Opened(line) - Closed(line) - tdim;
    SliceFree(line, 0, tdim, '\n');
    SliceFree(line, tdim, |line|, '\n');
    SliceFree(line, tdim, del, '\n');
    SliceFree(line, del, |line|, '\n');
    SpacesFree(del, '\n');
  }

  lemma {:induction false} LinesFree(lines: seq<string>, tdim: nat, depth: int)
    requires forall i :: 0 <= i < |lines| ==> '\n' !in lines[i]
    ensures forall i :: 0 <= i < |lines| ==> '\n' !in Run(lines, tdim, depth).0[i]
  {
    if |lines| > 0 {
      var step := Step(lines[0], tdim, depth);
      BarrierFree(lines[0], tdim, depth);
      LinesFree(lines[1..], tdim, step.1);
      var outs := Run(lines, tdim, depth).0;
      assert outs == [step.0] + Run(lines[1..], tdim, step.1).0;
      forall i | 0 <= i < |lines| ensures '\n' !in outs[i] {
        if i > 0 {
          assert lines[1..][i - 1] == lines[i];
          assert outs[i] == Run(lines[1..], tdim, step.1).0[i - 1];
        }
      }
    }
  }

  lemma {:induction false} AsWrittenLinesFree(lines: seq<string>, tdim: nat, s: Scan)
    requires forall i :: 0 <= i < |lines| ==> '\n' !in lines[i]
    requires RunAsWritten(lines, tdim, s).Ok?
    ensures forall i :: 0 <= i < |lines| ==> '\n' !in RunAsWritten(lines, tdim, s).value.0[i]
  {
    if |lines| > 0 {
      var step := StepAsWritten(s, lines[0], tdim).value;
      BarrierFree(lines[0], tdim, s.depth);
      AsWrittenLinesFree(lines[1..], tdim, step.1);
      var outs := RunAsWritten(lines, tdim, s).value.0;
      assert outs == [step.0] + RunAsWritten(lines[1..], tdim, step.1).value.0;
      forall i | 0 <= i < |lines| ensures '\n' !in outs[i] {
        if i > 0 {
          assert lines[1..][i - 1] == lines[i];
          assert outs[i] == RunAsWritten(lines[1..], tdim, step.1).value.0[i - 1];
        }
      }
    }
  }

  lemma {:induction false} NetAppend(a: string, b: string)
    ensures Net(a + b) == Net(a) + Net(b)
  {
    CountAppend(a, b, '[');
    CountAppend(a, b, ']');
  }

  /** The balance of the first `i` lines is that of the first line plus the
      balance of the next `i - 1`. */
  lemma {:induction false} PrefixNet(lines: seq<string>, i: nat)
    requires 0 < i <= |lines|
    ensures Net(Concat(lines[..i])) == Net(lines[0]) + Net(Concat(lines[1..][..i - 1]))
  {
    assert lines[..i] == [lines[0]] + lines[1..][..i - 1];
    ConcatCons(lines[0], lines[1..][..i - 1]);
    NetAppend(lines[0], Concat(lines[1..][..i - 1]));
  }

  /** The final depth is the bracket balance of all the lines. */
  lemma {:induction false} RunDepth(lines: seq<string>, tdim: nat, depth: int)
    ensures Run(lines, tdim, depth).1 == depth + Net(Concat(lines))
  {
    if |lines| > 0 {
      var step := Step(lines[0], tdim, depth);
      RunDepth(lines[1..], tdim, step.1);
      ConcatCons(lines[0], lines[1..]);
      assert [lines[0]] + lines[1..] == lines;
      NetAppend(lines[0], Concat(lines[1..]));
    }
  }

  /** The i-th output line is the i-th input line treated at the depth given by
      the bracket balance of all the lines before it. */
  lemma {:induction false} RunAt(lines: seq<string>, tdim: nat, depth: int, i: nat)
    requires i < |lines|
    ensures Run(lines, tdim, depth).0[i] == Step(lines[i], tdim, depth + Net(Concat(lines[..i]))).0
  {
    var step := Step(lines[0], tdim, depth);
    if i == 0 {
      assert lines[..0] == [];
    } else {
      PrefixNet(lines, i);
      RunAt(lines[1..], tdim, step.1, i - 1);
      RunCons(lines, tdim, depth, i - 1, i);
    }
  }

  /** Line `at` of a run is line `k == at - 1` of the run of the remaining
      lines, started at the depth the first line leaves. */
  lemma {:induction false} RunCons(lines: seq<string>, tdim: nat, depth: int, k: nat, at: nat)
    requires at < |lines| && at == k + 1
    ensures lines[at] == lines[1..][k]
    ensures Run(lines, tdim, depth).0[at] == Run(lines[1..], tdim, Step(lines[0], tdim, depth).1).0[k]
  {
    var step := Step(lines[0], tdim, depth);
    var rest := Run(lines[1..], tdim, step.1);
    assert Run(lines, tdim, depth).0 == [step.0] + rest.0;
  }

  lemma {:induction false} CountJoin(xs: seq<string>, sep: string, c: char)
    requires c !in sep
    ensures Count(Join(xs, sep), c) == Count(Concat(xs), c)
  {
    if |xs| == 1 {
      assert Concat(xs) == xs[0] + Concat(xs[1..]);
      assert Concat(xs[1..]) == "";
      assert xs[0] + "" == xs[0];
    } else if |xs| > 1 {
      CountJoin(xs[1..], sep, c);
      CountAppend(xs[0] + sep, Join(xs[1..], sep), c);
      CountAppend(xs[0], sep, c);
      CountAppend(xs[0], Concat(xs[1..]), c);
      assert Count(sep, c) == 0 by { CountAbsent(sep, c); }
    }
  }

  lemma {:induction false} CountAbsent(s: string, c: char)
    requires c !in s
    ensures Count(s, c) == 0
  {
    if |s| > 0 {
      assert c !in s[1..] by {
        forall k | 0 <= k < |s| - 1 ensures s[1..][k] != c {
          assert s[1..][k] == s[k + 1];
        }
      }
      CountAbsent(s[1..], c);
    }
  }

  /** The corrected parser reads line `i` of numpy's rendering at the bracket
      balance of the lines above it: blank lines are copied, a line that does
      not reach `tdim` is copied verbatim, any other gets its barriers. */
  lemma {:induction false} ArrayToStrPlusTdimByLine(text: string, tdim: nat, i: nat)
    requires i < |Split(text, "\n")|
    ensures var lines := Split(text, "\n");
            var outs := Split(ArrayToStrPlusTdim(text, tdim), "\n");
            var depth := Net(Concat(lines[..i]));
            && |outs| == |lines|
            && (|lines[i]| == 0 ==> outs[i] == lines[i])
            && (|lines[i]| > 0 && !IsBarrier(lines[i], tdim, depth) ==> outs[i] == lines[i])
            && (|lines[i]| > 0 && IsBarrier(lines[i], tdim, depth) ==> outs[i] == BarrierLine(lines[i], tdim, depth))
  {
    var lines := Split(text, "\n");
    var run := Run(lines, tdim, 0).0;
    SplitPiecesFree(text, '\n');
    LinesFree(lines, tdim, 0);
    SplitJoin(run, '\n');
    assert Split(ArrayToStrPlusTdim(text, tdim), "\n") == run;
    RunAt(lines, tdim, 0, i);
    assert run[i] == Step(lines[i], tdim, Net(Concat(lines[..i]))).0;
  }

  /** After the whole text the corrected depth is the bracket balance of the
      text. */
  lemma {:induction false} FinalDepth(text: string, tdim: nat)
    ensures Run(Split(text, "\n"), tdim, 0).1 == Net(text)
  {
    var lines := Split(text, "\n");
    RunDepth(lines, tdim, 0);
    JoinSplit(text, "\n");
    CountJoin(lines, "\n", '[');
    CountJoin(lines, "\n", ']');
  }

  /** A barrier line starts with `line[:tdim]` and the front `|`. */
  lemma {:induction false} BarrierFront(line: string, tdim: nat, depth: int)
    ensures var k := if tdim <= |line| then tdim else |line|;
            var out := BarrierLine(line, tdim, depth);
            k < |out| && out[..k] == line[..k] && out[k] == '|'
  {
  }

  /** While the tabular brackets stay open (`del >= 0`) the line ends with
      `del` spaces and the back `|`; taking both barriers and the padding out
      gives back the line. */
  lemma {:induction false} BarrierOpen(line: string, tdim: nat, depth: int)
    requires depth + Opened(line) - Closed(line) - tdim >= 0
    ensures var del := depth + Opened(line) - Closed(line) - tdim;
            var k := if tdim <= |line| then tdim else |line|;
            var out := BarrierLine(line, tdim, depth);
            && |out| == |line| + del + 2
            && out[|out| - del - 1..] == Spaces(del) + "|"
            && out[..k] + out[k + 1..|out| - del - 1] == line
  {
    var del := depth + Opened(line) - Closed(line) - tdim;
    var k := if tdim <= |line| then tdim else |line|;
    BarrierOpenShape(line, tdim, depth);
    TakeDropSplit(line, tdim, k);
    OpenPieces(PyTake(line, tdim), PyDrop(line, tdim), Spaces(del) + "|", BarrierLine(line, tdim, depth), k, del);
  }

  /** A line on which no tabular bracket closes: the front, `|`, the rest,
      the padding and `|`. */
  lemma {:induction false} BarrierOpenShape(line: string, tdim: nat, depth: int)
    requires depth + Opened(line) - Closed(line) - tdim >= 0
    ensures var del := depth + Opened(line) - Closed(line) - tdim;
            BarrierLine(line, tdim, depth) == PyTake(line, tdim) + "|" + PyDrop(line, tdim) + (Spaces(del) + "|")
  {
  }

  /** `s[:j]` and `s[j:]` for `j >= 0` cut `s` at `k`, the smaller of `j`
      and its length. */
  lemma {:induction false} TakeDropSplit<T>(s: seq<T>, j: nat, k: nat)
    requires k == if j <= |s| then j else |s|
    ensures |PyTake(s, j)| == k && PyTake(s, j) + PyDrop(s, j) == s
  {
    assert PyTake(s, j) == s[..k];
    assert PyDrop(s, j) == s[k..];
    assert s[..k] + s[k..] == s;
  }

  /** The parts of `a + "|" + c + d`, `a` being `na` long and `d` being
      `del + 1` long. */
  lemma {:induction false} OpenPieces(a: string, c: string, d: string, out: string, na: nat, del: nat)
    requires out == a + "|" + c + d && |a| == na && |d| == del + 1
    ensures |out| == na + |c| + del + 2
    ensures out[|out| - del - 1..] == d
    ensures out[..na] + out[na + 1..|out| - del - 1] == a + c
  {
    assert out[..na] == a;
    assert out[na + 1..|out| - del - 1] == c;
  }

  /** The brackets closing on a line read at `depth` below `tdim`: `-del`. */
  function Closing(line: string, tdim: nat, depth: int): int {
    tdim - depth - Opened(line) + Closed(line)
  }

  /** How much of the line's end the back `|` keeps after it: the last
      `Closing` characters, or the whole line when it is shorter. */
  function KeptTail(line: string, tdim: nat, depth: int): nat
    requires Closing(line, tdim, depth) > 0
  {
    var m := Closing(line, tdim, depth);
    if m <= |line| then m else |line|
  }

  /** When `m = -del` tabular brackets close on the line, the back `|` goes
      before its last `m` characters, which are kept; if the front barrier
      lies before them, taking both barriers out gives back the line. */
  lemma {:induction false} BarrierClosing(line: string, tdim: nat, depth: int)
    requires Closing(line, tdim, depth) > 0
    ensures var n := KeptTail(line, tdim, depth);
            var out := BarrierLine(line, tdim, depth);
            && n < |out|
            && out[|out| - n..] == line[|line| - n..]
            && out[|out| - n - 1] == '|'
    ensures var m := Closing(line, tdim, depth);
            var out := BarrierLine(line, tdim, depth);
            m <= |line| && tdim <= |line| - m ==>
              && |out| == |line| + 2
              && out[..tdim] + out[tdim + 1..|out| - m - 1] + out[|out| - m..] == line
  {
    var m := Closing(line, tdim, depth);
    var n := KeptTail(line, tdim, depth);
    var out := BarrierLine(line, tdim, depth);
    var front, mid, tail := PyTake(line, tdim), PySlice(line, tdim, -m), line[|line| - n..];
    BarrierClosingShape(line, tdim, depth);
    FivePieces(front, mid, tail, out, |front|, n);
    if m <= |line| && tdim <= |line| - m {
      assert front == line[..tdim];
      assert mid == line[tdim..|line| - m];
      FivePieces(line[..tdim], line[tdim..|line| - m], line[|line| - m..], out, tdim, m);
      RebuildThree(line, tdim, |line| - m);
    }
  }

  /** A line on which tabular brackets close: the front, `|`, the middle,
      `|`, and the kept tail. */
  lemma {:induction false} BarrierClosingShape(line: string, tdim: nat, depth: int)
    requires Closing(line, tdim, depth) > 0
    ensures BarrierLine(line, tdim, depth) ==
              PyTake(line, tdim) + "|" + PySlice(line, tdim, -Closing(line, tdim, depth)) + "|" +
              line[|line| - KeptTail(line, tdim, depth)..]
  {
    var del := -Closing(line, tdim, depth);
    assert depth + Opened(line) - Closed(line) - tdim == del;
    assert Spaces(del) + "|" == "|";
    assert PyDrop(line, del) == line[|line| - KeptTail(line, tdim, depth)..];
  }

  /** The parts of `a + "|" + b + "|" + c`, the first `na` and the last `n`
      long. */
  lemma {:induction false} FivePieces(a: string, b: string, c: string, out: string, na: nat, n: nat)
    requires out == a + "|" + b + "|" + c && |a| == na && |c| == n
    ensures |out| == na + |b| + n + 2 && n < |out|
    ensures out[|out| - n..] == c && out[|out| - n - 1] == '|'
    ensures out[..na] == a && out[na + 1..|out| - n - 1] == b
  {
    assert out[|out| - n..] == c;
    assert out[na + 1..|out| - n - 1] == b;
  }

  /** Cutting a string at two points and gluing the three parts back. */
  lemma {:induction false} RebuildThree(s: string, i: nat, j: nat)
    requires i <= j <= |s|
    ensures s[..i] + s[i..j] + s[j..] == s
  {
  }

  /** The two parsers agree wherever every non-blank line reaches `tdim` (so
      the stale `dim_i2` is never read), as on numpy's unsummarised, unwrapped
      output when `tdim` does not exceed the array's rank. */
  lemma {:induction false} AgreeOnBarrierLines(lines: seq<string>, tdim: nat, depth: int, last: Option<int>)
    requires forall i :: 0 <= i < |lines| ==>
               |lines[i]| == 0 || IsBarrier(lines[i], tdim, depth + Net(Concat(lines[..i])))
    ensures RunAsWritten(lines, tdim, Scan(depth, last)).Ok?
    ensures RunAsWritten(lines, tdim, Scan(depth, last)).value.0 == Run(lines, tdim, depth).0
    ensures RunAsWritten(lines, tdim, Scan(depth, last)).value.1.depth == Run(lines, tdim, depth).1
  {
    if |lines| > 0 {
      var tail := lines[1..];
      assert lines[..0] == [];
      var step := Step(lines[0], tdim, depth);
      var s2 := AgreeFirst(lines[0], tdim, depth, last);
      BarrierTail(lines, tdim, depth);
      AgreeOnBarrierLines(tail, tdim, step.1, s2.last);
    }
  }

  /** On a blank or barrier line both parsers emit the same line and reach
      the same depth. */
  lemma {:induction false} AgreeFirst(line: string, tdim: nat, depth: int, last: Option<int>) returns (s2: Scan)
    requires |line| == 0 || IsBarrier(line, tdim, depth)
    ensures StepAsWritten(Scan(depth, last), line, tdim) == Ok((Step(line, tdim, depth).0, s2))
    ensures s2.depth == Step(line, tdim, depth).1
  {
    s2 := StepAsWritten(Scan(depth, last), line, tdim).value.1;
  }

  lemma {:induction false} BarrierTail(lines: seq<string>, tdim: nat, depth: int)
    requires |lines| > 0
    requires forall i :: 0 <= i < |lines| ==>
               |lines[i]| == 0 || IsBarrier(lines[i], tdim, depth + Net(Concat(lines[..i])))
    ensures var tail := lines[1..];
            var d := depth + Net(lines[0]);
            forall i :: 0 <= i < |tail| ==> |tail[i]| == 0 || IsBarrier(tail[i], tdim, d + Net(Concat(tail[..i])))
  {
    var tail := lines[1..];
    var d := depth + Net(lines[0]);
    forall i | 0 <= i < |tail|
      ensures |tail[i]| == 0 || IsBarrier(tail[i], tdim, d + Net(Concat(tail[..i])))
    {
      PrefixNet(lines, i + 1);
      assert lines[1..][..i] == tail[..i];
      assert tail[i] == lines[i + 1];
    }
  }

  /** A rendering whose first non-blank line does not reach `tdim` (here a
      vector with `tdim` 2) makes the code as written read `dim_i2` before it
      is bound; the corrected parser copies the line. */
  lemma {:induction false} AsWrittenUnboundExample()
    ensures ArrayToStrPlusTdimAsWritten("[1 2]", 2) == Err(UnboundLocalError)
    ensures ArrayToStrPlusTdim("[1 2]", 2) == "[1 2]"
  {
    ExampleLine();
  }

  /** The example is one line holding one opening bracket. */
  lemma {:induction false} ExampleLine()
    ensures Split("[1 2]", "\n") == ["[1 2]"] && Count("[1 2]", '[') == 1
  {
    var text := "[1 2]";
    NoCharNoOccurrence(text, '\n');
    assert Count(text, '[') == 1 by { assert text[1..] == "1 2]"; }
  }
}

=== FILE: text.dfy ===
/** Python string operations used by the formatting code: `str.split` with a
    separator, `sep.join`, slicing with negative bounds, and list indexing. */
module Text {
  import opened Common

  predicate OccursAt(s: string, sep: string, i: nat) {
    i + |sep| <= |s| && s[i..i + |sep|] == sep
  }

  /** Index of the first occurrence of `sep` at or after `i`, or -1. */
  function FindFrom(s: string, sep: string, i: nat): (r: int)
    requires |sep| > 0
    ensures r == -1 || (i <= r && OccursAt(s, sep, r))
    ensures r >= 0 ==> forall j :: i <= j < r ==> !OccursAt(s, sep, j)
    ensures r == -1 ==> forall j :: i <= j ==> !OccursAt(s, sep, j)
    decreases |s| - i
  {
    if i + |sep| > |s| then -1
    else if s[i..i + |sep|] == sep then i
    else FindFrom(s, sep, i + 1)
  }

  /** `s.split(sep)`: the pieces between non-overlapping occurrences of `sep`,
      scanning from the left. */
  function Split(s: string, sep: string): (r: seq<string>)
    requires |sep| > 0
    ensures |r| >= 1
    decreases |s|
  {
    var i := FindFrom(s, sep, 0);
    if i < 0 then [s] else [s[..i]] + Split(s[i + |sep|..], sep)
  }

  /** `sep.join(xs)`. */
  function Join(xs: seq<string>, sep: string): string {
    if |xs| == 0 then "" else if |xs| == 1 then xs[0] else xs[0] + sep + Join(xs[1..], sep)
  }

  /** `''.join(xs)`. */
  function Concat(xs: seq<string>): string {
    if |xs| == 0 then "" else xs[0] + Concat(xs[1..])
  }

  /** Joining the pieces of a split gives back the original string. */
  lemma {:induction false} JoinSplit(s: string, sep: string)
    requires |sep| > 0
    ensures Join(Split(s, sep), sep) == s
    decreases |s|
  {
    var i := FindFrom(s, sep, 0);
    SplitUnfold(s, sep);
    if i >= 0 {
      var rest := s[i + |sep|..];
      JoinSplit(rest, sep);
      JoinCons(s[..i], Split(rest, sep), sep);
      SliceAround(s, i, i + |sep|);
    }
  }

  lemma {:induction false} JoinCons(x: string, tail: seq<string>, sep: string)
    requires |tail| >= 1
    ensures Join([x] + tail, sep) == x + sep + Join(tail, sep)
  {
    assert ([x] + tail)[1..] == tail;
  }

  lemma {:induction false} SliceAround(s: string, i: nat, j: nat)
    requires i <= j <= |s|
    ensures s == s[..i] + s[i..j] + s[j..]
  {
  }

  lemma {:induction false} OccursAtChar(s: string, c: char, j: nat)
    ensures OccursAt(s, [c], j) <==> j < |s| && s[j] == c
  {
    if j + 1 <= |s| {
      assert s[j..j + 1] == [s[j]];
    }
  }

  lemma {:induction false} NoCharNoOccurrence(s: string, c: char)
    requires c !in s
    ensures FindFrom(s, [c], 0) == -1
  {
    forall j | 0 <= j ensures !OccursAt(s, [c], j) {
      OccursAtChar(s, c, j);
    }
  }

  /** Splitting a join on a one-character separator gives back the pieces,
      provided none of them contains the separator. */
  lemma {:induction false} SplitJoin(xs: seq<string>, c: char)
    requires |xs| >= 1
    requires forall i :: 0 <= i < |xs| ==> c !in xs[i]
    ensures Split(Join(xs, [c]), [c]) == xs
    decreases |xs|
  {
    if |xs| == 1 {
      NoCharNoOccurrence(xs[0], c);
    } else {
      var s := Join(xs, [c]);
      var rest := Join(xs[1..], [c]);
      assert s == xs[0] + [c] + rest;
      var k := |xs[0]|;
      OccursAtChar(s, c, k);
      forall j | 0 <= j < k ensures !OccursAt(s, [c], j) {
        OccursAtChar(s, c, j);
        assert s[j] == xs[0][j];
      }
      assert FindFrom(s, [c], 0) == k;
      assert s[k + 1..] == rest;
      assert s[..k] == xs[0];
      SplitJoin(xs[1..], c);
    }
  }

  /** Splitting a join gives back the pieces, for any separator whose first
      character none of the pieces contains (`', '` between names without a
      comma, say). */
  lemma {:induction false} SplitJoinSep(xs: seq<string>, sep: string)
    requires |xs| >= 1 && |sep| > 0
    requires forall i :: 0 <= i < |xs| ==> sep[0] !in xs[i]
    ensures Split(Join(xs, sep), sep) == xs
    decreases |xs|
  {
    if |xs| > 1 {
      var s := Join(xs, sep);
      var rest := Join(xs[1..], sep);
      assert s == xs[0] + sep + rest;
      var k := |xs[0]|;
      assert s[k..k + |sep|] == sep;
      assert OccursAt(s, sep, k);
      assert FindFrom(s, sep, 0) == k;
      SplitUnfold(s, sep);
      assert s[k + |sep|..] == rest;
      assert s[..k] == xs[0];
      SplitJoinSep(xs[1..], sep);
    }
  }

  function Count(s: string, c: char): nat {
    if |s| == 0 then 0 else (if s[0] == c then 1 else 0) + Count(s[1..], c)
  }

  /** `s` with every `c` removed. */
  function Remove(s: string, c: char): string {
    if |s| == 0 then "" else (if s[0] == c then "" else [s[0]]) + Remove(s[1..], c)
  }

  lemma {:induction false} CountAppend(a: string, b: string, c: char)
    ensures Count(a + b, c) == Count(a, c) + Count(b, c)
  {
    if |a| > 0 {
      assert (a + b)[1..] == a[1..] + b;
      CountAppend(a[1..], b, c);
    } else {
      assert a + b == b;
    }
  }

  lemma {:induction false} RemoveAppend(a: string, b: string, c: char)
    ensures Remove(a + b, c) == Remove(a, c) + Remove(b, c)
  {
    if |a| > 0 {
      assert (a + b)[1..] == a[1..] + b;
      RemoveAppend(a[1..], b, c);
    } else {
      assert a + b == b;
    }
  }

  lemma {:induction false} RemoveAbsent(s: string, c: char)
    requires c !in s
    ensures Remove(s, c) == s && Count(s, c) == 0
  {
    if |s| > 0 {
      RemoveAbsent(s[1..], c);
    }
  }

  lemma {:induction false} FirstCharIndex(s: string, c: char, i: int)
    requires i == FindFrom(s, [c], 0) && i >= 0
    ensures 0 <= i < |s| && s[i] == c && c !in s[..i]
  {
    OccursAtChar(s, c, i);
    forall j | 0 <= j < i ensures s[j] != c {
      OccursAtChar(s, c, j);
    }
  }

  lemma {:induction false} NoFindNoChar(s: string, c: char)
    requires FindFrom(s, [c], 0) < 0
    ensures c !in s
  {
    forall j | 0 <= j < |s| ensures s[j] != c {
      OccursAtChar(s, c, j);
    }
  }

  lemma {:induction false} SplitUnfold(s: string, sep: string)
    requires |sep| > 0
    ensures var i := FindFrom(s, sep, 0);
      && (i < 0 ==> Split(s, sep) == [s])
      && (i >= 0 ==> i + |sep| <= |s| && s[i..i + |sep|] == sep
                     && Split(s, sep) == [s[..i]] + Split(s[i + |sep|..], sep))
  {
  }

  /** One step of splitting on a character: either the character is absent and
      the split is the whole string, or the first piece ends at its first
      occurrence `i`. */
  lemma {:induction false} SplitCharStep(s: string, c: char) returns (i: int)
    ensures i < 0 ==> c !in s && Split(s, [c]) == [s]
    ensures i >= 0 ==> && i < |s| && s[i] == c && c !in s[..i]
                       && s == s[..i] + [c] + s[i + 1..]
                       && Split(s, [c]) == [s[..i]] + Split(s[i + 1..], [c])
  {
    i := FindFrom(s, [c], 0);
    SplitUnfold(s, [c]);
    if i < 0 {
      NoFindNoChar(s, c);
    } else {
      FirstCharIndex(s, c, i);
      SliceAround(s, i, i + 1);
      assert s[i..i + 1] == [c];
    }
  }

  /** Splitting on a character yields one more piece than there are occurrences,
      so `len(line.split('[')) - 1` counts the brackets. */
  lemma {:induction false} SplitCount(s: string, c: char)
    ensures |Split(s, [c])| == Count(s, c) + 1
    decreases |s|
  {
    var i := SplitCharStep(s, c);
    if i < 0 {
      RemoveAbsent(s, c);
    } else {
      SplitCount(s[i + 1..], c);
      CountAppend(s[..i] + [c], s[i + 1..], c);
      CountAppend(s[..i], [c], c);
      RemoveAbsent(s[..i], c);
      assert Count([c], c) == 1 by { assert [c][1..] == []; }
    }
  }

  /** Gluing the pieces of a split on a character gives the string with that
      character removed. */
  lemma {:induction false} SplitConcat(s: string, c: char)
    ensures Concat(Split(s, [c])) == Remove(s, c)
    decreases |s|
  {
    var i := SplitCharStep(s, c);
    if i < 0 {
      RemoveAbsent(s, c);
      ConcatCons(s, []);
      assert [s] + [] == [s];
    } else {
      SplitConcat(s[i + 1..], c);
      RemoveAroundChar(s[..i], s[i + 1..], c);
      ConcatCons(s[..i], Split(s[i + 1..], [c]));
    }
  }

  lemma {:induction false} RemoveSelf(c: char)
    ensures Remove([c], c) == ""
  {
    assert [c][1..] == [];
  }

  lemma {:induction false} RemoveAroundChar(a: string, b: string, c: char)
    requires c !in a
    ensures Remove(a + [c] + b, c) == a + Remove(b, c)
  {
    RemoveAppend(a + [c], b, c);
    RemoveAppend(a, [c], c);
    RemoveAbsent(a, c);
    RemoveSelf(c);
    var x := Remove(a + [c], c);
    assert x == a + "";
    assert x == a;
  }

  lemma {:induction false} ConcatCons(x: string, tail: seq<string>)
    ensures Concat([x] + tail) == x + Concat(tail)
  {
    assert ([x] + tail)[1..] == tail;
  }

  /** No piece of a split on a character contains that character. */
  lemma {:induction false} SplitPiecesFree(s: string, c: char)
    ensures forall k :: 0 <= k < |Split(s, [c])| ==> c !in Split(s, [c])[k]
    decreases |s|
  {
    var i := SplitCharStep(s, c);
    if i >= 0 {
      SplitPiecesFree(s[i + 1..], c);
    }
  }

  /** A Python slice bound: negative values count from the end, and bounds are
      clamped to `[0, n]`. */
  function PyBound(n: nat, i: int): (r: nat)
    ensures r <= n
    ensures 0 <= i <= n ==> r == i
    ensures -(n as int) <= i < 0 ==> r == n + i
  {
    if i < 0 then (if n + i < 0 then 0 else n + i) else if i > n then n else i
  }

  /** `s[i:j]`. */
  function PySlice<T>(s: seq<T>, i: int, j: int): (r: seq<T>)
    ensures |r| <= |s|
  {
    var a := PyBound(|s|, i);
    var b := PyBound(|s|, j);
    if a < b then s[a..b] else []
  }

  /** `s[:j]`. */
  function PyTake<T>(s: seq<T>, j: int): seq<T> { PySlice(s, 0, j) }

  /** `s[i:]`. */
  function PyDrop<T>(s: seq<T>, i: int): seq<T> { PySlice(s, i, |s|) }

  /** `xs[i]` with Python's negative indices; out of range is an IndexError. */
  function PyAt<T>(xs: seq<T>, i: int): (r: Result<T>)
    ensures r.Ok? <==> -|xs| <= i < |xs|
    ensures r.Ok? && i >= 0 ==> r.value == xs[i]
    ensures r.Ok? && i < 0 ==> r.value == xs[|xs| + i]
  {
    if 0 <= i < |xs| then Ok(xs[i])
    else if -|xs| <= i < 0 then Ok(xs[|xs| + i])
    else Err(IndexError)
  }

  /** `' ' * n`: empty when `n <= 0`. */
  function Spaces(n: int): (r: string)
    ensures |r| == (if n < 0 then 0 else n)
    ensures forall i :: 0 <= i < |r| ==> r[i] == ' '
  {
    if n <= 0 then "" else seq(n, _ => ' ')
  }

  /** Longest length among `xs` (0 for none). */
  function MaxLen(xs: seq<string>): (r: nat)
    ensures forall i :: 0 <= i < |xs| ==> |xs[i]| <= r
    ensures |xs| > 0 ==> exists i :: 0 <= i < |xs| && |xs[i]| == r
    ensures |xs| == 0 ==> r == 0
  {
    if |xs| == 0 then 0
    else
      var m := MaxLen(xs[1..]);
      assert forall i :: 1 <= i < |xs| ==> xs[i] == xs[1..][i - 1];
      if |xs[0]| >= m then |xs[0]| else m
  }

  /** Each line followed by a newline (`string += row + '\n'`). */
  function Terminated(lines: seq<string>): string {
    if |lines| == 0 then "" else lines[0] + "\n" + Terminated(lines[1..])
  }

  lemma {:induction false} TerminatedIsJoin(lines: seq<string>)
    ensures Terminated(lines) == Join(lines + [""], "\n")
  {
    if |lines| > 0 {
      TerminatedIsJoin(lines[1..]);
      assert (lines + [""])[1..] == lines[1..] + [""];
    }
  }

  /** Splitting newline-terminated lines gives them back, and an empty last
      piece. */
  lemma {:induction false} TerminatedSplit(lines: seq<string>)
    requires forall n :: 0 <= n < |lines| ==> '\n' !in lines[n]
    ensures Split(Terminated(lines), "\n") == lines + [""]
  {
    TerminatedIsJoin(lines);
    SplitJoin(lines + [""], '\n');
  }

  /** `'%d' % i`. */
  function IntStr(i: int): string {
    if i < 0 then "-" + Digits(-i) else Digits(i)
  }

  function Digits(n: nat): string {
    var d := "0123456789"[n % 10];
    if n < 10 then [d] else Digits(n / 10) + [d]
  }

  function Sum(xs: seq<nat>): nat {
    if |xs| == 0 then 0 else xs[0] + Sum(xs[1..])
  }

  function Max(a: nat, b: nat): nat {
    if a >= b then a else b
  }
}

=== FILE: values.dfy ===
/** The Python objects the shape-level code receives, described by what that code
    inspects: their type and whether they carry the `ts`, `view` and `__view__`
    attributes.  Array contents are opaque; only shapes are kept. */
module Values {
  import opened Common
  import opened Shapes

  /** A TablArray: its shape descriptor and its current view tag.  The tag is a
      string because `setview` accepts any string; it is recognised with
      `ParseView` where the code branches on it. */
  datatype TablArray = TablArray(desc: Descriptor, view: string)

  datatype Value =
    | Tab(ta: TablArray)
    | NdArray(shape: Shape)
    | Scalar
      /** Any other object: its `ts` attribute, and whether it has `view` and
          `__view__` (a TablaSet has all three, an Assembly none). */
    | Foreign(ts: TsAttr, hasView: bool, hasViewMethod: bool)

  /** The `ts` attribute of an object: missing, present and None (a TablaSet
      before its first insert), or a descriptor. */
  datatype TsAttr = NoTs | TsNone | Ts(d: Descriptor)

  predicate HasTs(v: Value) { v.Tab? || (v.Foreign? && !v.ts.NoTs?) }
  predicate HasView(v: Value) { v.Tab? || (v.Foreign? && v.hasView) }
  predicate HasViewMethod(v: Value) { v.Tab? || (v.Foreign? && v.hasViewMethod) }

  /** The value of the `ts` attribute, None standing for Python's None. */
  function TsOf(v: Value): (r: Option<Descriptor>)
    requires HasTs(v)
    ensures v.Tab? ==> r == Some(v.ta.desc)
    ensures v.Foreign? ==> (r.None? <==> v.ts.TsNone?)
  {
    if v.Tab? then Some(v.ta.desc)
    else if v.ts.Ts? then Some(v.ts.d)
    else None
  }

  /** A TablArray's `__view__(tag)` and `setview(tag)`: the same descriptor and
      storage under another tag. */
  function Relabel(t: TablArray, tag: string): TablArray {
    t.(view := tag)
  }

  /** An operand of the reshape and cumulative functions: a TablArray, or a plain
      numpy array that is handed to numpy unchanged. */
  datatype Operand = TaOp(t: TablArray) | ArrayOp(shape: Shape)
}

=== FILE: views.dfy ===
/** The four view accessors of `views.py`: an object that has `ts` and `__view__`
    is asked for its view under the tag; anything else is returned unchanged. */
module Views {
  import opened Shapes
  import opened Values
  import Io

  /** `foreign(obj, tag)` stands for `obj.__view__(tag)` of an object other than a
      TablArray (a TablaSet, say), whose method is outside this module. */
  function ViewAccessor(obj: Value, v: View, foreign: (Value, string) -> Value): (r: Value)
    ensures !(HasTs(obj) && HasViewMethod(obj)) ==> r == obj
    ensures obj.Tab? ==> r.Tab? && r.ta.desc == obj.ta.desc && r.ta.view == Tag(v)
    ensures obj.Foreign? && HasTs(obj) && HasViewMethod(obj) ==> r == foreign(obj, Tag(v))
  {
    if HasTs(obj) && HasViewMethod(obj) then
      if obj.Tab? then Tab(Relabel(obj.ta, Tag(v))) else foreign(obj, Tag(v))
    else obj
  }

  /** `bcast(obj)`. */
  function BcastOf(obj: Value, foreign: (Value, string) -> Value): (r: Value)
    ensures obj.Tab? ==> r == Tab(obj.ta.(view := "bcast"))
    ensures !(HasTs(obj) && HasViewMethod(obj)) ==> r == obj
    ensures obj.Foreign? && HasTs(obj) && HasViewMethod(obj) ==> r == foreign(obj, "bcast")
  {
    ViewAccessor(obj, Bcast, foreign)
  }

  /** `cell(obj)`. */
  function CellOf(obj: Value, foreign: (Value, string) -> Value): (r: Value)
    ensures obj.Tab? ==> r == Tab(obj.ta.(view := "cell"))
    ensures !(HasTs(obj) && HasViewMethod(obj)) ==> r == obj
    ensures obj.Foreign? && HasTs(obj) && HasViewMethod(obj) ==> r == foreign(obj, "cell")
  {
    ViewAccessor(obj, Cell, foreign)
  }

  /** `table(obj)`. */
  function TableOf(obj: Value, foreign: (Value, string) -> Value): (r: Value)
    ensures obj.Tab? ==> r == Tab(obj.ta.(view := "table"))
    ensures !(HasTs(obj) && HasViewMethod(obj)) ==> r == obj
    ensures obj.Foreign? && HasTs(obj) && HasViewMethod(obj) ==> r == foreign(obj, "table")
  {
    ViewAccessor(obj, Table, foreign)
  }

  /** `array(obj)`. */
  function ArrayOf(obj: Value, foreign: (Value, string) -> Value): (r: Value)
    ensures obj.Tab? ==> r == Tab(obj.ta.(view := "array"))
    ensures !(HasTs(obj) && HasViewMethod(obj)) ==> r == obj
    ensures obj.Foreign? && HasTs(obj) && HasViewMethod(obj) ==> r == foreign(obj, "array")
  {
    ViewAccessor(obj, Array, foreign)
  }

  /** Plain numpy arrays and scalars pass through every accessor. */
  lemma {:induction false} AccessorsPassPlainValues(obj: Value, v: View, foreign: (Value, string) -> Value)
    requires obj.NdArray? || obj.Scalar?
    ensures ViewAccessor(obj, v, foreign) == obj
  {
  }

  /** A TablaSet before its first insert has `ts` set to None; the accessors
      still ask it for its view, and it quacks like a TablArray. */
  lemma {:induction false} EmptyTablaSetViewed(v: View, foreign: (Value, string) -> Value)
    ensures ViewAccessor(Foreign(TsNone, true, true), v, foreign) == foreign(Foreign(TsNone, true, true), Tag(v))
    ensures Io.QuacksLikeTablArray(Foreign(TsNone, true, true))
  {
  }

  /** Switching a TablArray to another view and back to its own tag gives back the
      very same TablArray; only the tag ever changes. */
  lemma {:induction false} ViewRoundTrip(t: TablArray, v: View, foreign: (Value, string) -> Value)
    ensures ViewAccessor(Tab(t), v, foreign).ta.desc == t.desc
    ensures ParseView(t.view).Some? ==>
              ViewAccessor(ViewAccessor(Tab(t), v, foreign), ParseView(t.view).value, foreign) == Tab(t)
  {
  }
}
